=== FILE: README.md ===
# aily-project-tools install and uninstall scripts, in Dafny

The repository ships one `postinstall.js` and/or `uninstall.js` per tool.
Each one unpacks the tool's 7-Zip archive into the directory named by
`AILY_TOOLS_PATH`, or removes it again. A top-level `uninstall.js` runs
the per-tool uninstallers one after another. This project models the
sequential logic of those scripts:

- the esp32h2, esp32s3, bossac and mklittlefs installers;
- the STM32 SVD and esp32h2 uninstallers;
- the batch uninstaller.

The scripts do their work through the filesystem, HTTP, 7-Zip child
processes and timers. In the model:

- The filesystem is a map from paths (sequences of name segments) to
  `Dir` or `File`. Every primitive is atomic: a call that fails changes
  nothing.
- Everything else becomes an oracle handed in as a parameter:
  - the outcome of each HTTP request;
  - how each 7-Zip run ends and what the archive holds;
  - which `rmSync` or `rename` attempt throws;
  - what `readdir` lists;
  - how each child `node` process ends.
- Each script becomes a pure function from the starting tree, the
  environment and the oracles to the final tree and the way the script
  ended:
  - finished normally;
  - skipped at a precheck;
  - failed at a named step. For the esp32h2 and bossac installers this is
    the step that leads to `process.exit(1)`.

Modules:

- `Wrappers`: `Option` and `Result`.
- `Strings`: the JavaScript string and `path` operations used:
  - `replace` with a string pattern;
  - `split('@')[0]`;
  - `path.extname`;
  - `path.basename(f, '.7z')`.
- `Naming`: archive and folder names, the architecture family, download URLs.
- `Retry`: `withRetry`, over a script of call outcomes.
- `FileSystem`: the tree and recursive delete, as `rmSync` and as `rimraf`.
  Also `rename` (with the POSIX `rename(2)` errors), `mkdir -p`, and
  what a 7-Zip extraction writes.
- `Download`: `getZipFile`, covering the skip-if-present rule, partial-file
  clean-up and the progress reporter.
- `Unpack`: `unpack`, covering argument checks, the argument vector and
  exit-code mapping.
- `Common`: what the scripts share:
  - the environment;
  - the prechecks;
  - the archive filter;
  - `checkAndCleanExistingFolder`;
  - extraction with retries.
- `Purge`: `checkAndRemoveOldVersions`.
- One module per script: `H2Install`, `S3Install`, `BossacInstall`,
  `MklittlefsInstall`, `SvdUninstall`, `H2Uninstall`, `BatchUninstall`.

Where the project's own description and the code disagree, the model
follows the code:

- The bossac installer leaves its files in `bossac_<version>`, not `bossac`
  (`bossac/postinstall.js:292-293`; `Naming.BossacExample`).
- The esp32h2 installer never purges old versions: the call is commented
  out at `idf_esp32h2/postinstall.js:283`. `H2Install.Install` keeps
  everything outside its own install directory.
- `idf_esp32h2` and `STM32_SVD` are not in the batch uninstaller's list.

## Model

| member | source | states |
|---|---|---|
| Strings.ReplaceFirstChar | bossac/postinstall.js:293 | replacing `@` by `_` changes exactly one character, the first `@`; a name without `@` is returned unchanged |
| Strings.RemoveLeadingPattern | idf_esp32h2/postinstall.js:47 | removing the scope from a name that starts with it leaves exactly the rest of the name |
| Strings.BeforeFirst | idf_esp32s3/postinstall.js:54 | `split('@')[0]` is a prefix without `@`, followed in the name by `@` or by nothing |
| Strings.BaseName | STM32_SVD/uninstall.js:90 | `path.basename(f, '.7z')` removes a trailing `.7z` (unless that is the whole name) and leaves any other name alone |
| Strings.IsSevenZipIff | STM32_SVD/uninstall.js:78 | the extension filter accepts exactly the names of at least four characters ending in `.7z` in any letter case |
| Strings.SevenZipSuffixPassesFilter | mklittlefs/postinstall.js:50 | every `<stem>.7z` with a non-empty stem passes the filter |
| Naming.ArchFamily | idf_esp32h2/postinstall.js:13-17 | the family is `arm` exactly when the architecture starts with `arm`, and `intel` otherwise |
| Naming.StripArchiveExt | idf_esp32h2/postinstall.js:156 | a trailing `.7z` or `.zip`, in any letter case, is dropped; any other name is kept whole |
| Naming.ZipFileName | idf_esp32h2/postinstall.js:43-50 | `getZipFileName`: the tool name, then `@`, the version and `.7z`, four characters longer than tool name and version together |
| Naming.ScopedZipFileName | idf_esp32h2/postinstall.js:43-50 | a scoped package `@aily-project/tool-<t>` gives the archive `<t>@<version>.7z` |
| Naming.StripZipFileName | idf_esp32h2/postinstall.js:43-50 | stripping the extension from the archive name gives back `<tool>@<version>` |
| Naming.BaseNameAgreesOnZipFileName | idf_esp32h2/postinstall.js:346 | `path.basename(f, '.7z')` and the extension regex name the same folder for every archive the installer names |
| Naming.DerivedFolderIsRenamed | bossac/postinstall.js:292-299 | the folder derived from an archive name always holds `@`, so the no-op branch of the rename never fires for it |
| Naming.BossacExample | bossac/postinstall.js:292-293 | `bossac@1.9.1.7z` ends in folder `bossac_1.9.1` |
| Naming.H2DownloadUrl | idf_esp32h2/postinstall.js:27-31 | the URL is `<base>/tools/<platform>/`, then the architecture family (`arm` or `intel`) and a `/`, then the file name |
| Naming.BossacDownloadUrl | bossac/postinstall.js:14 | the bossac URL is `<base>/tools/` followed directly by the file name |
| Retry.Attempts | idf_esp32h2/postinstall.js:136-148 | from attempt n on: it stops at the first success; otherwise it calls through attempt `maxRetries` with one wait fewer than calls, and fails with the last error |
| Retry.WithRetry | idf_esp32h2/postinstall.js:133-151 | resolves with the first successful call's value after exactly that many calls; if all `maxRetries` calls fail, it makes `maxRetries` calls and `maxRetries - 1` waits and wraps the last error; with `maxRetries < 1` nothing is called |
| Retry.SucceedsIffSomeCallSucceeds | idf_esp32h2/postinstall.js:136-150 | a run succeeds exactly when one of the first `maxRetries` calls would |
| Download.PercentMonotone | idf_esp32h2/postinstall.js:87 | the integer percentage never falls as more bytes arrive |
| Download.Percentages | idf_esp32h2/postinstall.js:82-87 | one percentage per chunk, none below the starting one |
| Download.Reports | idf_esp32h2/postinstall.js:82-97 | nothing is printed without a positive total; printed values are strictly increasing and above the last one printed |
| Download.ReportsArePercentages | idf_esp32h2/postinstall.js:86-91 | every printed value is `floor(received * 100 / total)` after some chunk |
| Download.ReportsComplete | idf_esp32h2/postinstall.js:86-91 | every percentage reached above the last one printed is printed |
| Download.Fetch | idf_esp32h2/postinstall.js:52-120 | it resolves exactly when the file is already there or the response is a 200 written without error; an existing file is returned with no request and no change; a request error, a non-200 status or a write error leaves no file and rejects with that cause; only a 200 reports progress; only the archive's path changes |
| Download.FetchTwiceRequestsOnce | idf_esp32h2/postinstall.js:60-64 | a call after a successful one sends no request and changes nothing |
| Download.DownloadWithRetry | idf_esp32h2/postinstall.js:298-303 | success means the archive is on disk; failure means every attempt was made, the archive was not there and the tree is unchanged; an archive already present takes one call and no request; one delivering response among the attempts guarantees success; nothing but the archive's path ever changes |
| Unpack.Unpack | mklittlefs/postinstall.js:88-125 | an empty archive path or destination rejects before spawning; otherwise success means exit code 0; a spawn error or non-zero code rejects with it and the child's collected output |
| Unpack.UnpackWithRetry | idf_esp32s3/postinstall.js:140-142 | success means the child of the last call exited 0 and every earlier one did not; with an empty path every attempt fails |
| FileSystem.RemoveTree | STM32_SVD/uninstall.js:24 | a recursive delete removes the path and everything below it and nothing else |
| FileSystem.RemoveAbsentIsNoOp | STM32_SVD/uninstall.js:23-27 | deleting a path that does not exist leaves the tree unchanged |
| FileSystem.RemoveTreePreservesWellFormed | STM32_SVD/uninstall.js:24 | deleting a subtree leaves no entry without its directory |
| FileSystem.RemoveTry | STM32_SVD/uninstall.js:20-33 | `removeDir` resolves on a missing path, and rejects exactly when the path exists and the delete throws |
| FileSystem.RemoveEffect | STM32_SVD/uninstall.js:23-27 | after a resolved `removeDir` the path is absent, and a missing path changes nothing |
| FileSystem.RimrafAsWritten | bossac/postinstall.js:258-286 | the original `rimraf`: a missing path resolves with no change; only a throwing `statSync` or `readdirSync` rejects; a failed final `rmdir` or `unlink` resolves with the tree untouched; nothing outside the path changes |
| FileSystem.Rimraf | bossac/postinstall.js:258-286 | on a missing path it resolves with no change; once it resolves the path is gone and nothing outside it changed; on a present path it rejects exactly when a fault occurs |
| FileSystem.RimrafDiffersOnlyOnRemoveFault | bossac/postinstall.js:274-280 | the original and the corrected `rimraf` give different results exactly when the path exists and its final removal fails |
| FileSystem.RimrafAsWrittenResolvesWhilePresent | bossac/postinstall.js:274-280 | as written, a failing `rmdir` still resolves and the directory is still there |
| FileSystem.Move | bossac/postinstall.js:309 | after a rename the source subtree is gone and reappears, entry for entry, below the destination; everything below the destination came from below the source; nothing outside both paths changes |
| FileSystem.RenameSync | idf_esp32s3/postinstall.js:157 | a missing source fails; a destination that is non-empty or of another kind fails; an existing source renamed, with no fault, to an absent unrelated path in an existing directory succeeds; a success moves the whole subtree, leaves nothing below the destination that was not below the source, and changes nothing else |
| FileSystem.MovePreservesWellFormed | bossac/postinstall.js:309 | a rename between unrelated paths into an existing directory keeps every entry inside an existing directory |
| FileSystem.MkdirP | idf_esp32h2/postinstall.js:290 | `mkdirSync(p, {recursive: true})` succeeds exactly when no prefix of `p` is a file; it then makes every prefix a directory and only adds prefixes of `p` |
| FileSystem.MkdirPPreservesWellFormed | idf_esp32h2/postinstall.js:290 | creating directories keeps the tree well formed |
| FileSystem.Extract | mklittlefs/postinstall.js:97 | a 7-Zip run with `-y` writes every archive entry below the destination, overwriting, and keeps everything else |
| Common.InstallerPrecheck | idf_esp32h2/postinstall.js:259-274 | an installer proceeds exactly when the script directory exists, `AILY_TOOLS_PATH` is set and `AILY_7ZA_PATH` exists, checked in that order |
| Common.UninstallerPrecheck | STM32_SVD/uninstall.js:60-74 | an uninstaller proceeds exactly when the script directory exists, the tools path is set and the directory to clean exists; it reports a missing target only after the first two pass |
| Common.MakeDir | idf_esp32s3/postinstall.js:118-121 | the directory step succeeds exactly when the path exists already or `mkdir -p` can make it; it then exists, nothing is changed and only entries on the path are added |
| Common.Archives | idf_esp32s3/postinstall.js:124-125 | the archives are exactly the listed names whose lower-cased extension is `.7z` |
| Common.ArchivesAppend | idf_esp32s3/postinstall.js:124-125 | the filter keeps the listing's order: filtering a concatenation concatenates the filtered parts |
| Common.ArchivesSingle | idf_esp32s3/postinstall.js:124-125 | a single name is kept exactly when it is a `.7z` archive |
| Common.ArchivesAreNamed | idf_esp32s3/postinstall.js:131-134 | no name that passes the filter is empty, so the `if (!file)` skip never fires |
| Common.DeleteAttempt | idf_esp32h2/postinstall.js:165-172 | a deletion attempt, by `rmSync` or by `rimraf`, succeeds on a present folder exactly when no fault occurs, and always on a missing one |
| Common.CleanFolder | idf_esp32h2/postinstall.js:159-177 | a missing folder is left alone; a present folder goes with everything in it, and nothing else does; the step fails exactly when all three attempts fail |
| Common.CleanExistingFolder | idf_esp32h2/postinstall.js:154-178 | the folder cleaned is the one the archive name gives, with the same guarantees; once it succeeds on a present folder, nothing below that folder is left |
| Common.CleanIgnoresRemovalMethod | idf_esp32h2/postinstall.js:166-171 | with a `rimraf` that rejects on failure, the clean-up has the same result whichever removal the runtime offers |
| Common.ExtractWithRetry | idf_esp32h2/postinstall.js:335-337 | success writes the archive's entries below the destination and requires a 0 exit within three runs; with both paths non-empty, a 0 exit within three runs guarantees success |
| Purge.Family | idf_esp32s3/postinstall.js:54 | the family is a prefix of the folder name, without `@`, and is followed by the first `@` |
| Purge.RemoveOldVersions | idf_esp32s3/postinstall.js:47-88 | only deletes; keeps everything outside the base directory, the current version, other families and folders whose delete throws; removes every other stale version with its contents, and deletes nothing else; a missing base or a failing listing or stat deletes nothing |
| Purge.PurgeIdempotent | idf_esp32s3/postinstall.js:61-81 | with the same failures, a second pass deletes nothing more |
| Purge.PurgePreservesWellFormed | idf_esp32s3/postinstall.js:71-81 | deleting stale folders keeps the tree well formed |
| H2Install.ExitsWithOneUnlessFinished | idf_esp32h2/postinstall.js:362-365 | the script exits with 1 exactly when the prechecks passed and it did not finish |
| H2Install.PlaceTarget | idf_esp32h2/postinstall.js:340-354 | an extracted `esp32h2` is kept; otherwise `esp32h2` exists afterwards exactly when the archive's folder existed; a missing folder only warns; a failure leaves that folder and no `esp32h2` |
| H2Install.PlaceTargetMovesFolder | idf_esp32h2/postinstall.js:346-352 | with the archive's folder present and no `esp32h2`, the rename into an existing install directory succeeds unless it throws, and moves the folder's whole subtree to `esp32h2` |
| H2Install.Prepare | idf_esp32h2/postinstall.js:319-333 | on success neither the old extracted folder nor `esp32h2` exists, and only entries below the install directory were deleted; on a runtime without `fs.rmSync` an existing `esp32h2` makes it fail, since line 332 calls it unguarded |
| H2Install.Refresh | idf_esp32h2/postinstall.js:318-354 | nothing outside the install directory changes or appears; a finished run has `esp32h2` exactly when the archive held it or the folder named after it |
| H2Install.Deploy | idf_esp32h2/postinstall.js:296-361 | the same, with the downloaded archive as the only new entry outside the install directory |
| H2Install.Install | idf_esp32h2/postinstall.js:256-366 | skipped exactly at a failing precheck, with no change; an unset URL fails before anything is created; no other tool's folder is touched; a finished run leaves the install directory and places `esp32h2` as above |
| H2Install.ArchiveUrlShape | idf_esp32h2/postinstall.js:52-54 | the archive is fetched from `<base>/tools/<platform>/<arm or intel>/<archive name>`, `arm` exactly for arm architectures |
| H2Install.PrepareSucceeds | idf_esp32h2/postinstall.js:319-333 | the clean-up before unpacking goes through when one of three deletion attempts and the removal of `esp32h2` go through, and `esp32h2` is absent on a runtime without `fs.rmSync` |
| H2Install.ExtractSucceeds | idf_esp32h2/postinstall.js:335-337 | unpacking goes through, writing the archive's entries, when 7-Zip exits 0 within three runs |
| H2Install.ExtractLaysOutFolder | idf_esp32h2/postinstall.js:335-346 | an archive holding the folder named after it and no `esp32h2` leaves that folder, the install directory, and no `esp32h2` |
| H2Install.ExtractWritesFolder | idf_esp32h2/postinstall.js:335-337 | every entry of the archive's folder is written below the install directory |
| H2Install.RefreshPlacesTarget | idf_esp32h2/postinstall.js:318-354 | with each step going through within its attempts, the stage finishes, the archive's folder is gone, and `esp32h2` holds every entry of that folder, each as the archive has it |
| H2Install.DownloadSucceeds | idf_esp32h2/postinstall.js:296-303 | the archive is on disk after the download step when it was there already or one of three requests delivers it |
| H2Install.DeployPlacesTarget | idf_esp32h2/postinstall.js:296-361 | from an existing install directory, the download, clean-up, unpack and rename together place the archive's folder at `esp32h2` |
| H2Install.InstallPlacesTarget | idf_esp32h2/postinstall.js:256-366 | with the checks passed, the install directory creatable, and every step going through within its attempts, the script finishes with status 0 and `esp32h2` holds every entry of the archive's folder, each as the archive has it |
| H2Install.PrepareClears | idf_esp32h2/postinstall.js:318-333 | after the clean-up nothing lies below the old extracted folder or below `esp32h2`, when neither held entries without the folder itself |
| H2Install.ExtractKeepsOnlyArchive | idf_esp32h2/postinstall.js:335-337 | unpacking into the cleared directory puts below the folder only the archive's entries, and nothing below `esp32h2` when the archive brings nothing there |
| H2Install.PlaceTargetKeepsOnlyFolder | idf_esp32h2/postinstall.js:340-354 | after the rename, everything below `esp32h2` is an entry of the archive's folder, as the archive has it |
| H2Install.RefreshKeepsOnlyFolder | idf_esp32h2/postinstall.js:318-354 | whenever the stage finishes, `esp32h2` holds nothing but entries of the archive's folder, when the archive brings nothing below `esp32h2` |
| H2Install.FolderIsNotTarget | idf_esp32h2/postinstall.js:41-50 | the folder `<tool>@<version>` an archive unpacks to is never named `esp32h2` |
| H2Install.InstallKeepsOnlyFolder | idf_esp32h2/postinstall.js:256-366 | whenever the script finishes from a well-formed tree and the archive brings nothing below `esp32h2`, `esp32h2` holds nothing but entries of the archive's folder; with `InstallPlacesTarget`, it holds exactly that folder's entries |
| H2Install.ZipIsNotTarget | idf_esp32h2/postinstall.js:41-50 | the archive name `<tool>@<version>.7z` is never `esp32h2` |
| H2Install.ReinstallWithoutRmSyncFails | idf_esp32h2/postinstall.js:330-333 | on a runtime without `fs.rmSync`, a run over an existing `esp32h2` never finishes, and once the prechecks pass it exits with 1 |
| S3Install.InstallArchive | idf_esp32s3/postinstall.js:139-162 | an unpack failure changes nothing; an installed archive leaves every entry of its folder in `esp32s3`, as the archive has it, and never has the folder name `esp32s3`; a failed rename leaves no `esp32s3`; only `esp32s3` and the archive's folder lose entries; nothing outside the install directory changes |
| S3Install.MoveIntoTarget | idf_esp32s3/postinstall.js:146-157 | the delete-then-rename step: a throwing delete changes nothing, a throwing rename leaves no `esp32s3`, a success carries every entry of the folder into `esp32s3`, and only those two folders lose entries |
| S3Install.InstallEach | idf_esp32s3/postinstall.js:130-163 | one outcome per archive, and a failing archive does not stop the loop; nothing outside the install directory changes; after the last archive, `esp32s3` holds every entry of that archive's folder if it installed, and is absent if its rename failed |
| S3Install.Deploy | idf_esp32s3/postinstall.js:118-166 | it fails at `mkdir` exactly when the install directory can be neither found nor made, and finishes exactly when it can and the script's directory lists; the loop then runs over all archives; new entries lie on the install directory's path |
| S3Install.SelfNamedNeverInstalled | idf_esp32s3/postinstall.js:146-157 | no archive whose folder is named `esp32s3` is ever installed |
| S3Install.SelfNamedArchiveNeverInstalls | idf_esp32s3/postinstall.js:146-157 | the same for the whole script |
| S3Install.Install | idf_esp32s3/postinstall.js:92-167 | skipped exactly at a failing precheck; nothing outside the tools directory, nor the directory itself, changes; in it only `esp32-arduino-libs@…` folders lose entries |
| S3Install.InstallRunsEveryArchive | idf_esp32s3/postinstall.js:92-167 | with the checks passed, the script's directory outside the tools directory, and the install directory creatable, the script finishes with one outcome per archive |
| S3Install.OtherToolsKept | idf_esp32s3/postinstall.js:113-116 | the purge runs on the tools directory itself, and it and the install touch nothing outside the `esp32-arduino-libs` family |
| S3Install.ArchiveInstalls | idf_esp32s3/postinstall.js:139-158 | an archive that 7-Zip unpacks within three runs, and whose delete and rename go through, replaces `esp32s3` with its folder, entry for entry, and that folder is gone |
| S3Install.FolderMovesIntoTarget | idf_esp32s3/postinstall.js:146-157 | once unpacked, the archive's folder becomes `esp32s3`, entry for entry, when neither the delete nor the rename throws |
| S3Install.FamilyOfParent | idf_esp32s3/postinstall.js:54 | the purge's family for `esp32-arduino-libs@5.4.0` is `esp32-arduino-libs` |
| S3Install.RemovesOtherLibsVersions | idf_esp32s3/postinstall.js:113-116 | every other version of `esp32-arduino-libs`, including an esp32h2 install, is deleted with its contents when its delete goes through |
| BossacInstall.RenameExtractedFolder | bossac/postinstall.js:289-326 | it does nothing when the name has no `@` or the folder is missing; a success moves the folder's whole subtree; a non-empty destination makes it fail |
| BossacInstall.Refresh | bossac/postinstall.js:195-221 | nothing outside the tools directory changes or appears; only the two bossac folders lose entries |
| BossacInstall.Place | bossac/postinstall.js:203-221 | the same for unpacking and renaming |
| BossacInstall.Pipeline | bossac/postinstall.js:131-226 | skipped exactly at a failing precheck, with no change; with no URL it fails at the URL check or at the earlier `mkdir`; new entries lie in or above the tools directory, plus the archive; only the two bossac folders lose entries |
| BossacInstall.InstallAsWritten | bossac/postinstall.js:131-226 | the script as written: skipped exactly at a failing precheck, and nothing outside the tools directory changes |
| BossacInstall.Install | bossac/postinstall.js:131-226 | the corrected script, with the same guarantees |
| BossacInstall.RefreshAsWrittenBlocked | bossac/postinstall.js:229-255 | as written, a non-empty `<name>_<version>` plus an archive that brings `<name>@<version>` means the stage never finishes |
| BossacInstall.ReinstallAsWrittenFails | bossac/postinstall.js:229-255 | as written, installing again over a non-empty `<name>_<version>` from an archive that brings `<name>@<version>` never finishes, whatever else happens |
| BossacInstall.RefreshPlacesFolder | bossac/postinstall.js:195-214 | with the corrected clean-up and each step going through within its three attempts, the stage finishes and the archive's folder sits at `<name>_<version>`, entry for entry |
| BossacInstall.RefreshAsWrittenPlacesFolder | bossac/postinstall.js:195-221 | as written, the stage finishes and places the archive's folder at `<name>_<version>`, entry for entry, when no earlier install left that folder |
| BossacInstall.PlaceOverCleanedFolder | bossac/postinstall.js:203-214 | once `<name>_<version>` is gone, unpacking and renaming, each within three attempts, place the archive's folder there, entry for entry |
| BossacInstall.ExtractedFolderWritten | bossac/postinstall.js:203-206 | unpacking writes every entry of the archive's `<name>@<version>` folder below the tools directory |
| BossacInstall.RenamePlacesFolder | bossac/postinstall.js:289-326 | renaming an unpacked `<name>@<version>` onto an absent `<name>_<version>` succeeds within three attempts when one does not throw, and carries every entry of the folder across |
| BossacInstall.RenamedIsNotArchive | bossac/postinstall.js:292-293 | the renamed folder's name never equals the archive's name |
| BossacInstall.DownloadLands | bossac/postinstall.js:150-192 | with the checks passed and the tools directory creatable, the archive is on disk after the download when it was there or one of three requests delivers it; only the tools directory's path and the archive are added |
| BossacInstall.PipelineReachesRefresh | bossac/postinstall.js:131-195 | under the same conditions the script reaches the clean-up with the archive on disk |
| BossacInstall.DownloadStaysFresh | bossac/postinstall.js:150-192 | making the tools directory and fetching the archive never create `<name>_<version>` |
| BossacInstall.ReinstallSucceeds | bossac/postinstall.js:131-226 | the corrected script finishes a reinstall, when the archive is on disk or delivered and each step goes through within three attempts, and leaves every entry of the archive's folder in `<name>_<version>`, as the archive has it |
| BossacInstall.FreshInstallAsWrittenFinishes | bossac/postinstall.js:131-226 | the script as written finishes a first install under the same conditions and leaves every entry of the archive's folder in `<name>_<version>`, as the archive has it |
| MklittlefsInstall.ExtractOne | mklittlefs/postinstall.js:61-80 | one unpack, no retry: it succeeds exactly on a 0 exit, writes the archive's entries, and deletes nothing |
| MklittlefsInstall.ExtractEach | mklittlefs/postinstall.js:55-81 | each archive is unpacked exactly when its single run exits 0; nothing is deleted and nothing outside the tools directory changes; the result is the old tree with the unpacked archives laid over it, later ones winning |
| MklittlefsInstall.Overlay | mklittlefs/postinstall.js:55-81 | the unpacked archives' entries all lie in the tools directory, and the last archive's entries are present when it unpacked |
| MklittlefsInstall.Install | mklittlefs/postinstall.js:23-85 | skipped exactly at a failing precheck; it fails at `mkdir` exactly when the tools directory can be neither found nor made, and finishes exactly when it can and the script's directory lists; a finished run leaves the old tree with every unpacked archive laid over it; nothing is ever deleted; new entries lie on the tools directory's path |
| MklittlefsInstall.ReinstallIsStable | mklittlefs/postinstall.js:43-81 | running the installer again with the same outcomes leaves the tree as the first run left it |
| SvdUninstall.Folders | STM32_SVD/uninstall.js:90-107 | an archive's folder is its base name; a second folder, with the first `@` replaced by `_`, exactly when the name holds `@` |
| SvdUninstall.FolderPaths | STM32_SVD/uninstall.js:89-108 | the folders cleaned for an archive are exactly the tools directory's children named by its folders |
| SvdUninstall.Targets | STM32_SVD/uninstall.js:83-122 | the loop cleans every archive's folders and nothing else: each path cleaned is a child of the tools directory named by some listed archive |
| SvdUninstall.RemoveDir | STM32_SVD/uninstall.js:95-103 | a missing folder counts as removed; a present one goes with its contents exactly when one of three attempts succeeds |
| SvdUninstall.RemoveEach | STM32_SVD/uninstall.js:83-122 | an entry goes exactly when it lies in a cleaned folder that existed and could be deleted; a failure does not stop the loop |
| SvdUninstall.Sweep | STM32_SVD/uninstall.js:83-122 | only deletes, and only below the tools directory; a cleaned folder survives exactly when it existed and every attempt failed; the log is in loop order and matches what is gone |
| SvdUninstall.Cleanup | STM32_SVD/uninstall.js:57-128 | finishes exactly when the prechecks pass and the script's directory lists; no change when a precheck fails or the listing rejects; otherwise the sweep above over the `.7z` archives |
| SvdUninstall.SweepIdempotent | STM32_SVD/uninstall.js:89-121 | a second sweep with the same failures deletes nothing more |
| SvdUninstall.RemoveEachIdempotent | STM32_SVD/uninstall.js:89-121 | the same for the loop over the folder paths |
| SvdUninstall.CleanupIdempotent | STM32_SVD/uninstall.js:57-128 | running the uninstaller twice gives the same tree as running it once |
| SvdUninstall.RemovesBothBossacFolders | STM32_SVD/uninstall.js:105-121 | for an archive `<tool>@<version>.7z` both `<tool>@<version>` and `<tool>_<version>` go when their deletion goes through |
| SvdUninstall.UpperCaseExtensionKept | STM32_SVD/uninstall.js:78-90 | `tool.7Z` passes the filter, but the folder cleaned is `tool.7Z`, not `tool` |
| H2Uninstall.CleanupFolder | idf_esp32h2/uninstall.js:59-107 | skipped exactly at a failing precheck on `<tools>/<parent>`; finishes exactly when the listing succeeds; deletes only `<parent>/<target>`, with its contents, exactly when it is missing or one of three attempts succeeds; when every attempt fails the tree is as it was |
| H2Uninstall.CleanupAsWritten | idf_esp32h2/uninstall.js:8-9 | the script as written deletes nothing outside `esp32-arduino-libs@5.4.0/esp32c3` |
| H2Uninstall.Cleanup | idf_esp32h2/postinstall.js:40-41 | the corrected script deletes only the folder the installer creates, and deletes it with its contents when a deletion attempt succeeds |
| H2Uninstall.AsWrittenKeepsH2Target | idf_esp32h2/uninstall.js:8-9 | as written, nothing the esp32h2 installer placed is ever deleted |
| H2Uninstall.AsWrittenLeavesFolderExample | idf_esp32h2/uninstall.js:89-101 | for a 5.4.0 install, the script as written finishes and reports success with `esp32h2` still there; the corrected one removes it |
| H2Uninstall.UninstallUndoesInstall | idf_esp32h2/postinstall.js:40-41 | after a finished install, the corrected uninstaller removes `esp32h2` and everything in it |
| BatchUninstall.WithScript | uninstall.js:36-40 | the tools run are exactly the listed ones whose `uninstall.js` exists |
| BatchUninstall.TallyAsWritten | uninstall.js:53-74 | the loop's counters as written: the error count is always even, and cleaned plus half the errors is the number of tools run |
| BatchUninstall.TallyCorrected | uninstall.js:80-84 | each tool run is counted once, as cleaned or as failed |
| BatchUninstall.Failures | uninstall.js:53-69 | the number of failing tools is zero exactly when every child succeeded |
| BatchUninstall.CleanupAllAsWritten | uninstall.js:18-85 | as written: with no usable tools path nothing runs and the counts stay 0; otherwise it runs exactly the listed tools that have a script |
| BatchUninstall.CleanupAll | uninstall.js:18-85 | the corrected loop: the same tools, cleaned plus failed equals the tools run, and failed equals the failing children |
| BatchUninstall.CorrectedCountsFailures | uninstall.js:80-84 | the corrected error count is the number of failing tools |
| BatchUninstall.AsWrittenDoublesErrors | uninstall.js:53-74 | as written, the cleaned count is right and the error count is twice the failures |
| BatchUninstall.AsWrittenReportsTwiceTheFailures | uninstall.js:53-74 | the script as written runs the same tools as the corrected one and reports twice its failure count |
| BatchUninstall.OneFailureReportedTwice | uninstall.js:58-73 | one tool exiting with status 1 is reported as two failed tools |

## Left out

- HTTP, response streaming and `pipe`: each request is one `NetOutcome` (request error, status, content length, chunk sizes, stream error).
- `child_process.spawn` of 7-Zip and of `node`: only the argument vector and an abstract exit, spawn error or output are kept. The children's effect on the tree is theirs, so the batch uninstaller's model covers the loop and the counts only.
- A child that emits `error` and then `close`: the model takes the first event only.
- `setTimeout` delays: only the number of waits is kept.
- Console output, log strings and the megabyte figures formatted with `toFixed`.
- `Math.floor((d / t) * 100)` is computed on integers as `d * 100 / t`. This is exact in integer arithmetic, where the floating-point original can differ by rounding.
- `rimraf`'s concurrent `Promise.all` recursion, and the `rmSync` deletion, are one atomic recursive delete. The rmdir/unlink error path is kept separately (see Findings).
- The fire-and-forget `fs.unlink` of a partial download is treated as completed.
- `os.release`, `os.version` and the loading of `package.json`: name and version are inputs.
- `path.join` normalisation: paths are sequences of segments; `..`, `.` and separators inside names are not modelled.
- Windows `rename` semantics (EPERM on an existing destination): `rename` follows POSIX `rename(2)`.
- The bossac installer's second `mkdir` (lines 161-168) never runs after the first one. Its separate error message is not modelled.
- The `statSync` size check after a download cannot fail in the model: the archive is on disk whenever the download resolves. The `StatArchive` branch exists but is never taken.
- BatchUninstall.WithScript: states which tools are run, not that they run in list order (the definition keeps the order).
- S3Install.InstallEach: states that `esp32s3` holds every entry of the last archive's folder when that archive installed, not that it holds nothing else. With `rmSync` deleting the old `esp32s3` first, nothing else is expected, but the model leaves that direction unstated.
- BossacInstall.RenameExtractedFolder: states when it fails for a non-empty destination, not every other way `rename` can fail.
- Common.DeleteAttempt: when the runtime lacks `fs.rmSync` it uses the corrected `rimraf`, which rejects on a failed removal (see Findings). The installers' clean-ups therefore count a failed `rmdir` on an old runtime as a failed attempt, where the original resolves and carries on. `FileSystem.RimrafAsWritten` models the original `rimraf` on its own.
- BossacInstall.InstallAsWritten: keeps the original clean-up of `<name>@<version>` only, but deletes through the corrected `rimraf` as above.
- FileSystem.MkdirP: fails only with ENOTDIR, when a prefix of the path is a file. Permission and read-only filesystem errors (EACCES, EROFS) are not modelled, so a path with no file on it is always made.
- Retry.WithRetry: `maxRetries < 1` is modelled as a rejection without a call. The original rejects with a `TypeError` from reading `lastError.message`.

## Findings

| source | as written | input that shows it | evidently intended | confidence | as-written member | corrected member |
|---|---|---|---|---|---|---|
| idf_esp32h2/uninstall.js:8-9 | deletes `esp32c3` in the hard-coded `esp32-arduino-libs@5.4.0` | an esp32h2 5.4.0 install: the script finishes, reports success and leaves `esp32h2` | delete `esp32h2` in `esp32-arduino-libs@<version>`, as the installer creates it (idf_esp32h2/postinstall.js:40-41) | high; not executed | H2Uninstall.AsWrittenLeavesFolderExample | H2Uninstall.UninstallUndoesInstall |
| uninstall.js:60-73 | a failing child is counted in its `close` or `error` handler, and again in the `catch` | one tool whose `uninstall.js` exits with 1: "failed: 2 tools" | one failure per failing tool | high; not executed | BatchUninstall.AsWrittenDoublesErrors | BatchUninstall.CorrectedCountsFailures |
| bossac/postinstall.js:274-280 | `fs.rmdir(dir, resolve)` and `fs.unlink(dir, resolve)` hand the error to `resolve`, so `rimraf` resolves when the removal fails | a directory whose `rmdir` fails with EBUSY: `rimraf` resolves and the directory is still there | reject on a removal error, so that a resolved `rimraf` means the path is gone | medium; not executed | FileSystem.RimrafAsWrittenResolvesWhilePresent | FileSystem.Rimraf |
| bossac/postinstall.js:229-255 | the clean-up deletes `bossac@<version>` only, while a successful install leaves `bossac_<version>` (the renamed name, considered at line 232 and commented out) | a second install of the same version: `fs.rename` onto the non-empty `bossac_<version>` fails and the script exits with 1 | also clean the renamed folder before unpacking | medium; not executed | BossacInstall.ReinstallAsWrittenFails | BossacInstall.ReinstallSucceeds |

Notes on the corrected members:

- `H2Uninstall.Cleanup` is the corrected esp32h2 uninstaller.
- `BatchUninstall.CleanupAll` and `BatchUninstall.TallyCorrected` are the corrected counters.
- `FileSystem.Rimraf` is the `rimraf` that `Common.DeleteAttempt` uses.
- `BossacInstall.Install` is the corrected bossac installer.
- Their as-written counterparts:
  - `H2Uninstall.CleanupAsWritten`;
  - `BatchUninstall.TallyAsWritten` and `BatchUninstall.CleanupAllAsWritten`;
  - `FileSystem.RimrafAsWritten`;
  - `BossacInstall.InstallAsWritten`, whose failing stage is shown by `BossacInstall.RefreshAsWrittenBlocked`.

Behaviour the model exhibits that follows from the code as written, without a correction:

- In the esp32s3 installer, an archive named `esp32s3.7z` never installs (`S3Install.SelfNamedArchiveNeverInstalls`). Its folder is deleted as the old target just before the rename.
- A failed rename after a later archive removes the `esp32s3` an earlier archive placed.
- The esp32h2 installer removes an existing `esp32h2` with an unguarded `fs.rmSync` (idf_esp32h2/postinstall.js:332), unlike its clean-up at lines 166-171 of the same file. On a runtime without it a reinstall always exits with 1 (`H2Install.ReinstallWithoutRmSyncFails`).
- The esp32s3 purge deletes every other `esp32-arduino-libs@…` folder, including an esp32h2 install of another version (`S3Install.RemovesOtherLibsVersions`).
- The STM32 SVD filter accepts `.7Z`, but `path.basename` strips only a lower-case `.7z` (`SvdUninstall.UpperCaseExtensionKept`).
- The mklittlefs installer unpacks each archive once, with no retry.

=== FILE: batch_uninstall.dfy ===
/** The top-level `uninstall.js`: run each listed tool's own `uninstall.js`
    as a child process, one after another, and count the tools cleaned and
    the failures. The children's effect on the tree is theirs (see the
    per-tool uninstallers); this module models the loop and the counts. */
module BatchUninstall {
  import opened Wrappers
  import opened FileSystem
  import opened Common

  /** Lines 5-15: the tool directories, in the order they are cleaned. */
  const ToolDirs: seq<string> := ["avrdude", "bossac", "ctags", "dfu-util", "esptool",
                                  "idf_esp32", "idf_esp32c3", "idf_esp32s3", "mklittlefs"]

  /** How a child ends: its `close` event with an exit code, a `close`
      without one (killed by a signal), or an `error` event. */
  datatype ChildEnd = Closed(code: int) | Killed | SpawnFailed(message: string)

  predicate Succeeded(e: ChildEnd) {
    e.Closed? && e.code == 0
  }

  /** `totalCleaned` and `totalErrors`. */
  datatype Tally = Tally(cleaned: nat, errors: nat)

  /** `skipped` is why the script stopped early; `spawned` the tools whose
      script was run, in order. */
  datatype Run = Run(skipped: Option<Precheck>, spawned: seq<string>, tally: Tally)

  /** Line 40: the tools whose `uninstall.js` exists next to this script. */
  function WithScript(fs: FS, batchDir: Path, tools: seq<string>): (r: seq<string>)
    ensures |r| <= |tools|
    ensures forall t :: t in r <==> t in tools && batchDir + [t, "uninstall.js"] in fs
    decreases |tools|
  {
    if |tools| == 0 then []
    else
      var rest := WithScript(fs, batchDir, tools[1..]);
      assert forall t :: t in tools <==> t == tools[0] || t in tools[1..];
      if batchDir + [tools[0], "uninstall.js"] in fs then [tools[0]] + rest else rest
  }

  /** Lines 53-74 as written: a success counts once as cleaned; a failure
      counts in its event handler and again in the `catch`. */
  function TallyAsWritten(spawned: seq<string>, ends: string -> ChildEnd): (t: Tally)
    ensures t.errors % 2 == 0 && t.cleaned + t.errors / 2 == |spawned|
    decreases |spawned|
  {
    if |spawned| == 0 then Tally(0, 0)
    else
      var prev := TallyAsWritten(spawned[..|spawned| - 1], ends);
      if Succeeded(ends(spawned[|spawned| - 1])) then prev.(cleaned := prev.cleaned + 1)
      else prev.(errors := prev.errors + 2)
  }

  /** The count the closing summary promises ("failed: N tools"): each
      tool is either cleaned or failed, once. */
  function TallyCorrected(spawned: seq<string>, ends: string -> ChildEnd): (t: Tally)
    ensures t.cleaned + t.errors == |spawned|
    decreases |spawned|
  {
    if |spawned| == 0 then Tally(0, 0)
    else
      var prev := TallyCorrected(spawned[..|spawned| - 1], ends);
      if Succeeded(ends(spawned[|spawned| - 1])) then prev.(cleaned := prev.cleaned + 1)
      else prev.(errors := prev.errors + 1)
  }

  /** The number of spawned tools whose child did not succeed. */
  function Failures(spawned: seq<string>, ends: string -> ChildEnd): (n: nat)
    ensures n <= |spawned|
    ensures n == 0 <==> forall t :: t in spawned ==> Succeeded(ends(t))
    decreases |spawned|
  {
    if |spawned| == 0 then 0
    else
      var init := spawned[..|spawned| - 1];
      var last := spawned[|spawned| - 1];
      assert forall t :: t in spawned <==> t in init || t == last;
      Failures(init, ends) + (if Succeeded(ends(last)) then 0 else 1)
  }

  /** `cleanupAllTools()`, with the counts the script keeps. */
  function CleanupAllAsWritten(fs: FS, env: Environment, ends: string -> ChildEnd): (r: Run)
    ensures r.skipped.Some? <==> !Exists(fs, env.toolsPath)
    ensures r.skipped.Some? ==> r.spawned == [] && r.tally == Tally(0, 0)
    ensures forall t :: t in r.spawned <==> r.skipped.None? && t in ToolDirs && env.srcDir + [t, "uninstall.js"] in fs
  {
    if env.toolsPath == [] then Run(Some(NoToolsPath), [], Tally(0, 0))
    else if !Exists(fs, env.toolsPath) then Run(Some(NoTargetDir), [], Tally(0, 0))
    else
      var spawned := WithScript(fs, env.srcDir, ToolDirs);
      Run(None, spawned, TallyAsWritten(spawned, ends))
  }

  /** The same loop, counting each failure once. */
  function CleanupAll(fs: FS, env: Environment, ends: string -> ChildEnd): (r: Run)
    ensures r.skipped.Some? <==> !Exists(fs, env.toolsPath)
    ensures r.tally.cleaned + r.tally.errors == |r.spawned|
    ensures r.tally.errors == Failures(r.spawned, ends)
    ensures forall t :: t in r.spawned <==> r.skipped.None? && t in ToolDirs && env.srcDir + [t, "uninstall.js"] in fs
  {
    if env.toolsPath == [] then Run(Some(NoToolsPath), [], Tally(0, 0))
    else if !Exists(fs, env.toolsPath) then Run(Some(NoTargetDir), [], Tally(0, 0))
    else
      var spawned := WithScript(fs, env.srcDir, ToolDirs);
      CorrectedCountsFailures(spawned, ends);
      Run(None, spawned, TallyCorrected(spawned, ends))
  }

  /** The corrected error count is the number of failed tools. */
  lemma {:induction false} CorrectedCountsFailures(spawned: seq<string>, ends: string -> ChildEnd)
    ensures TallyCorrected(spawned, ends).errors == Failures(spawned, ends)
    decreases |spawned|
  {
    if |spawned| > 0 {
      CorrectedCountsFailures(spawned[..|spawned| - 1], ends);
    }
  }

  /** As written, the cleaned count is right and every failure is counted
      twice. */
  lemma {:induction false} AsWrittenDoublesErrors(spawned: seq<string>, ends: string -> ChildEnd)
    ensures TallyAsWritten(spawned, ends).cleaned == TallyCorrected(spawned, ends).cleaned
    ensures TallyAsWritten(spawned, ends).errors == 2 * TallyCorrected(spawned, ends).errors
    decreases |spawned|
  {
    if |spawned| > 0 {
      AsWrittenDoublesErrors(spawned[..|spawned| - 1], ends);
    }
  }

  /** The two scripts run the same children and differ only in the error count. */
  lemma AsWrittenReportsTwiceTheFailures(fs: FS, env: Environment, ends: string -> ChildEnd)
    ensures var w := CleanupAllAsWritten(fs, env, ends);
            var c := CleanupAll(fs, env, ends);
            && w.skipped == c.skipped && w.spawned == c.spawned
            && w.tally.cleaned == c.tally.cleaned
            && w.tally.errors == 2 * c.tally.errors
  {
    if Exists(fs, env.toolsPath) {
      AsWrittenDoublesErrors(WithScript(fs, env.srcDir, ToolDirs), ends);
    }
  }

  /** One tool run, exiting with status 1: the summary says two tools
      failed. */
  lemma OneFailureReportedTwice()
    ensures var ends := (t: string) => Closed(1);
            && TallyAsWritten(["bossac"], ends) == Tally(0, 2)
            && TallyCorrected(["bossac"], ends) == Tally(0, 1)
  {
    var spawned := ["bossac"];
    assert spawned[..0] == [];
  }
}

=== FILE: bossac_install.dfy ===
/** `bossac/postinstall.js`: download `bossac@<version>.7z` from
    `<AILY_ZIP_URL>/tools/`, unpack it straight into the tools directory and
    rename the folder it creates from `bossac@<version>` to
    `bossac_<version>`. Any failure after the prechecks exits with status 1.

    As written, the clean-up before unpacking deletes only
    `bossac@<version>`, which never survives a successful install, and not
    `bossac_<version>`, which does; the rename onto that non-empty folder
    then fails and a reinstall always exits with 1. `InstallAsWritten`
    models that; `Install` also cleans `bossac_<version>`. */
module BossacInstall {
  import opened Wrappers
  import opened Strings
  import opened Naming
  import opened FileSystem
  import opened Retry
  import opened Download
  import opened Unpack
  import opened Common

  /** Everything the script cannot decide by itself. */
  datatype Oracles = Oracles(
    net: (string, nat) -> NetOutcome,        // the k-th request for a URL
    useRimraf: bool,                         // the runtime lacks `fs.rmSync`
    cleanFaults: nat -> RimrafFault,         // the k-th attempt at deleting `<name>@<version>`
    renamedCleanFaults: nat -> RimrafFault,  // the k-th attempt at deleting `<name>_<version>`
    exits: nat -> ChildExit,                 // how the k-th 7-Zip run ends
    contents: FS,                            // what 7-Zip writes, relative to the tools directory
    renameFaults: nat -> Option<string>)     // the k-th `fs.rename`

  datatype Step =
    | MakeToolsDir
    | CheckZipUrl
    | DownloadArchive
    | StatArchive
    | CleanStaleFolder
    | UnpackArchive
    | RenameFolder

  datatype Run = Run(fs: FS, ending: Ending<Step>)

  /** The URL the archive is fetched from: `<AILY_ZIP_URL>/tools/<file>`. */
  function ArchiveUrl(env: Environment, pkg: Package): string {
    BossacDownloadUrl(env.zipUrl, ZipFileName(pkg.name, pkg.version))
  }

  /** The folder the archive unpacks to, and the folder it is renamed to. */
  function Extracted(fileName: string): string {
    StripArchiveExt(fileName)
  }

  function Renamed(fileName: string): string {
    RenamedFolder(StripArchiveExt(fileName))
  }

  /** `<name>_<version>` in `dir` holds every entry of the folder the
      archive brings, `<name>@<version>`. */
  ghost predicate Placed(fs: FS, dir: Path, fileName: string, o: Oracles) {
    forall s :: [Extracted(fileName)] + s in o.contents ==>
      dir + [Renamed(fileName)] + s in fs && fs[dir + [Renamed(fileName)] + s] == o.contents[[Extracted(fileName)] + s]
  }

  /** A step's outcome without its value. */
  function Settled<T>(r: Result<T, string>): (d: Result<(), string>)
    ensures d.Success? <==> r.Success?
  {
    match r
    case Success(_) => Success(())
    case Failure(m) => Failure(m)
  }

  /** `renameExtractedFolder(zipFileName, targetDir)`: nothing to do when
      the name has no `@` or the extracted folder is missing; otherwise
      `fs.rename` with up to three attempts. */
  function RenameExtractedFolder(fs: FS, fileName: string, dir: Path, faults: nat -> Option<string>): (r: Result<FS, RetryError<string>>)
    ensures var src := dir + [Extracted(fileName)];
            Extracted(fileName) == Renamed(fileName) || src !in fs ==> r == Success(fs)
    ensures var src := dir + [Extracted(fileName)];
            var dst := dir + [Renamed(fileName)];
            r.Success? && src in fs && src != dst ==>
              && src !in r.value && dst in r.value && r.value[dst] == fs[src]
              && (forall s :: src + s in fs ==> dst + s in r.value && r.value[dst + s] == fs[src + s])
              && (forall q :: !Under(q, src) && !Under(q, dst) ==> (q in r.value <==> q in fs) && (q in fs ==> r.value[q] == fs[q]))
    ensures var src := dir + [Extracted(fileName)];
            var dst := dir + [Renamed(fileName)];
            src in fs && src != dst && dst in fs && HasChild(fs, dst) ==> r.Failure?
  {
    var src := dir + [Extracted(fileName)];
    var dst := dir + [Renamed(fileName)];
    if Extracted(fileName) == Renamed(fileName) || src !in fs then Success(fs)
    else
      var script := (k: nat) => Settled(RenameSync(fs, src, dst, faults(k)));
      var run := WithRetry(script, MaxAttempts);
      if run.result.Success? then
        var moved := RenameSync(fs, src, dst, faults(run.calls));
        assert Settled(moved) == script(run.calls);
        Success(moved.value)
      else
        Failure(run.result.error)
  }

  /** Lines 195-221, from the clean-up to the rename, in the tools
      directory `dir`; `cleanRenamed` also deletes `<name>_<version>`. */
  function Refresh(fs: FS, dir: Path, zipPath: Path, fileName: string, o: Oracles, cleanRenamed: bool): (r: Run)
    ensures forall q :: q in fs && !Under(q, dir) ==> q in r.fs && r.fs[q] == fs[q]
    ensures forall q :: q in r.fs && q !in fs ==> Under(q, dir)
    // nothing is deleted but the two bossac folders
    ensures forall q :: q in fs && !Under(q, dir + [Extracted(fileName)]) && !Under(q, dir + [Renamed(fileName)]) ==> q in r.fs
    ensures !r.ending.Skipped?
  {
    match CleanExistingFolder(fs, fileName, dir, o.useRimraf, o.cleanFaults)
    case Failure(_) => Run(fs, Failed(CleanStaleFolder))
    case Success(fs1) =>
      UnderChild(dir, Extracted(fileName));
      UnderChild(dir, Renamed(fileName));
      match (if cleanRenamed then CleanFolder(fs1, dir + [Renamed(fileName)], o.useRimraf, o.renamedCleanFaults) else Success(fs1))
      case Failure(_) => Run(fs1, Failed(CleanStaleFolder))
      case Success(fs2) => Place(fs2, dir, zipPath, fileName, o)
  }

  /** Lines 203-221: unpack into `dir`, then rename the extracted folder. */
  function Place(fs: FS, dir: Path, zipPath: Path, fileName: string, o: Oracles): (r: Run)
    ensures forall q :: q in fs && !Under(q, dir) ==> q in r.fs && r.fs[q] == fs[q]
    ensures forall q :: q in r.fs && q !in fs ==> Under(q, dir)
    ensures forall q :: q in fs && !Under(q, dir + [Extracted(fileName)]) && !Under(q, dir + [Renamed(fileName)]) ==> q in r.fs
    ensures !r.ending.Skipped?
  {
    UnderChild(dir, Extracted(fileName));
    UnderChild(dir, Renamed(fileName));
    match ExtractWithRetry(fs, zipPath, dir, o.exits, o.contents)
    case Failure(_) => Run(fs, Failed(UnpackArchive))
    case Success(fs1) =>
      match RenameExtractedFolder(fs1, fileName, dir, o.renameFaults)
      case Failure(_) => Run(fs1, Failed(RenameFolder))
      case Success(fs2) => Run(fs2, Finished)
  }

  /** `extractArchives()`; `cleanRenamed` chooses the corrected clean-up. */
  function Pipeline(fs: FS, env: Environment, pkg: Package, o: Oracles, cleanRenamed: bool): (r: Run)
    ensures r.ending.Skipped? <==> InstallerPrecheck(fs, env).Some?
    ensures r.ending.Skipped? ==> r.fs == fs && r.ending.why == InstallerPrecheck(fs, env).value
    // the tools directory is created before the URL is checked
    ensures InstallerPrecheck(fs, env).None? && env.zipUrl == "" ==>
              r.ending == Failed(CheckZipUrl) || r.ending == Failed(MakeToolsDir)
    ensures forall q :: q in fs && !Under(q, env.toolsPath) ==> q in r.fs && r.fs[q] == fs[q]
    ensures forall q :: q in r.fs && q !in fs ==>
              Under(q, env.toolsPath) || Under(env.toolsPath, q) ||
              q == env.srcDir + [ZipFileName(pkg.name, pkg.version)]
    ensures var zip := ZipFileName(pkg.name, pkg.version);
            forall q :: q in fs && !Under(q, env.toolsPath + [Extracted(zip)]) && !Under(q, env.toolsPath + [Renamed(zip)]) ==> q in r.fs
  {
    match InstallerPrecheck(fs, env)
    case Some(why) => Run(fs, Skipped(why))
    case None =>
      var tools := env.toolsPath;
      match MakeDir(fs, tools)
      case Failure(_) => Run(fs, Failed(MakeToolsDir))
      case Success(fs1) =>
        if env.zipUrl == "" then Run(fs1, Failed(CheckZipUrl))
        else
          var zip := ZipFileName(pkg.name, pkg.version);
          var dl := DownloadWithRetry(fs1, env.srcDir, zip, (k: nat) => o.net(ArchiveUrl(env, pkg), k), MaxAttempts);
          if dl.retry.result.Failure? then Run(fs1, Failed(DownloadArchive))
          else
            var zipPath := env.srcDir + [dl.retry.result.value];
            if zipPath !in dl.fs then Run(dl.fs, Failed(StatArchive))
            else Refresh(dl.fs, tools, zipPath, zip, o, cleanRenamed)
  }

  /** The script as written. */
  function InstallAsWritten(fs: FS, env: Environment, pkg: Package, o: Oracles): (r: Run)
    ensures r.ending.Skipped? <==> InstallerPrecheck(fs, env).Some?
    ensures forall q :: q in fs && !Under(q, env.toolsPath) ==> q in r.fs && r.fs[q] == fs[q]
  {
    Pipeline(fs, env, pkg, o, false)
  }

  /** The script with the folder left by an earlier install cleaned too. */
  function Install(fs: FS, env: Environment, pkg: Package, o: Oracles): (r: Run)
    ensures r.ending.Skipped? <==> InstallerPrecheck(fs, env).Some?
    ensures forall q :: q in fs && !Under(q, env.toolsPath) ==> q in r.fs && r.fs[q] == fs[q]
  {
    Pipeline(fs, env, pkg, o, true)
  }

  // ------------------------------------------------------------ reinstalling

  /** As written, once `<name>_<version>` holds anything, the stage never
      finishes when the archive brings `<name>@<version>`: the clean-up
      leaves that folder alone and the rename onto it fails. */
  lemma RefreshAsWrittenBlocked(fs: FS, dir: Path, zipPath: Path, fileName: string, o: Oracles)
    requires Extracted(fileName) != Renamed(fileName)
    requires dir + [Renamed(fileName)] in fs && HasChild(fs, dir + [Renamed(fileName)])
    requires [Extracted(fileName)] in o.contents
    ensures !Refresh(fs, dir, zipPath, fileName, o, false).ending.Finished?
  {
    var src := dir + [Extracted(fileName)];
    var dst := dir + [Renamed(fileName)];
    SiblingsApart(dir, Renamed(fileName), Extracted(fileName));
    var c :| c in fs && |c| == |dst| + 1 && c[..|dst|] == dst;
    assert Under(c, dst);
    match CleanExistingFolder(fs, fileName, dir, o.useRimraf, o.cleanFaults)
    case Failure(_) =>
    case Success(fs1) =>
      assert dst in fs1 && c in fs1;
      match ExtractWithRetry(fs1, zipPath, dir, o.exits, o.contents)
      case Failure(_) =>
      case Success(fs3) =>
        assert src in fs3 && dst in fs3 && c in fs3;
        assert HasChild(fs3, dst);
        assert RenameExtractedFolder(fs3, fileName, dir, o.renameFaults).Failure?;
  }

  /** The script as written exits with status 1 on every reinstall over a
      previous install: `<name>_<version>` holds the old files and the
      archive brings `<name>@<version>`. */
  lemma ReinstallAsWrittenFails(fs: FS, env: Environment, pkg: Package, o: Oracles)
    requires var zip := ZipFileName(pkg.name, pkg.version);
             && env.toolsPath + [Renamed(zip)] in fs
             && HasChild(fs, env.toolsPath + [Renamed(zip)])
             && [Extracted(zip)] in o.contents
    ensures !InstallAsWritten(fs, env, pkg, o).ending.Finished?
  {
    var zip := ZipFileName(pkg.name, pkg.version);
    var tools := env.toolsPath;
    var dst := tools + [Renamed(zip)];
    DerivedFolderIsRenamed(pkg.name, pkg.version);
    var c :| c in fs && |c| == |dst| + 1 && c[..|dst|] == dst;
    if InstallerPrecheck(fs, env).None? {
      match MakeDir(fs, tools)
      case Failure(_) =>
      case Success(fs1) =>
        if env.zipUrl != "" {
          var dl := DownloadWithRetry(fs1, env.srcDir, zip, (k: nat) => o.net(ArchiveUrl(env, pkg), k), MaxAttempts);
          if dl.retry.result.Success? {
            assert dl.retry.result.value == zip;
            assert dst in dl.fs && c in dl.fs;
            assert HasChild(dl.fs, dst);
            RefreshAsWrittenBlocked(dl.fs, tools, env.srcDir + [zip], zip, o);
          }
        }
    }
  }

  /** With the corrected clean-up the stage finishes whatever an earlier
      install left, provided each step goes through within its three
      attempts: the extracted folder ends up under the renamed name. */
  lemma RefreshPlacesFolder(fs: FS, dir: Path, zipPath: Path, fileName: string, o: Oracles)
    requires Listable(fs, dir) && |dir| >= 1
    requires Render(zipPath) != "" && Render(dir) != ""
    requires Extracted(fileName) != Renamed(fileName)
    requires exists k :: 1 <= k <= MaxAttempts && o.cleanFaults(k).NoFault?
    requires exists k :: 1 <= k <= MaxAttempts && o.renamedCleanFaults(k).NoFault?
    requires exists k :: 1 <= k <= MaxAttempts && o.exits(k).Exited? && o.exits(k).code == 0
    requires exists k :: 1 <= k <= MaxAttempts && o.renameFaults(k).None?
    requires [Extracted(fileName)] in o.contents && [Renamed(fileName)] !in o.contents && [] !in o.contents
    ensures var r := Refresh(fs, dir, zipPath, fileName, o, true);
            && r.ending.Finished?
            && dir + [Renamed(fileName)] in r.fs
            && r.fs[dir + [Renamed(fileName)]] == o.contents[[Extracted(fileName)]]
            && Placed(r.fs, dir, fileName, o)
            && dir + [Extracted(fileName)] !in r.fs
  {
    var dst := dir + [Renamed(fileName)];
    SiblingsApart(dir, Extracted(fileName), Renamed(fileName));
    assert !Under(dir, dir + [Extracted(fileName)]) && !Under(dir, dst);
    var fs1 := CleanExistingFolder(fs, fileName, dir, o.useRimraf, o.cleanFaults).value;
    var fs2 := CleanFolder(fs1, dst, o.useRimraf, o.renamedCleanFaults).value;
    assert Listable(fs2, dir) && dst !in fs2;
    PlaceOverCleanedFolder(fs2, dir, zipPath, fileName, o);
  }

  /** As written, the stage finishes too when no earlier install left
      `<name>_<version>` behind. */
  lemma RefreshAsWrittenPlacesFolder(fs: FS, dir: Path, zipPath: Path, fileName: string, o: Oracles)
    requires Listable(fs, dir) && |dir| >= 1 && dir + [Renamed(fileName)] !in fs
    requires Render(zipPath) != "" && Render(dir) != ""
    requires Extracted(fileName) != Renamed(fileName)
    requires exists k :: 1 <= k <= MaxAttempts && o.cleanFaults(k).NoFault?
    requires exists k :: 1 <= k <= MaxAttempts && o.exits(k).Exited? && o.exits(k).code == 0
    requires exists k :: 1 <= k <= MaxAttempts && o.renameFaults(k).None?
    requires [Extracted(fileName)] in o.contents && [Renamed(fileName)] !in o.contents && [] !in o.contents
    ensures var r := Refresh(fs, dir, zipPath, fileName, o, false);
            && r.ending.Finished?
            && dir + [Renamed(fileName)] in r.fs
            && r.fs[dir + [Renamed(fileName)]] == o.contents[[Extracted(fileName)]]
            && Placed(r.fs, dir, fileName, o)
            && dir + [Extracted(fileName)] !in r.fs
  {
    SiblingsApart(dir, Extracted(fileName), Renamed(fileName));
    assert !Under(dir, dir + [Extracted(fileName)]);
    var fs1 := CleanExistingFolder(fs, fileName, dir, o.useRimraf, o.cleanFaults).value;
    assert Listable(fs1, dir) && dir + [Renamed(fileName)] !in fs1;
    PlaceOverCleanedFolder(fs1, dir, zipPath, fileName, o);
  }

  /** Once `<name>_<version>` is gone, the archive's folder is unpacked and
      renamed to it, provided 7-Zip and the rename each go through within
      three attempts. */
  lemma PlaceOverCleanedFolder(fs: FS, dir: Path, zipPath: Path, fileName: string, o: Oracles)
    requires Listable(fs, dir) && |dir| >= 1 && dir + [Renamed(fileName)] !in fs
    requires Render(zipPath) != "" && Render(dir) != ""
    requires Extracted(fileName) != Renamed(fileName)
    requires exists k :: 1 <= k <= MaxAttempts && o.exits(k).Exited? && o.exits(k).code == 0
    requires exists k :: 1 <= k <= MaxAttempts && o.renameFaults(k).None?
    requires [Extracted(fileName)] in o.contents && [Renamed(fileName)] !in o.contents && [] !in o.contents
    ensures var r := Place(fs, dir, zipPath, fileName, o);
            && r.ending.Finished?
            && dir + [Renamed(fileName)] in r.fs
            && r.fs[dir + [Renamed(fileName)]] == o.contents[[Extracted(fileName)]]
            && Placed(r.fs, dir, fileName, o)
            && dir + [Extracted(fileName)] !in r.fs
  {
    var src := dir + [Extracted(fileName)];
    var dst := dir + [Renamed(fileName)];
    SiblingsApart(dir, Extracted(fileName), Renamed(fileName));
    var fs3 := ExtractWithRetry(fs, zipPath, dir, o.exits, o.contents).value;
    assert fs3 == Extract(fs, dir, o.contents);
    ExtractedFolderWritten(fs, dir, fileName, o);
    assert dir + [] == dir;
    assert Listable(fs3, dir) && dst !in fs3;
    RenamePlacesFolder(fs3, dir, fileName, o);
    assert Place(fs, dir, zipPath, fileName, o) == Run(RenameExtractedFolder(fs3, fileName, dir, o.renameFaults).value, Finished);
  }

  /** Unpacking into `dir` writes the archive's folder entry for entry. */
  lemma ExtractedFolderWritten(fs: FS, dir: Path, fileName: string, o: Oracles)
    ensures var fs3 := Extract(fs, dir, o.contents);
            forall s :: [Extracted(fileName)] + s in o.contents ==>
              dir + [Extracted(fileName)] + s in fs3 && fs3[dir + [Extracted(fileName)] + s] == o.contents[[Extracted(fileName)] + s]
  {
    var fs3 := Extract(fs, dir, o.contents);
    forall s | [Extracted(fileName)] + s in o.contents
      ensures dir + [Extracted(fileName)] + s in fs3 && fs3[dir + [Extracted(fileName)] + s] == o.contents[[Extracted(fileName)] + s]
    {
      assert dir + ([Extracted(fileName)] + s) == dir + [Extracted(fileName)] + s;
    }
  }

  /** With the unpacked folder in place and nothing at `<name>_<version>`,
      the rename goes through within three attempts when one of them does
      not throw, and carries the folder's entries over. */
  lemma RenamePlacesFolder(fs: FS, dir: Path, fileName: string, o: Oracles)
    requires Listable(fs, dir) && |dir| >= 1 && Extracted(fileName) != Renamed(fileName)
    requires dir + [Extracted(fileName)] in fs && dir + [Renamed(fileName)] !in fs
    requires exists k :: 1 <= k <= MaxAttempts && o.renameFaults(k).None?
    requires forall s :: [Extracted(fileName)] + s in o.contents ==>
               dir + [Extracted(fileName)] + s in fs && fs[dir + [Extracted(fileName)] + s] == o.contents[[Extracted(fileName)] + s]
    ensures var m := RenameExtractedFolder(fs, fileName, dir, o.renameFaults);
            && m.Success?
            && dir + [Renamed(fileName)] in m.value
            && m.value[dir + [Renamed(fileName)]] == fs[dir + [Extracted(fileName)]]
            && dir + [Extracted(fileName)] !in m.value
            && Placed(m.value, dir, fileName, o)
  {
    var src := dir + [Extracted(fileName)];
    var dst := dir + [Renamed(fileName)];
    SiblingsApart(dir, Extracted(fileName), Renamed(fileName));
    assert dst[..|dst| - 1] == dir;
    var script := (k: nat) => Settled(RenameSync(fs, src, dst, o.renameFaults(k)));
    var k :| 1 <= k <= MaxAttempts && o.renameFaults(k).None?;
    assert RenameSync(fs, src, dst, o.renameFaults(k)).Success?;
    assert script(k).Success?;
    SucceedsIffSomeCallSucceeds(script, MaxAttempts);
  }


  /** The archive's name is never the renamed folder's: one ends in `.7z`
      and is three characters longer. */
  lemma RenamedIsNotArchive(packageName: string, version: string)
    ensures Renamed(ZipFileName(packageName, version)) != ZipFileName(packageName, version)
  {
    StripZipFileName(packageName, version);
    var folder := ToolName(packageName) + "@" + version;
    assert folder[|ToolName(packageName)|] == '@';
    ReplaceFirstChar(folder, '@', '_');
    var i :| 0 <= i < |folder| && folder[i] == '@' && '@' !in folder[..i] && RenamedFolder(folder) == folder[i := '_'];
    assert |Renamed(ZipFileName(packageName, version))| == |folder|;
  }

  /** Lines 175-192 up to the archive being on disk: the tools directory is
      made, and the archive is already there or one of three requests
      delivers it. */
  lemma DownloadLands(fs: FS, env: Environment, pkg: Package, o: Oracles)
    requires InstallerPrecheck(fs, env).None? && MkdirP(fs, env.toolsPath).Success?
    requires var zip := ZipFileName(pkg.name, pkg.version);
             env.srcDir + [zip] in fs || exists k :: 1 <= k <= MaxAttempts && Delivers(o.net(ArchiveUrl(env, pkg), k))
    ensures MakeDir(fs, env.toolsPath).Success?
    ensures var zip := ZipFileName(pkg.name, pkg.version);
            var fs1 := MakeDir(fs, env.toolsPath).value;
            var dl := DownloadWithRetry(fs1, env.srcDir, zip, (k: nat) => o.net(ArchiveUrl(env, pkg), k), MaxAttempts);
            && dl.retry.result == Success(zip)
            && env.srcDir + [zip] in dl.fs
            && Listable(dl.fs, env.toolsPath)
            && forall q :: q in dl.fs && q !in fs ==> Under(env.toolsPath, q) || q == env.srcDir + [zip]
  {
    var tools := env.toolsPath;
    var zip := ZipFileName(pkg.name, pkg.version);
    assert tools[..|tools|] == tools;
    var fs1 := MakeDir(fs, tools).value;
    assert Listable(fs1, tools);
    var net := (k: nat) => o.net(ArchiveUrl(env, pkg), k);
    var dl := DownloadWithRetry(fs1, env.srcDir, zip, net, MaxAttempts);
    if exists k :: 1 <= k <= MaxAttempts && Delivers(o.net(ArchiveUrl(env, pkg), k)) {
      var k :| 1 <= k <= MaxAttempts && Delivers(o.net(ArchiveUrl(env, pkg), k));
      assert Delivers(net(k));
    }
    assert Listable(dl.fs, tools) by {
      if tools != env.srcDir + [zip] { assert dl.fs[tools] == fs1[tools]; }
    }
  }

  /** Under the conditions of `DownloadLands` the script reaches the
      clean-up with the archive on disk. */
  lemma PipelineReachesRefresh(fs: FS, env: Environment, pkg: Package, o: Oracles, cleanRenamed: bool)
    requires InstallerPrecheck(fs, env).None? && env.zipUrl != "" && MkdirP(fs, env.toolsPath).Success?
    requires var zip := ZipFileName(pkg.name, pkg.version);
             env.srcDir + [zip] in fs || exists k :: 1 <= k <= MaxAttempts && Delivers(o.net(ArchiveUrl(env, pkg), k))
    ensures var zip := ZipFileName(pkg.name, pkg.version);
            var fs1 := MakeDir(fs, env.toolsPath).value;
            var dl := DownloadWithRetry(fs1, env.srcDir, zip, (k: nat) => o.net(ArchiveUrl(env, pkg), k), MaxAttempts);
            Pipeline(fs, env, pkg, o, cleanRenamed) == Refresh(dl.fs, env.toolsPath, env.srcDir + [zip], zip, o, cleanRenamed)
  {
    DownloadLands(fs, env, pkg, o);
  }

  /** With the corrected clean-up a reinstall over an earlier install
      finishes and leaves the new files in `<name>_<version>`, provided the
      tools directory can be made, the archive is on disk or one of three
      requests delivers it, and each later step goes through within its
      three attempts. */
  lemma ReinstallSucceeds(fs: FS, env: Environment, pkg: Package, o: Oracles)
    requires InstallerPrecheck(fs, env).None? && env.zipUrl != ""
    requires MkdirP(fs, env.toolsPath).Success? && Render(env.toolsPath) != ""
    requires var zip := ZipFileName(pkg.name, pkg.version);
             env.srcDir + [zip] in fs || exists k :: 1 <= k <= MaxAttempts && Delivers(o.net(ArchiveUrl(env, pkg), k))
    requires exists k :: 1 <= k <= MaxAttempts && o.cleanFaults(k).NoFault?
    requires exists k :: 1 <= k <= MaxAttempts && o.renamedCleanFaults(k).NoFault?
    requires exists k :: 1 <= k <= MaxAttempts && o.exits(k).Exited? && o.exits(k).code == 0
    requires exists k :: 1 <= k <= MaxAttempts && o.renameFaults(k).None?
    requires var zip := ZipFileName(pkg.name, pkg.version);
             [Extracted(zip)] in o.contents && [Renamed(zip)] !in o.contents && [] !in o.contents
    ensures var zip := ZipFileName(pkg.name, pkg.version);
            var r := Install(fs, env, pkg, o);
            && r.ending.Finished?
            && env.toolsPath + [Renamed(zip)] in r.fs
            && r.fs[env.toolsPath + [Renamed(zip)]] == o.contents[[Extracted(zip)]]
            && Placed(r.fs, env.toolsPath, zip, o)
  {
    var zip := ZipFileName(pkg.name, pkg.version);
    DerivedFolderIsRenamed(pkg.name, pkg.version);
    DownloadLands(fs, env, pkg, o);
    PipelineReachesRefresh(fs, env, pkg, o, true);
    var fs1 := MakeDir(fs, env.toolsPath).value;
    var dl := DownloadWithRetry(fs1, env.srcDir, zip, (k: nat) => o.net(ArchiveUrl(env, pkg), k), MaxAttempts);
    assert Render(env.srcDir + [zip]) != "";
    RefreshPlacesFolder(dl.fs, env.toolsPath, env.srcDir + [zip], zip, o);
  }

  /** The script as written does finish a first install: with no
      `<name>_<version>` in the tools directory the rename has nothing in
      its way. */
  lemma FreshInstallAsWrittenFinishes(fs: FS, env: Environment, pkg: Package, o: Oracles)
    requires InstallerPrecheck(fs, env).None? && env.zipUrl != ""
    requires MkdirP(fs, env.toolsPath).Success? && Render(env.toolsPath) != ""
    requires env.toolsPath + [Renamed(ZipFileName(pkg.name, pkg.version))] !in fs
    requires var zip := ZipFileName(pkg.name, pkg.version);
             env.srcDir + [zip] in fs || exists k :: 1 <= k <= MaxAttempts && Delivers(o.net(ArchiveUrl(env, pkg), k))
    requires exists k :: 1 <= k <= MaxAttempts && o.cleanFaults(k).NoFault?
    requires exists k :: 1 <= k <= MaxAttempts && o.exits(k).Exited? && o.exits(k).code == 0
    requires exists k :: 1 <= k <= MaxAttempts && o.renameFaults(k).None?
    requires var zip := ZipFileName(pkg.name, pkg.version);
             [Extracted(zip)] in o.contents && [Renamed(zip)] !in o.contents && [] !in o.contents
    ensures var zip := ZipFileName(pkg.name, pkg.version);
            var r := InstallAsWritten(fs, env, pkg, o);
            && r.ending.Finished?
            && env.toolsPath + [Renamed(zip)] in r.fs
            && r.fs[env.toolsPath + [Renamed(zip)]] == o.contents[[Extracted(zip)]]
            && Placed(r.fs, env.toolsPath, zip, o)
  {
    var zip := ZipFileName(pkg.name, pkg.version);
    DerivedFolderIsRenamed(pkg.name, pkg.version);
    PipelineReachesRefresh(fs, env, pkg, o, false);
    var dl := DownloadStaysFresh(fs, env, pkg, o);
    RefreshAsWrittenPlacesFolder(dl, env.toolsPath, env.srcDir + [zip], zip, o);
  }

  /** Making the tools directory and fetching the archive create no
      `<name>_<version>`. */
  lemma DownloadStaysFresh(fs: FS, env: Environment, pkg: Package, o: Oracles) returns (staged: FS)
    requires InstallerPrecheck(fs, env).None? && MkdirP(fs, env.toolsPath).Success?
    requires env.toolsPath + [Renamed(ZipFileName(pkg.name, pkg.version))] !in fs
    requires var zip := ZipFileName(pkg.name, pkg.version);
             env.srcDir + [zip] in fs || exists k :: 1 <= k <= MaxAttempts && Delivers(o.net(ArchiveUrl(env, pkg), k))
    ensures var zip := ZipFileName(pkg.name, pkg.version);
            var fs1 := MakeDir(fs, env.toolsPath).value;
            && staged == DownloadWithRetry(fs1, env.srcDir, zip, (k: nat) => o.net(ArchiveUrl(env, pkg), k), MaxAttempts).fs
            && Listable(staged, env.toolsPath) && env.toolsPath + [Renamed(zip)] !in staged
            && Render(env.srcDir + [zip]) != ""
  {
    var zip := ZipFileName(pkg.name, pkg.version);
    var dst := env.toolsPath + [Renamed(zip)];
    RenamedIsNotArchive(pkg.name, pkg.version);
    DownloadLands(fs, env, pkg, o);
    var fs1 := MakeDir(fs, env.toolsPath).value;
    staged := DownloadWithRetry(fs1, env.srcDir, zip, (k: nat) => o.net(ArchiveUrl(env, pkg), k), MaxAttempts).fs;
    assert !Under(env.toolsPath, dst) by { UnderChild(env.toolsPath, Renamed(zip)); }
    NamesApart(env.toolsPath, Renamed(zip), env.srcDir, zip);
  }

  /** Paths whose last components differ are different paths. */
  lemma NamesApart(p: Path, a: string, q: Path, b: string)
    requires a != b
    ensures p + [a] != q + [b]
  {
    if |p| == |q| {
      assert (p + [a])[|p|] != (q + [b])[|p|];
    }
  }
}

=== FILE: common.dfy ===
/** What the install and uninstall scripts share: the environment they read,
    the checks they make before touching anything, and the steps that
    appear verbatim in several of them (the archive filter, the clean-up of
    a previously extracted folder, extraction with retries). */
module Common {
  import opened Wrappers
  import opened Strings
  import opened Naming
  import opened FileSystem
  import opened Retry
  import opened Unpack

  /** The script's own directory (`__dirname`) and its environment
      variables. A path variable that is unset or empty is `[]`
      (`process.env.X || ""`); an unset `AILY_ZIP_URL` is `""`. */
  datatype Environment = Environment(srcDir: Path, toolsPath: Path, sevenZa: Path, zipUrl: string)

  /** The `name` and `version` fields of the tool's `package.json`. */
  datatype Package = Package(name: string, version: string)

  /** `fs.existsSync(p)`; the empty string names nothing. */
  predicate Exists(fs: FS, p: Path) {
    p != [] && p in fs
  }

  /** Every retried step in the scripts makes at most three calls. */
  const MaxAttempts := 3

  /** Why a script stops before doing anything. */
  datatype Precheck =
    | NoSourceDir   // `__dirname` does not exist
    | NoToolsPath   // `AILY_TOOLS_PATH` unset or empty
    | NoSevenZip    // `AILY_7ZA_PATH` names nothing
    | NoTargetDir   // the directory an uninstaller cleans does not exist

  /** How a script ends: normally, at a precheck, or at a failed step.
      The esp32h2 and bossac installers call `process.exit(1)` on a failed
      step; the other scripts only log it. */
  datatype Ending<Step> = Finished | Skipped(why: Precheck) | Failed(step: Step)

  /** The three checks at the top of every installer, in source order. */
  function InstallerPrecheck(fs: FS, env: Environment): (r: Option<Precheck>)
    ensures r.None? <==> Exists(fs, env.srcDir) && env.toolsPath != [] && Exists(fs, env.sevenZa)
    ensures !Exists(fs, env.srcDir) ==> r == Some(NoSourceDir)
    ensures r == Some(NoSevenZip) ==> Exists(fs, env.srcDir) && env.toolsPath != []
  {
    if !Exists(fs, env.srcDir) then Some(NoSourceDir)
    else if env.toolsPath == [] then Some(NoToolsPath)
    else if !Exists(fs, env.sevenZa) then Some(NoSevenZip)
    else None
  }

  /** The three checks at the top of the uninstallers, in source order:
      the script's directory, the tools path, then the directory to clean
      (`target`, derived from the tools path). */
  function UninstallerPrecheck(fs: FS, env: Environment, target: Path): (r: Option<Precheck>)
    ensures r.None? <==> Exists(fs, env.srcDir) && env.toolsPath != [] && Exists(fs, target)
    ensures r == Some(NoTargetDir) <==> Exists(fs, env.srcDir) && env.toolsPath != [] && !Exists(fs, target)
    ensures !Exists(fs, env.srcDir) ==> r == Some(NoSourceDir)
  {
    if !Exists(fs, env.srcDir) then Some(NoSourceDir)
    else if env.toolsPath == [] then Some(NoToolsPath)
    else if !Exists(fs, target) then Some(NoTargetDir)
    else None
  }

  /** `if (!fs.existsSync(p)) fs.mkdirSync(p, { recursive: true })`: an
      existing `p` is kept as it is, whatever it is. */
  function MakeDir(fs: FS, p: Path): (r: Result<FS, string>)
    ensures r.Success? <==> Exists(fs, p) || MkdirP(fs, p).Success?
    ensures r.Success? && p != [] ==> p in r.value
    ensures r.Success? ==> forall q :: q in fs ==> q in r.value && r.value[q] == fs[q]
    ensures r.Success? ==> forall q :: q in r.value && q !in fs ==> Under(p, q)
  {
    if Exists(fs, p) then Success(fs)
    else
      assert p[..|p|] == p;
      MkdirP(fs, p)
  }

  /** `readdir` on a path resolves only for a directory. */
  predicate Listable(fs: FS, p: Path) {
    p in fs && fs[p] == Dir
  }

  /** `files.filter(f => path.extname(f).toLowerCase() === '.7z')`. */
  function Archives(listing: seq<string>): (r: seq<string>)
    ensures |r| <= |listing|
    ensures forall x :: x in r <==> x in listing && IsSevenZip(x)
  {
    if |listing| == 0 then []
    else if IsSevenZip(listing[0]) then [listing[0]] + Archives(listing[1..])
    else Archives(listing[1..])
  }

  /** The filter keeps the listing's order: it distributes over
      concatenation, and a single name stays exactly when it is a `.7z`. */
  lemma {:induction false} ArchivesAppend(a: seq<string>, b: seq<string>)
    ensures Archives(a + b) == Archives(a) + Archives(b)
    decreases |a|
  {
    if |a| > 0 {
      assert (a + b)[1..] == a[1..] + b;
      ArchivesAppend(a[1..], b);
    } else {
      assert a + b == b;
    }
  }

  lemma ArchivesSingle(x: string)
    ensures Archives([x]) == if IsSevenZip(x) then [x] else []
  {
    assert [x][1..] == [];
  }

  /** No name the filter keeps is empty, so the `if (!file)` skip in the
      archive loops never fires. */
  lemma ArchivesAreNamed(listing: seq<string>)
    ensures forall x :: x in Archives(listing) ==> |x| >= 4
  {
    forall x | x in Archives(listing) ensures |x| >= 4 {
      IsSevenZipIff(x);
    }
  }

  // ------------------------------------------------ checkAndCleanExistingFolder

  /** The message an attempt fails with, if it fails. */
  function FaultMessage(f: RimrafFault): Option<string> {
    if f.NoFault? then None else Some(f.message)
  }

  /** An injected `rmSync` error as the fault of one deletion attempt. */
  function AsFault(m: Option<string>): (f: RimrafFault)
    ensures f.NoFault? <==> m.None?
  {
    if m.None? then NoFault else RemoveFault(m.value)
  }

  /** One attempt at deleting the previously extracted folder `p`: `rmSync`
      when the runtime has it, the `rimraf` fallback otherwise. */
  function DeleteAttempt(fs: FS, p: Path, useRimraf: bool, fault: RimrafFault): (r: Result<(), string>)
    ensures p in fs ==> (r.Success? <==> fault.NoFault?)
    ensures p !in fs ==> r.Success?
  {
    if useRimraf then
      match Rimraf(fs, p, fault)
      case Success(_) => Success(())
      case Failure(m) => Failure(m)
    else RemoveTry(fs, p, FaultMessage(fault))
  }

  /** The body of `checkAndCleanExistingFolder`: when folder `p` exists,
      delete it with up to three attempts; when all fail, the step fails. */
  function CleanFolder(fs: FS, p: Path, useRimraf: bool, faults: nat -> RimrafFault): (r: Result<FS, RetryError<string>>)
    ensures p !in fs ==> r == Success(fs)
    ensures r.Success? ==> p !in r.value
    ensures r.Success? ==> forall q :: q in r.value ==> q in fs && r.value[q] == fs[q]
    ensures r.Success? ==> forall q :: q in fs && !Under(q, p) ==> q in r.value
    ensures r.Success? && p in fs ==> forall q :: Under(q, p) ==> q !in r.value
    ensures r.Failure? <==> p in fs && forall k :: 1 <= k <= MaxAttempts ==> !faults(k).NoFault?
  {
    if p !in fs then Success(fs)
    else
      var script := (k: nat) => DeleteAttempt(fs, p, useRimraf, faults(k));
      var run := WithRetry(script, MaxAttempts);
      if run.result.Success? then
        assert faults(run.calls).NoFault? by { assert script(run.calls).Success?; }
        Success(RemoveTree(fs, p))
      else
        assert forall k :: 1 <= k <= MaxAttempts ==> !faults(k).NoFault? by {
          forall k | 1 <= k <= MaxAttempts ensures !faults(k).NoFault? {
            assert script(k).Failure?;
          }
        }
        Failure(run.result.error)
  }

  /** `checkAndCleanExistingFolder(zipFileName, targetDir)`: the folder is
      the one the archive name promises, `<name>` for `<name>.7z`. */
  function CleanExistingFolder(fs: FS, zipName: string, targetDir: Path, useRimraf: bool, faults: nat -> RimrafFault): (r: Result<FS, RetryError<string>>)
    ensures var p := targetDir + [StripArchiveExt(zipName)];
            && (p !in fs ==> r == Success(fs))
            && (r.Success? ==> p !in r.value)
            && (r.Success? ==> forall q :: q in r.value ==> q in fs && r.value[q] == fs[q])
            && (r.Success? ==> forall q :: q in fs && !Under(q, p) ==> q in r.value)
            && (r.Success? && p in fs ==> forall q :: Under(q, p) ==> q !in r.value)
            && (r.Failure? <==> p in fs && forall k :: 1 <= k <= MaxAttempts ==> !faults(k).NoFault?)
  {
    CleanFolder(fs, targetDir + [StripArchiveExt(zipName)], useRimraf, faults)
  }

  /** With the corrected `rimraf`, the fallback deletes exactly as `rmSync`
      does, so the runtime's age makes no difference. */
  lemma CleanIgnoresRemovalMethod(fs: FS, p: Path, faults: nat -> RimrafFault)
    ensures CleanFolder(fs, p, true, faults).Success? <==> CleanFolder(fs, p, false, faults).Success?
    ensures CleanFolder(fs, p, true, faults).Success? ==> CleanFolder(fs, p, true, faults) == CleanFolder(fs, p, false, faults)
  {
    var a := CleanFolder(fs, p, true, faults);
    var b := CleanFolder(fs, p, false, faults);
    if a.Success? && b.Success? {
      assert forall q :: q in a.value <==> q in b.value;
    }
  }

  // ------------------------------------------------------------- extraction

  /** `withRetry(() => unpack(archive, dest), 3, 2000)` and what the
      successful run writes: `contents` are the archive's entries relative
      to `dest`. A failed run writes nothing. */
  function ExtractWithRetry(fs: FS, archive: Path, dest: Path, exits: nat -> ChildExit, contents: FS): (r: Result<FS, RetryError<UnpackError>>)
    ensures r.Success? ==> r.value == Extract(fs, dest, contents)
    ensures r.Success? ==> forall e :: e in contents ==> dest + e in r.value && r.value[dest + e] == contents[e]
    ensures r.Success? ==> exists k :: 1 <= k <= MaxAttempts && exits(k).Exited? && exits(k).code == 0
    ensures Render(archive) != "" && Render(dest) != "" && (exists k :: 1 <= k <= MaxAttempts && exits(k).Exited? && exits(k).code == 0) ==>
              r.Success?
  {
    var script := (k: nat) => Unpack.Unpack(Render(archive), Render(dest), exits(k)).result;
    var run := WithRetry(script, MaxAttempts);
    SucceedsIffSomeCallSucceeds(script, MaxAttempts);
    if run.result.Success? then
      assert script(run.calls).Success?;
      Success(Extract(fs, dest, contents))
    else
      Failure(run.result.error)
  }
}

=== FILE: download.dfy ===
/** `getZipFile` in the esp32h2 and bossac installers: skip the download
    when the archive is already on disk, otherwise stream it from the
    server into the package directory, reporting whole-percent progress, and
    delete the partial file on any failure. The network is an oracle giving
    the outcome of each request. */
module Download {
  import opened Wrappers
  import opened FileSystem
  import opened Retry

  /** What one `https.get` does. */
  datatype NetOutcome =
    | RequestError(message: string)
      // the request emits 'error' before any response
    | Response(status: int, contentLength: int, chunks: seq<nat>, writeError: Option<string>)
      // `contentLength` is the parsed header, 0 when absent or not a number;
      // `chunks` are the sizes of the 'data' events; `writeError` is an
      // 'error' on the file stream

  datatype DownloadError =
    | BadStatus(code: int)
    | Network(message: string)
    | WriteFailed(message: string)

  /** One call of `getZipFile`: how it settles, the filesystem afterwards,
      whether a request was sent, and the percentages it printed. */
  datatype FetchRun = FetchRun(result: Result<string, DownloadError>, fs: FS, requested: bool, progress: seq<int>)

  /** `Math.floor(downloaded / total * 100)`, computed on integers. */
  function Percent(downloaded: nat, total: int): int
    requires total > 0
  {
    downloaded * 100 / total
  }

  lemma MulCancel(t: int, a: int, b: int)
    requires t > 0 && t * a < t * b
    ensures a < b
  {
  }

  lemma PercentMonotone(a: nat, b: nat, total: int)
    requires a <= b && total > 0
    ensures Percent(a, total) <= Percent(b, total)
  {
    var x, y := a * 100, b * 100;
    var qx, qy := x / total, y / total;
    assert total * qx + x % total == x;
    assert total * qy + y % total == y;
    assert total * qx < total * (qy + 1);
    MulCancel(total, qx, qy + 1);
  }

  /** The percentage after each 'data' event, starting from `downloaded`
      bytes already received. */
  function Percentages(total: int, chunks: seq<nat>, downloaded: nat): (r: seq<int>)
    requires total > 0
    ensures |r| == |chunks|
    ensures forall i :: 0 <= i < |r| ==> r[i] >= Percent(downloaded, total)
    decreases |chunks|
  {
    if |chunks| == 0 then []
    else
      var d := downloaded + chunks[0];
      PercentMonotone(downloaded, d, total);
      [Percent(d, total)] + Percentages(total, chunks[1..], d)
  }

  /** The 'data' handler's output: a percentage is printed only when the
      total is known and the value exceeds the last one printed. */
  function Reports(total: int, chunks: seq<nat>, downloaded: nat, last: int): (r: seq<int>)
    ensures total <= 0 ==> r == []
    ensures forall i :: 0 <= i < |r| ==> r[i] > last
    ensures forall i, j :: 0 <= i < j < |r| ==> r[i] < r[j]
    decreases |chunks|
  {
    if |chunks| == 0 then []
    else
      var d := downloaded + chunks[0];
      if total > 0 && Percent(d, total) > last then
        [Percent(d, total)] + Reports(total, chunks[1..], d, Percent(d, total))
      else
        Reports(total, chunks[1..], d, last)
  }

  /** Every printed percentage is the floor of the bytes received so far
      over the total, after some chunk. */
  lemma {:induction false} ReportsArePercentages(total: int, chunks: seq<nat>, downloaded: nat, last: int)
    requires total > 0
    ensures forall v :: v in Reports(total, chunks, downloaded, last) ==> v in Percentages(total, chunks, downloaded)
    decreases |chunks|
  {
    if |chunks| > 0 {
      var d := downloaded + chunks[0];
      var p := Percent(d, total);
      if p > last {
        ReportsArePercentages(total, chunks[1..], d, p);
      } else {
        ReportsArePercentages(total, chunks[1..], d, last);
      }
    }
  }

  /** No increase is missed: every percentage reached that is above the
      last one printed gets printed. */
  lemma {:induction false} ReportsComplete(total: int, chunks: seq<nat>, downloaded: nat, last: int)
    requires total > 0
    ensures forall v :: v in Percentages(total, chunks, downloaded) && v > last ==> v in Reports(total, chunks, downloaded, last)
    decreases |chunks|
  {
    if |chunks| > 0 {
      var d := downloaded + chunks[0];
      var p := Percent(d, total);
      var tail := Percentages(total, chunks[1..], d);
      assert Percentages(total, chunks, downloaded) == [p] + tail;
      if p > last {
        ReportsComplete(total, chunks[1..], d, p);
        forall v | v in tail && v > last
          ensures v in Reports(total, chunks, downloaded, last)
        {
          var i :| 0 <= i < |tail| && tail[i] == v;
          assert v >= p;
        }
      } else {
        ReportsComplete(total, chunks[1..], d, last);
      }
    }
  }

  /** A response that delivers the whole archive: status 200 and no error
      while writing it. */
  predicate Delivers(outcome: NetOutcome) {
    outcome.Response? && outcome.status == 200 && outcome.writeError.None?
  }

  /** One call of `getZipFile` writing `name` into directory `dir`. */
  function Fetch(fs: FS, dir: Path, name: string, outcome: NetOutcome): (r: FetchRun)
    ensures dir + [name] in fs ==> r == FetchRun(Success(name), fs, false, [])
    ensures r.result.Success? <==> dir + [name] in fs || Delivers(outcome)
    ensures dir + [name] !in fs ==> r.requested
    ensures r.result.Success? ==> r.result.value == name && dir + [name] in r.fs
    ensures r.result.Failure? ==> dir + [name] !in r.fs && r.fs == fs
    ensures dir + [name] !in fs && outcome.RequestError? ==> r.result == Failure(Network(outcome.message))
    ensures dir + [name] !in fs && outcome.Response? && outcome.status != 200 ==>
              r.result == Failure(BadStatus(outcome.status)) && r.progress == []
    ensures dir + [name] !in fs && outcome.Response? && outcome.status == 200 ==>
              r.progress == Reports(outcome.contentLength, outcome.chunks, 0, -1) &&
              (r.result.Failure? <==> outcome.writeError.Some?)
    ensures forall q :: q != dir + [name] ==> (q in r.fs <==> q in fs) && (q in fs ==> r.fs[q] == fs[q])
  {
    var path := dir + [name];
    if path in fs then FetchRun(Success(name), fs, false, [])
    else
      var created := fs[path := File];  // `fs.createWriteStream(filePath)`
      assert created - {path} == fs;
      match outcome
      case RequestError(m) =>
        FetchRun(Failure(Network(m)), created - {path}, true, [])
      case Response(status, total, chunks, writeError) =>
        if status != 200 then
          FetchRun(Failure(BadStatus(status)), created - {path}, true, [])
        else
          var progress := Reports(total, chunks, 0, -1);
          if writeError.Some? then
            FetchRun(Failure(WriteFailed(writeError.value)), created - {path}, true, progress)
          else
            FetchRun(Success(name), created, true, progress)
  }

  /** A second call after a successful one sends no request and changes nothing. */
  lemma FetchTwiceRequestsOnce(fs: FS, dir: Path, name: string, first: NetOutcome, second: NetOutcome)
    requires Fetch(fs, dir, name, first).result.Success?
    ensures var again := Fetch(Fetch(fs, dir, name, first).fs, dir, name, second);
            !again.requested && again.result == Success(name) &&
            again.fs == Fetch(fs, dir, name, first).fs
  {
  }

  /** `withRetry(getZipFile, maxRetries, …)`: what it settles to and the
      filesystem afterwards. */
  datatype DownloadRun = DownloadRun(retry: RetryRun<string, DownloadError>, fs: FS)

  /** Every attempt is judged against the same filesystem: a failed
      attempt leaves it as it found it (see `Fetch`). */
  function DownloadWithRetry(fs: FS, dir: Path, name: string, net: nat -> NetOutcome, maxRetries: int): (r: DownloadRun)
    ensures r.retry.result.Success? ==> r.retry.result.value == name && dir + [name] in r.fs
    ensures r.retry.result.Failure? ==> r.fs == fs
    ensures dir + [name] in fs && maxRetries >= 1 ==>
              r.retry.calls == 1 && r.retry.result == Success(name) && r.fs == fs
    ensures r.retry.result.Failure? && maxRetries >= 1 ==>
              r.retry.calls == maxRetries && dir + [name] !in fs
    ensures maxRetries >= 1 && (exists k :: 1 <= k <= maxRetries && Delivers(net(k))) ==> r.retry.result.Success?
    ensures forall q :: q != dir + [name] ==> (q in r.fs <==> q in fs) && (q in fs ==> r.fs[q] == fs[q])
  {
    var script := (k: nat) => Fetch(fs, dir, name, net(k)).result;
    assert dir + [name] in fs ==> Fetch(fs, dir, name, net(1)).result == Success(name);
    var run := WithRetry(script, maxRetries);
    assert dir + [name] in fs ==> script(1) == Success(name);
    SucceedsIffSomeCallSucceeds(script, maxRetries);
    assert (exists k :: 1 <= k <= maxRetries && Delivers(net(k))) ==> run.result.Success? by {
      if exists k :: 1 <= k <= maxRetries && Delivers(net(k)) {
        var k :| 1 <= k <= maxRetries && Delivers(net(k));
        assert script(k).Success?;
      }
    }
    if run.result.Success? then
      assert dir + [name] in fs ==> run.calls == 1;
      DownloadRun(run, Fetch(fs, dir, name, net(run.calls)).fs)
    else
      assert maxRetries >= 1 ==> script(1).Failure?;
      DownloadRun(run, fs)
  }
}

=== FILE: filesystem.dfy ===
/** The filesystem the scripts act on: a map from paths (sequences of
    segments) to the kind of entry found there. Top-level entries hang off
    an implicit root. Every primitive is atomic: a call that fails changes
    nothing. */
module FileSystem {
  import opened Wrappers

  type Path = seq<string>

  datatype Kind = Dir | File

  type FS = map<Path, Kind>

  /** An injected failure for the k-th attempt of an operation on a path:
      `Some(message)` makes that attempt throw. */
  type Faults = (Path, nat) -> Option<string>

  /** `q` is `p` itself or lies somewhere below it. */
  predicate Under(q: Path, p: Path) {
    |p| <= |q| && q[..|p|] == p
  }

  /** Every entry below the top level sits inside a directory that exists. */
  ghost predicate WellFormed(fs: FS) {
    forall p :: p in fs && |p| > 1 ==> p[..|p| - 1] in fs && fs[p[..|p| - 1]] == Dir
  }

  /** Nothing lies below `p` unless `p` itself is there. */
  ghost predicate Rooted(fs: FS, p: Path) {
    forall q :: q in fs && Under(q, p) ==> p in fs
  }

  /** In a well-formed tree every non-empty path is rooted. */
  lemma WellFormedRooted(fs: FS, p: Path)
    requires WellFormed(fs) && p != []
    ensures Rooted(fs, p)
  {
    forall q | q in fs && Under(q, p) ensures p in fs {
      AncestorPresent(fs, q, p);
    }
  }

  /** `p` is a directory with at least one entry. */
  predicate HasChild(fs: FS, p: Path) {
    exists q :: q in fs && |q| == |p| + 1 && q[..|p|] == p
  }

  /** A path as the string handed to a child process, segments joined by `/`. */
  function Render(p: Path): (r: string)
    ensures |p| >= 2 ==> r != ""
  {
    if |p| == 0 then ""
    else if |p| == 1 then p[0]
    else Render(p[..|p| - 1]) + "/" + p[|p| - 1]
  }

  // ---------------------------------------------------------------- removal

  /** A recursive delete that succeeds: `p` and everything below it go,
      nothing else changes. */
  function RemoveTree(fs: FS, p: Path): (r: FS)
    ensures forall q :: q in r <==> q in fs && !Under(q, p)
    ensures forall q :: q in r ==> r[q] == fs[q]
  {
    map q | q in fs && !Under(q, p) :: fs[q]
  }

  /** Two ancestors of one path are ancestors of one another. */
  lemma UnderComparable(q: Path, a: Path, b: Path)
    requires Under(q, a) && Under(q, b) && |a| <= |b|
    ensures Under(b, a)
  {
    assert b[..|a|] == q[..|b|][..|a|];
  }

  lemma UnderTrans(a: Path, b: Path, c: Path)
    requires Under(a, b) && Under(b, c)
    ensures Under(a, c)
  {
    assert a[..|c|] == a[..|b|][..|c|];
  }

  /** Whatever lies below a child of `p` lies below `p`. */
  lemma UnderChild(p: Path, x: string)
    ensures forall q :: Under(q, p + [x]) ==> Under(q, p)
  {
    forall q | Under(q, p + [x]) ensures Under(q, p) {
      UnderTrans(q, p + [x], p);
    }
  }

  /** Two different children of one directory: neither lies below the other,
      nor does anything below one lie below the other. */
  lemma SiblingsApart(dir: Path, a: string, b: string)
    requires a != b
    ensures !Under(dir + [a], dir + [b]) && !Under(dir + [b], dir + [a])
    ensures forall q :: Under(q, dir + [a]) ==> !Under(q, dir + [b])
  {
    assert (dir + [a])[|dir|] == a && (dir + [b])[|dir|] == b;
    forall q | Under(q, dir + [a]) ensures !Under(q, dir + [b]) {
      assert q[|dir|] == (dir + [a])[|dir|];
    }
  }

  /** In a well-formed tree an entry below `p` implies that `p` exists. */
  lemma {:induction false} AncestorPresent(fs: FS, q: Path, p: Path)
    requires WellFormed(fs) && q in fs && Under(q, p) && |p| >= 1
    ensures p in fs
    decreases |q|
  {
    if |q| == |p| {
      assert q == q[..|p|];
    } else {
      var parent := q[..|q| - 1];
      assert parent[..|p|] == q[..|p|];
      AncestorPresent(fs, parent, p);
    }
  }

  /** Deleting a path that does not exist changes nothing. */
  lemma RemoveAbsentIsNoOp(fs: FS, p: Path)
    requires WellFormed(fs) && |p| >= 1 && p !in fs
    ensures RemoveTree(fs, p) == fs
  {
    forall q | q in fs ensures !Under(q, p) {
      if Under(q, p) {
        AncestorPresent(fs, q, p);
      }
    }
  }

  /** Deleting a subtree keeps the tree well formed. */
  lemma RemoveTreePreservesWellFormed(fs: FS, p: Path)
    requires WellFormed(fs)
    ensures WellFormed(RemoveTree(fs, p))
  {
    var r := RemoveTree(fs, p);
    forall q | q in r && |q| > 1
      ensures q[..|q| - 1] in r && r[q[..|q| - 1]] == Dir
    {
    }
  }

  /** One call of `removeDir` in the uninstallers, equally one pass of the
      `rmSync`-or-`rimraf` delete inside `checkAndCleanExistingFolder`: an
      absent path resolves at once; a present one is deleted unless the
      injected fault makes the call throw. */
  function RemoveTry(fs: FS, p: Path, fault: Option<string>): (r: Result<(), string>)
    ensures p !in fs ==> r.Success?
    ensures r.Failure? <==> p in fs && fault.Some?
  {
    if p !in fs then Success(())
    else if fault.Some? then Failure(fault.value)
    else Success(())
  }

  /** The state after a delete that `RemoveTry` reported as resolved. */
  function RemoveEffect(fs: FS, p: Path): (r: FS)
    ensures p !in r
    ensures p !in fs ==> r == fs
  {
    if p in fs then RemoveTree(fs, p) else fs
  }

  /** How a single pass of the `rimraf` fallback can go wrong. */
  datatype RimrafFault =
    | NoFault
    | StatFault(message: string)    // `statSync` or `readdirSync` throws
    | RemoveFault(message: string)  // the final `fs.rmdir` or `fs.unlink` fails

  /** `rimraf(dir)` as written: `fs.rmdir(dir, resolve)` and
      `fs.unlink(dir, resolve)` hand their error to `resolve`, so a failed
      removal still resolves. The model keeps the whole tree in that case. */
  function RimrafAsWritten(fs: FS, p: Path, fault: RimrafFault): (r: Result<FS, string>)
    ensures p !in fs ==> r == Success(fs)
    ensures r.Failure? <==> p in fs && fault.StatFault?
    // a failed removal resolves with the tree untouched
    ensures p in fs && fault.RemoveFault? ==> r == Success(fs) && p in r.value
    ensures r.Success? ==> forall q :: q in fs && !Under(q, p) ==> q in r.value && r.value[q] == fs[q]
  {
    if p !in fs then Success(fs)
    else match fault
      case NoFault => Success(RemoveTree(fs, p))
      case StatFault(m) => Failure(m)
      case RemoveFault(_) => Success(fs)
  }

  /** `rimraf(dir)` with the removal error passed to `reject`, as the
      function's callers assume: resolving means the path is gone. */
  function Rimraf(fs: FS, p: Path, fault: RimrafFault): (r: Result<FS, string>)
    ensures p !in fs ==> r == Success(fs)
    ensures r.Success? ==> p !in r.value
    ensures r.Success? ==> forall q :: q in fs && !Under(q, p) ==> q in r.value && r.value[q] == fs[q]
    ensures p in fs ==> (r.Failure? <==> !fault.NoFault?)
  {
    if p !in fs then Success(fs)
    else match fault
      case NoFault => Success(RemoveTree(fs, p))
      case StatFault(m) => Failure(m)
      case RemoveFault(m) => Failure(m)
  }

  /** The two versions differ only where the final removal fails: the
      original resolves there, the corrected one rejects. */
  lemma RimrafDiffersOnlyOnRemoveFault(fs: FS, p: Path, fault: RimrafFault)
    ensures RimrafAsWritten(fs, p, fault) != Rimraf(fs, p, fault) <==> p in fs && fault.RemoveFault?
  {
  }

  /** The as-written `rimraf` resolves although the directory is still
      there, so its callers' "deleted" message can be false. */
  lemma RimrafAsWrittenResolvesWhilePresent()
    ensures var fs: FS := map[["tools"] := Dir, ["tools", "bossac@1.9.1"] := Dir];
            var r := RimrafAsWritten(fs, ["tools", "bossac@1.9.1"], RemoveFault("EBUSY"));
            r.Success? && ["tools", "bossac@1.9.1"] in r.value
  {
  }

  // ---------------------------------------------------------------- rename

  lemma RebaseInjective(src: Path, dst: Path)
    ensures forall q1, q2 :: Under(q1, src) && Under(q2, src) && dst + q1[|src|..] == dst + q2[|src|..] ==> q1 == q2
  {
    forall q1, q2 | Under(q1, src) && Under(q2, src) && dst + q1[|src|..] == dst + q2[|src|..]
      ensures q1 == q2
    {
      assert q1[|src|..] == (dst + q1[|src|..])[|dst|..];
      assert q2[|src|..] == (dst + q2[|src|..])[|dst|..];
      assert q1 == q1[..|src|] + q1[|src|..];
      assert q2 == q2[..|src|] + q2[|src|..];
    }
  }

  lemma PrependInjective(dest: Path)
    ensures forall e1: Path, e2: Path :: dest + e1 == dest + e2 ==> e1 == e2
  {
    forall e1: Path, e2: Path | dest + e1 == dest + e2 ensures e1 == e2 {
      assert e1 == (dest + e1)[|dest|..];
      assert e2 == (dest + e2)[|dest|..];
    }
  }

  /** The subtree at `src`, re-rooted at `dst`. */
  function Relocate(fs: FS, src: Path, dst: Path): (r: FS)
    ensures forall t :: t in r <==> Under(t, dst) && src + t[|dst|..] in fs
    ensures forall t :: t in r ==> |dst| <= |t| && r[t] == fs[src + t[|dst|..]]
  {
    RebaseInjective(src, dst);
    var r := map q | q in fs && Under(q, src) :: dst + q[|src|..] := fs[q];
    forall t | Under(t, dst) && src + t[|dst|..] in fs
      ensures t in r && r[t] == fs[src + t[|dst|..]]
    {
      var q := src + t[|dst|..];
      assert q[..|src|] == src;
      assert q[|src|..] == t[|dst|..];
      assert t == dst + t[|dst|..];
    }
    forall t | t in r
      ensures Under(t, dst) && src + t[|dst|..] in fs && r[t] == fs[src + t[|dst|..]]
    {
      var q :| q in fs && Under(q, src) && t == dst + q[|src|..];
      assert t[..|dst|] == dst;
      assert t[|dst|..] == q[|src|..];
      assert q == src + q[|src|..];
    }
    r
  }

  /** A successful rename: whatever was at `dst` is replaced by the tree
      that was at `src`, and `src` is gone. */
  function Move(fs: FS, src: Path, dst: Path): (r: FS)
    requires !Under(dst, src) && !Under(src, dst)
    ensures src !in r
    ensures forall q :: q in r ==> !Under(q, src)
    ensures forall s :: src + s in fs ==> dst + s in r && r[dst + s] == fs[src + s]
    ensures forall t :: t in r && Under(t, dst) ==> src + t[|dst|..] in fs && r[t] == fs[src + t[|dst|..]]
    ensures forall q :: !Under(q, src) && !Under(q, dst) ==>
              (q in r <==> q in fs) && (q in fs ==> r[q] == fs[q])
  {
    var r := RemoveTree(RemoveTree(fs, src), dst) + Relocate(fs, src, dst);
    forall s | src + s in fs ensures dst + s in r && r[dst + s] == fs[src + s] {
      var t := dst + s;
      assert t[..|dst|] == dst;
      assert t[|dst|..] == s;
    }
    forall q | q in r ensures !Under(q, src) {
      if Under(q, src) && Under(q, dst) {
        if |src| <= |dst| { UnderComparable(q, src, dst); } else { UnderComparable(q, dst, src); }
      }
    }
    r
  }

  /** `fs.renameSync(src, dst)` / `fs.rename`, with the errors of POSIX
      `rename(2)` that the scripts can meet, then the injected fault. */
  function RenameSync(fs: FS, src: Path, dst: Path, fault: Option<string>): (r: Result<FS, string>)
    ensures src !in fs ==> r.Failure?
    ensures dst in fs && src != dst && (src in fs ==> fs[dst] != fs[src] || HasChild(fs, dst)) ==> r.Failure?
    ensures && src in fs && dst !in fs && !Under(dst, src) && !Under(src, dst) && fault.None?
            && (|dst| > 1 ==> dst[..|dst| - 1] in fs && fs[dst[..|dst| - 1]] == Dir)
            ==> r.Success?
    ensures r.Success? && src != dst ==> src !in r.value && dst in r.value && r.value[dst] == fs[src]
    ensures r.Success? && src != dst ==>
              forall s :: src + s in fs ==> dst + s in r.value && r.value[dst + s] == fs[src + s]
    ensures r.Success? && src != dst ==>
              forall q :: !Under(q, src) && !Under(q, dst) ==>
                (q in r.value <==> q in fs) && (q in fs ==> r.value[q] == fs[q])
    // and everything below `dst` afterwards came from below `src`
    ensures r.Success? && src != dst ==>
              forall t :: t in r.value && Under(t, dst) ==> src + t[|dst|..] in fs && r.value[t] == fs[src + t[|dst|..]]
  {
    if src !in fs then Failure("ENOENT")
    else if src == dst then Success(fs)
    else if Under(dst, src) then Failure("EINVAL")
    else if Under(src, dst) then Failure("ENOTEMPTY")
    else if |dst| > 1 && (dst[..|dst| - 1] !in fs || fs[dst[..|dst| - 1]] != Dir) then Failure("ENOENT")
    else if dst in fs && (fs[dst] != fs[src] || HasChild(fs, dst)) then Failure("ENOTEMPTY")
    else if fault.Some? then Failure(fault.value)
    else
      var r := Move(fs, src, dst);
      assert src + [] == src && dst + [] == dst;
      Success(r)
  }

  /** The directory holding the destination survives the move. */
  lemma DestinationParentKept(fs: FS, src: Path, dst: Path)
    requires !Under(dst, src) && !Under(src, dst)
    requires |dst| > 1 && dst[..|dst| - 1] in fs && fs[dst[..|dst| - 1]] == Dir
    ensures var r := Move(fs, src, dst);
            dst[..|dst| - 1] in r && r[dst[..|dst| - 1]] == Dir
  {
    var parent := dst[..|dst| - 1];
    if Under(parent, src) {
      UnderTrans(dst, parent, src);
    }
    assert !Under(parent, dst);
  }

  /** The directory holding a moved entry survives the move as a directory. */
  lemma MovedEntryParent(fs: FS, src: Path, dst: Path, s: Path)
    requires WellFormed(fs) && |src| >= 1 && |dst| >= 1
    requires !Under(dst, src) && !Under(src, dst)
    requires |dst| > 1 ==> dst[..|dst| - 1] in fs && fs[dst[..|dst| - 1]] == Dir
    requires src + s in fs && |dst + s| > 1
    ensures var r := Move(fs, src, dst);
            (dst + s)[..|dst + s| - 1] in r && r[(dst + s)[..|dst + s| - 1]] == Dir
  {
    if |s| == 0 {
      assert dst + s == dst;
      DestinationParentKept(fs, src, dst);
    } else {
      var s' := s[..|s| - 1];
      var from := src + s;
      assert from[..|from| - 1] == src + s';
      assert src + s' in fs && fs[src + s'] == Dir;
      assert (dst + s)[..|dst + s| - 1] == dst + s';
    }
  }

  /** The directory holding an entry outside both paths survives the move. */
  lemma KeptEntryParent(fs: FS, src: Path, dst: Path, q: Path)
    requires WellFormed(fs)
    requires !Under(dst, src) && !Under(src, dst)
    requires q in fs && |q| > 1 && !Under(q, src) && !Under(q, dst)
    ensures var r := Move(fs, src, dst);
            q[..|q| - 1] in r && r[q[..|q| - 1]] == Dir
  {
    var parent := q[..|q| - 1];
    if Under(parent, src) {
      UnderTrans(q, parent, src);
    }
    if Under(parent, dst) {
      UnderTrans(q, parent, dst);
    }
  }

  /** A rename between two paths that do not contain one another keeps the
      tree well formed, provided the destination's directory exists. */
  lemma MovePreservesWellFormed(fs: FS, src: Path, dst: Path)
    requires WellFormed(fs) && |src| >= 1 && |dst| >= 1
    requires !Under(dst, src) && !Under(src, dst)
    requires |dst| > 1 ==> dst[..|dst| - 1] in fs && fs[dst[..|dst| - 1]] == Dir
    ensures WellFormed(Move(fs, src, dst))
  {
    var r := Move(fs, src, dst);
    forall q | q in r && |q| > 1
      ensures q[..|q| - 1] in r && r[q[..|q| - 1]] == Dir
    {
      EntryParentAfterMove(fs, src, dst, q);
    }
  }

  /** One entry of the moved tree: its directory is there after the move. */
  lemma EntryParentAfterMove(fs: FS, src: Path, dst: Path, q: Path)
    requires WellFormed(fs) && |src| >= 1 && |dst| >= 1
    requires !Under(dst, src) && !Under(src, dst)
    requires |dst| > 1 ==> dst[..|dst| - 1] in fs && fs[dst[..|dst| - 1]] == Dir
    requires q in Move(fs, src, dst) && |q| > 1
    ensures var r := Move(fs, src, dst);
            q[..|q| - 1] in r && r[q[..|q| - 1]] == Dir
  {
    if Under(q, dst) {
      var s := q[|dst|..];
      assert q == dst + s;
      assert src + s in fs;
      MovedEntryParent(fs, src, dst, s);
    } else {
      KeptEntryParent(fs, src, dst, q);
    }
  }

  // ---------------------------------------------------------------- creation

  /** `fs.mkdirSync(p, {recursive: true})`: creates every missing directory
      on the way to `p`; fails when one of them is a file. */
  function MkdirP(fs: FS, p: Path): (r: Result<FS, string>)
    ensures r.Success? <==> forall i :: 1 <= i <= |p| && p[..i] in fs ==> fs[p[..i]] == Dir
    ensures r.Success? ==> forall i :: 1 <= i <= |p| ==> p[..i] in r.value && r.value[p[..i]] == Dir
    ensures r.Success? ==> forall q :: q in fs ==> q in r.value && r.value[q] == fs[q]
    ensures r.Success? ==> forall q :: q in r.value && q !in fs ==> 1 <= |q| && Under(p, q)
  {
    if exists i :: 1 <= i <= |p| && p[..i] in fs && fs[p[..i]] == File then Failure("ENOTDIR")
    else
      var made := map i | 1 <= i <= |p| :: p[..i] := Dir;
      var r := fs + made;
      forall q | q in r && q !in fs ensures 1 <= |q| && Under(p, q) {
        var i :| 1 <= i <= |p| && q == p[..i];
      }
      forall q | q in fs ensures r[q] == fs[q] {
        if q in made {
          var i :| 1 <= i <= |p| && q == p[..i];
        }
      }
      Success(r)
  }

  /** Creating directories keeps the tree well formed. */
  lemma MkdirPPreservesWellFormed(fs: FS, p: Path)
    requires WellFormed(fs)
    requires MkdirP(fs, p).Success?
    ensures WellFormed(MkdirP(fs, p).value)
  {
    var r := MkdirP(fs, p).value;
    forall q | q in r && |q| > 1
      ensures q[..|q| - 1] in r && r[q[..|q| - 1]] == Dir
    {
      if q !in fs {
        assert Under(p, q);
        var parent := q[..|q| - 1];
        assert parent == p[..|q| - 1];
      }
    }
  }

  /** What a successful 7-Zip run leaves behind: the archive's entries,
      given relative to the destination, written over the tree (`-y`
      overwrites without asking; entries not in the archive stay). */
  function Extract(fs: FS, dest: Path, archive: FS): (r: FS)
    ensures forall e :: e in archive ==> dest + e in r && r[dest + e] == archive[e]
    ensures forall q :: !Under(q, dest) ==> (q in r <==> q in fs) && (q in fs ==> r[q] == fs[q])
    ensures forall q :: q in fs ==> q in r
    ensures forall e :: dest + e in r ==> e in archive || dest + e in fs
    ensures forall e :: e !in archive && dest + e in fs ==> r[dest + e] == fs[dest + e]
  {
    fs + Written(dest, archive)
  }

  /** The entries an archive holds, placed below `dest`. */
  function Written(dest: Path, archive: FS): (r: FS)
    ensures forall e :: e in archive ==> dest + e in r && r[dest + e] == archive[e]
    ensures forall q :: q in r ==> Under(q, dest) && q[|dest|..] in archive
    ensures forall e :: dest + e in r ==> e in archive
  {
    PrependInjective(dest);
    var written := map e | e in archive :: dest + e := archive[e];
    forall q | q in written ensures Under(q, dest) && q[|dest|..] in archive {
      var e :| e in archive && q == dest + e;
      assert q[..|dest|] == dest && q[|dest|..] == e;
    }
    written
  }
}

=== FILE: h2_install.dfy ===
/** `idf_esp32h2/postinstall.js`: download `<tool>@<version>.7z` for this
    platform and architecture, unpack it into
    `<tools>/esp32-arduino-libs@<version>`, and make sure the libraries end
    up in its `esp32h2` folder. Any failure after the prechecks exits with
    status 1. */
module H2Install {
  import opened Wrappers
  import opened Strings
  import opened Naming
  import opened FileSystem
  import opened Retry
  import opened Download
  import opened Unpack
  import opened Common

  /** The family of the shared install directory. */
  const LibsFamily := "esp32-arduino-libs"

  /** The folder the libraries must end up in. */
  const TargetName := "esp32h2"

  /** `path.join(destDir, parentDir)` with `parentDir` from the package version. */
  function InstallDir(env: Environment, pkg: Package): (r: Path)
    ensures |r| == |env.toolsPath| + 1 && Under(r, env.toolsPath)
    ensures r[|env.toolsPath|] == LibsFamily + "@" + pkg.version
  {
    env.toolsPath + [LibsFamily + "@" + pkg.version]
  }

  function TargetPath(env: Environment, pkg: Package): Path {
    InstallDir(env, pkg) + [TargetName]
  }

  /** Everything the script cannot decide by itself. */
  datatype Oracles = Oracles(
    platform: string,                      // `os.platform()`
    arch: string,                          // `os.arch()`
    net: (string, nat) -> NetOutcome,      // the k-th request for a URL
    useRimraf: bool,                       // the runtime lacks `fs.rmSync`
    cleanFaults: nat -> RimrafFault,       // the k-th attempt at deleting a stale extracted folder
    targetFault: Option<string>,           // the `rmSync` of an existing `esp32h2`
    exits: nat -> ChildExit,               // how the k-th 7-Zip run ends
    contents: FS,                          // what 7-Zip writes, relative to the install directory
    renameFault: Option<string>)           // the `renameSync` into `esp32h2`

  datatype Step =
    | CheckZipUrl       // `AILY_ZIP_URL` unset: thrown after the prechecks
    | MakeInstallDir
    | DownloadArchive
    | StatArchive
    | CleanStaleFolder
    | RemoveTarget
    | UnpackArchive
    | RenameFolder

  datatype Run = Run(fs: FS, ending: Ending<Step>)

  /** The process's exit status. */
  function ExitStatus(r: Run): int {
    if r.ending.Failed? then 1 else 0
  }

  /** The URL the archive is fetched from. */
  function ArchiveUrl(env: Environment, pkg: Package, o: Oracles): string {
    H2DownloadUrl(env.zipUrl, o.platform, o.arch, ZipFileName(pkg.name, pkg.version))
  }

  /** Lines 340-354: after a successful extraction, keep an `esp32h2` the
      archive brought; otherwise move the folder named after the archive
      there when it exists, and only warn when it does not. */
  function PlaceTarget(fs: FS, dest: Path, fileName: string, fault: Option<string>): (r: Result<FS, string>)
    ensures dest + [TargetName] in fs ==> r == Success(fs)
    ensures r.Success? ==> (dest + [TargetName] in r.value <==>
                            dest + [TargetName] in fs || dest + [BaseName(fileName, ".7z")] in fs)
    ensures r.Success? ==> forall q :: !Under(q, dest) ==> (q in r.value <==> q in fs) && (q in fs ==> r.value[q] == fs[q])
    ensures r.Failure? ==> dest + [BaseName(fileName, ".7z")] in fs && dest + [TargetName] !in fs
    ensures r.Success? && dest in fs ==> dest in r.value
  {
    var newPath := dest + [TargetName];
    if newPath in fs then Success(fs)
    else
      var destPath := dest + [BaseName(fileName, ".7z")];
      if destPath in fs then
        UnderChild(dest, TargetName);
        UnderChild(dest, BaseName(fileName, ".7z"));
        RenameSync(fs, destPath, newPath, fault)
      else Success(fs)
  }

  /** When the archive brought no `esp32h2`, the folder named after it
      becomes `esp32h2` entry for entry, and the rename goes through when
      nothing is in its way. */
  lemma PlaceTargetMovesFolder(fs: FS, dest: Path, fileName: string, fault: Option<string>)
    requires dest + [TargetName] !in fs && dest + [BaseName(fileName, ".7z")] in fs
    ensures var src := dest + [BaseName(fileName, ".7z")];
            var dst := dest + [TargetName];
            var r := PlaceTarget(fs, dest, fileName, fault);
            && (Listable(fs, dest) && |dest| >= 1 && fault.None? ==> r.Success?)
            && (r.Success? ==>
                  && src !in r.value
                  && forall s :: src + s in fs ==> dst + s in r.value && r.value[dst + s] == fs[src + s])
  {
    var src := dest + [BaseName(fileName, ".7z")];
    var dst := dest + [TargetName];
    SiblingsApart(dest, BaseName(fileName, ".7z"), TargetName);
    assert dst[..|dst| - 1] == dest;
    assert PlaceTarget(fs, dest, fileName, fault) == RenameSync(fs, src, dst, fault);
  }

  /** Lines 318-333: delete a folder left by an earlier extraction of the
      same archive, then an existing `esp32h2`. */
  function Prepare(fs: FS, dest: Path, fileName: string, o: Oracles): (r: Result<FS, Step>)
    ensures r.Success? ==> dest + [StripArchiveExt(fileName)] !in r.value && dest + [TargetName] !in r.value
    ensures r.Success? ==> forall q :: q in r.value ==> q in fs && r.value[q] == fs[q]
    ensures r.Success? ==> forall q :: q in fs && !Under(q, dest) ==> q in r.value
    ensures r.Failure? ==> r.error == CleanStaleFolder || r.error == RemoveTarget
    ensures r.Success? && dest in fs ==> dest in r.value
    // line 332 calls `fs.rmSync` unguarded: without it an existing `esp32h2` throws
    ensures o.useRimraf && dest + [TargetName] in fs && StripArchiveExt(fileName) != TargetName ==> r.Failure?
  {
    match CleanExistingFolder(fs, fileName, dest, o.useRimraf, o.cleanFaults)
    case Failure(_) => Failure(CleanStaleFolder)
    case Success(fs1) =>
      UnderChild(dest, StripArchiveExt(fileName));
      UnderChild(dest, TargetName);
      var newPath := dest + [TargetName];
      var stale := StripArchiveExt(fileName);
      assert stale != TargetName ==> !Under(newPath, dest + [stale]) by {
        if stale != TargetName { SiblingsApart(dest, stale, TargetName); }
      }
      if newPath in fs1 && (o.useRimraf || o.targetFault.Some?) then Failure(RemoveTarget)
      else Success(RemoveEffect(fs1, newPath))
  }

  /** Lines 318-354, from the clean-up to the rename; the archive is at
      `zipPath` and is named `fileName`. */
  function Refresh(fs: FS, dest: Path, zipPath: Path, fileName: string, o: Oracles): (r: Run)
    requires BaseName(fileName, ".7z") == StripArchiveExt(fileName)
    ensures forall q :: q in fs && !Under(q, dest) ==> q in r.fs && r.fs[q] == fs[q]
    ensures forall q :: q in r.fs && q !in fs ==> Under(q, dest)
    ensures r.ending.Finished? ==>
              (dest + [TargetName] in r.fs <==> [TargetName] in o.contents || [BaseName(fileName, ".7z")] in o.contents)
    ensures !r.ending.Skipped?
    ensures r.ending.Finished? && dest in fs ==> dest in r.fs
  {
    match Prepare(fs, dest, fileName, o)
    case Failure(step) => Run(fs, Failed(step))
    case Success(fs1) =>
      match ExtractWithRetry(fs1, zipPath, dest, o.exits, o.contents)
      case Failure(_) => Run(fs1, Failed(UnpackArchive))
      case Success(fs2) =>
        assert dest + [TargetName] in fs2 <==> [TargetName] in o.contents;
        assert dest + [BaseName(fileName, ".7z")] in fs2 <==> [BaseName(fileName, ".7z")] in o.contents;
        match PlaceTarget(fs2, dest, fileName, o.renameFault)
        case Failure(_) => Run(fs2, Failed(RenameFolder))
        case Success(fs3) => Run(fs3, Finished)
  }

  /** Lines 296-361: everything from the download on. */
  function Deploy(fs: FS, env: Environment, pkg: Package, o: Oracles): (r: Run)
    requires env.srcDir != [] && env.toolsPath != []
    ensures var dest := InstallDir(env, pkg);
            forall q :: q in fs && !Under(q, dest) ==> q in r.fs && r.fs[q] == fs[q]
    ensures var dest := InstallDir(env, pkg);
            forall q :: q in r.fs && q !in fs ==> Under(q, dest) || q == env.srcDir + [ZipFileName(pkg.name, pkg.version)]
    ensures r.ending.Finished? ==>
              (TargetPath(env, pkg) in r.fs <==>
               [TargetName] in o.contents || [BaseName(ZipFileName(pkg.name, pkg.version), ".7z")] in o.contents)
    ensures !r.ending.Skipped?
    ensures r.ending.Finished? && InstallDir(env, pkg) in fs ==> InstallDir(env, pkg) in r.fs
  {
    var dest := InstallDir(env, pkg);
    var zip := ZipFileName(pkg.name, pkg.version);
    var url := ArchiveUrl(env, pkg, o);
    var dl := DownloadWithRetry(fs, env.srcDir, zip, (k: nat) => o.net(url, k), MaxAttempts);
    if dl.retry.result.Failure? then Run(fs, Failed(DownloadArchive))
    else
      var zipPath := env.srcDir + [dl.retry.result.value];
      if zipPath !in dl.fs then Run(dl.fs, Failed(StatArchive))
      else
        BaseNameAgreesOnZipFileName(pkg.name, pkg.version);
        Refresh(dl.fs, dest, zipPath, zip, o)
  }

  /** `extractArchives()`. */
  function Install(fs: FS, env: Environment, pkg: Package, o: Oracles): (r: Run)
    ensures r.ending.Skipped? <==> InstallerPrecheck(fs, env).Some?
    ensures r.ending.Skipped? ==> r.fs == fs && r.ending.why == InstallerPrecheck(fs, env).value
    ensures InstallerPrecheck(fs, env).None? && env.zipUrl == "" ==> r == Run(fs, Failed(CheckZipUrl))
    // no other tool's folder is touched: the stale-version purge is switched off here
    ensures forall q :: q in fs && !Under(q, InstallDir(env, pkg)) ==> q in r.fs && r.fs[q] == fs[q]
    // new entries are the install directory, its ancestors, what lies in it, and the archive
    ensures forall q :: q in r.fs && q !in fs ==>
              Under(q, InstallDir(env, pkg)) || Under(InstallDir(env, pkg), q) ||
              q == env.srcDir + [ZipFileName(pkg.name, pkg.version)]
    ensures r.ending.Finished? ==>
              (TargetPath(env, pkg) in r.fs <==>
               [TargetName] in o.contents || [BaseName(ZipFileName(pkg.name, pkg.version), ".7z")] in o.contents)
    ensures r.ending.Finished? ==> InstallDir(env, pkg) in r.fs
  {
    match InstallerPrecheck(fs, env)
    case Some(why) => Run(fs, Skipped(why))
    case None =>
      if env.zipUrl == "" then Run(fs, Failed(CheckZipUrl))
      else
        var dest := InstallDir(env, pkg);
        var made := MakeDir(fs, dest);
        match made
        case Failure(_) => Run(fs, Failed(MakeInstallDir))
        case Success(fs1) =>
          assert dest[..|dest|] == dest;
          Deploy(fs1, env, pkg, o)
  }

  /** The archive is requested from `<AILY_ZIP_URL>/tools/<platform>/<arm|intel>/<tool>@<version>.7z`. */
  lemma ArchiveUrlShape(env: Environment, pkg: Package, o: Oracles)
    ensures var prefix := env.zipUrl + "/tools/" + o.platform + "/";
            var url := ArchiveUrl(env, pkg, o);
            && StartsWith(url, prefix)
            && (StartsWith(o.arch, "arm") ==> url[|prefix|..|prefix| + 4] == "arm/")
            && (!StartsWith(o.arch, "arm") ==> url[|prefix|..|prefix| + 6] == "intel/")
            && EndsWith(url, "/" + ZipFileName(pkg.name, pkg.version))
  {
    var prefix := env.zipUrl + "/tools/" + o.platform + "/";
    var fam := ArchFamily(o.arch);
    var url := ArchiveUrl(env, pkg, o);
    assert url[|prefix|..|prefix| + |fam|] == fam && url[|prefix| + |fam|] == '/';
    assert url[|prefix|..|prefix| + |fam| + 1] == url[|prefix|..|prefix| + |fam|] + [url[|prefix| + |fam|]];
  }

  /** The process exits with status 1 exactly when the prechecks pass and
      the installation does not finish. */
  lemma ExitsWithOneUnlessFinished(fs: FS, env: Environment, pkg: Package, o: Oracles)
    ensures var r := Install(fs, env, pkg, o);
            ExitStatus(r) == 1 <==> InstallerPrecheck(fs, env).None? && !r.ending.Finished?
  {
  }

  /** Lines 318-333 go through when some attempt at deleting a stale
      folder succeeds and removing `esp32h2` does not throw; on a runtime
      without `fs.rmSync` that removal throws, so `esp32h2` must be absent. */
  lemma PrepareSucceeds(fs: FS, dest: Path, fileName: string, o: Oracles)
    requires exists k :: 1 <= k <= MaxAttempts && o.cleanFaults(k).NoFault?
    requires o.targetFault.None? && (o.useRimraf ==> dest + [TargetName] !in fs)
    ensures Prepare(fs, dest, fileName, o).Success?
  {
    var c := CleanExistingFolder(fs, fileName, dest, o.useRimraf, o.cleanFaults);
    assert c.Success?;
  }

  /** Lines 335-337 go through when 7-Zip exits cleanly within three runs. */
  lemma ExtractSucceeds(fs: FS, dest: Path, zipPath: Path, o: Oracles)
    requires Render(zipPath) != "" && Render(dest) != ""
    requires exists k :: 1 <= k <= MaxAttempts && o.exits(k).Exited? && o.exits(k).code == 0
    ensures var x := ExtractWithRetry(fs, zipPath, dest, o.exits, o.contents);
            x.Success? && x.value == Extract(fs, dest, o.contents)
  {
  }

  /** What the extraction leaves in the install directory when the archive
      holds the folder named after it and no `esp32h2`. */
  lemma ExtractLaysOutFolder(fs: FS, dest: Path, folder: string, archive: FS)
    requires Listable(fs, dest) && dest + [TargetName] !in fs
    requires [folder] in archive && [TargetName] !in archive && [] !in archive
    ensures var r := Extract(fs, dest, archive);
            Listable(r, dest) && dest + [folder] in r && dest + [TargetName] !in r
  {
    assert dest + [] == dest;
  }

  /** The archive's folder is written entry for entry. */
  lemma ExtractWritesFolder(fs: FS, dest: Path, folder: string, archive: FS)
    ensures var r := Extract(fs, dest, archive);
            forall s :: [folder] + s in archive ==>
              dest + [folder] + s in r && r[dest + [folder] + s] == archive[[folder] + s]
  {
    var r := Extract(fs, dest, archive);
    forall s | [folder] + s in archive
      ensures dest + [folder] + s in r && r[dest + [folder] + s] == archive[[folder] + s]
    {
      assert dest + ([folder] + s) == dest + [folder] + s;
    }
  }

  /** Lines 318-354 on the way that succeeds: a stale folder is deletable,
      nothing blocks the removal of `esp32h2` or the rename, 7-Zip exits
      cleanly within three runs, and the archive holds the folder named
      after it but no `esp32h2`. Then the stage finishes and `esp32h2`
      holds every entry the archive's folder held, as the archive has it;
      `RefreshKeepsOnlyFolder` states that it holds nothing else. */
  lemma RefreshPlacesTarget(fs: FS, dest: Path, zipPath: Path, fileName: string, o: Oracles)
    requires BaseName(fileName, ".7z") == StripArchiveExt(fileName)
    requires Listable(fs, dest) && |dest| >= 1
    requires Render(zipPath) != "" && Render(dest) != ""
    requires exists k :: 1 <= k <= MaxAttempts && o.cleanFaults(k).NoFault?
    requires o.targetFault.None? && o.renameFault.None?
    requires o.useRimraf ==> dest + [TargetName] !in fs
    requires exists k :: 1 <= k <= MaxAttempts && o.exits(k).Exited? && o.exits(k).code == 0
    requires [BaseName(fileName, ".7z")] in o.contents && [TargetName] !in o.contents && [] !in o.contents
    ensures var folder := BaseName(fileName, ".7z");
            var r := Refresh(fs, dest, zipPath, fileName, o);
            && r.ending.Finished?
            && dest + [folder] !in r.fs
            && forall s :: [folder] + s in o.contents ==>
                 dest + [TargetName] + s in r.fs && r.fs[dest + [TargetName] + s] == o.contents[[folder] + s]
  {
    var folder := BaseName(fileName, ".7z");
    PrepareSucceeds(fs, dest, fileName, o);
    var fs1 := Prepare(fs, dest, fileName, o).value;
    assert Listable(fs1, dest);
    ExtractSucceeds(fs1, dest, zipPath, o);
    ExtractLaysOutFolder(fs1, dest, folder, o.contents);
    ExtractWritesFolder(fs1, dest, folder, o.contents);
    var fs2 := ExtractWithRetry(fs1, zipPath, dest, o.exits, o.contents).value;
    PlaceTargetMovesFolder(fs2, dest, fileName, o.renameFault);
    var fs3 := PlaceTarget(fs2, dest, fileName, o.renameFault).value;
    assert Refresh(fs, dest, zipPath, fileName, o) == Run(fs3, Finished);
  }

  // ------------------------------------------- nothing else ends up in esp32h2

  /** `esp32h2` in `dest` holds only entries of the archive's `folder`, each
      as the archive has it. */
  ghost predicate OnlyFolder(fs: FS, dest: Path, folder: string, archive: FS) {
    forall t :: t in fs && Under(t, dest + [TargetName]) ==>
      [folder] + t[|dest| + 1..] in archive && fs[t] == archive[[folder] + t[|dest| + 1..]]
  }

  /** Nothing lies below `p`. */
  ghost predicate Clear(fs: FS, p: Path) {
    forall q :: q in fs ==> !Under(q, p)
  }

  /** After lines 318-333, nothing is left below the stale folder or below
      `esp32h2`, provided nothing lay below either without the folder
      itself. */
  lemma PrepareClears(fs: FS, dest: Path, fileName: string, o: Oracles)
    requires Rooted(fs, dest + [StripArchiveExt(fileName)]) && Rooted(fs, dest + [TargetName])
    requires Prepare(fs, dest, fileName, o).Success?
    ensures var fs1 := Prepare(fs, dest, fileName, o).value;
            Clear(fs1, dest + [StripArchiveExt(fileName)]) && Clear(fs1, dest + [TargetName])
  {
    var stale := dest + [StripArchiveExt(fileName)];
    var target := dest + [TargetName];
    var fs0 := CleanExistingFolder(fs, fileName, dest, o.useRimraf, o.cleanFaults).value;
    assert Clear(fs0, stale);
    if StripArchiveExt(fileName) != TargetName {
      SiblingsApart(dest, StripArchiveExt(fileName), TargetName);
    }
    assert target !in fs0 ==> Clear(fs0, target);
  }

  /** An entry below `esp32h2` after unpacking into a directory with
      nothing below `esp32h2` came from the archive, below its `esp32h2`. */
  lemma ExtractedBelowTarget(fs: FS, dest: Path, archive: FS, q: Path)
    requires Clear(fs, dest + [TargetName]) && q in Extract(fs, dest, archive)
    ensures Under(q, dest + [TargetName]) ==> q[|dest|..] in archive && Under(q[|dest|..], [TargetName])
  {
    if Under(q, dest + [TargetName]) {
      SuffixBelowChild(q, dest, TargetName);
    }
  }

  /** A path below `dest + [name]` is `dest` followed by a path below `[name]`. */
  lemma SuffixBelowChild(q: Path, dest: Path, name: string)
    requires Under(q, dest + [name])
    ensures q == dest + q[|dest|..] && Under(q[|dest|..], [name])
  {
    assert q[|dest|..][..1] == q[|dest|..|dest| + 1];
  }

  /** An entry below the folder after unpacking into a directory with
      nothing below the folder is the archive's entry. */
  lemma ExtractedBelowFolder(fs: FS, dest: Path, folder: string, archive: FS, q: Path)
    requires Clear(fs, dest + [folder]) && q in Extract(fs, dest, archive) && Under(q, dest + [folder])
    ensures q[|dest|..] in archive && Extract(fs, dest, archive)[q] == archive[q[|dest|..]]
  {
    assert q !in fs;
    SuffixBelowChild(q, dest, folder);
  }

  /** After unpacking into a cleared directory, what lies below the folder
      is the archive's, and nothing lies below `esp32h2` when the archive
      brings nothing below `esp32h2`. */
  lemma ExtractKeepsOnlyArchive(fs: FS, dest: Path, folder: string, archive: FS)
    requires Clear(fs, dest + [folder]) && Clear(fs, dest + [TargetName])
    requires Clear(archive, [TargetName])
    ensures var fs2 := Extract(fs, dest, archive);
            && Clear(fs2, dest + [TargetName])
            && forall q :: q in fs2 && Under(q, dest + [folder]) ==>
                 q[|dest|..] in archive && fs2[q] == archive[q[|dest|..]]
  {
    var fs2 := Extract(fs, dest, archive);
    forall q | q in fs2 ensures !Under(q, dest + [TargetName]) {
      ExtractedBelowTarget(fs, dest, archive, q);
    }
    forall q | q in fs2 && Under(q, dest + [folder])
      ensures q[|dest|..] in archive && fs2[q] == archive[q[|dest|..]]
    {
      ExtractedBelowFolder(fs, dest, folder, archive, q);
    }
  }

  /** An entry below `esp32h2` after renaming the folder there came from
      below the folder. */
  lemma RenamedFromFolder(fs: FS, dest: Path, folder: string, archive: FS, fault: Option<string>, t: Path)
    requires folder != TargetName
    requires forall q :: q in fs && Under(q, dest + [folder]) ==>
               q[|dest|..] in archive && fs[q] == archive[q[|dest|..]]
    requires RenameSync(fs, dest + [folder], dest + [TargetName], fault).Success?
    requires t in RenameSync(fs, dest + [folder], dest + [TargetName], fault).value && Under(t, dest + [TargetName])
    ensures var fs3 := RenameSync(fs, dest + [folder], dest + [TargetName], fault).value;
            [folder] + t[|dest| + 1..] in archive && fs3[t] == archive[[folder] + t[|dest| + 1..]]
  {
    var src := dest + [folder];
    var dst := dest + [TargetName];
    SiblingsApart(dest, folder, TargetName);
    SwapChild(t, dest, TargetName, folder);
  }

  /** The path below `dest + [to]` has a twin below `dest + [from]`. */
  lemma SwapChild(t: Path, dest: Path, to: string, from: string)
    requires Under(t, dest + [to])
    ensures var s := dest + [from] + t[|dest| + 1..];
            && t[|dest + [to]|..] == t[|dest| + 1..]
            && Under(s, dest + [from]) && s[|dest|..] == [from] + t[|dest| + 1..]
  {
    var s := dest + [from] + t[|dest| + 1..];
    assert s[..|dest| + 1] == dest + [from];
  }

  /** After the rename, `esp32h2` holds only what lay below the folder. */
  lemma PlaceTargetKeepsOnlyFolder(fs: FS, dest: Path, fileName: string, archive: FS, fault: Option<string>)
    requires BaseName(fileName, ".7z") != TargetName
    requires Clear(fs, dest + [TargetName])
    requires forall q :: q in fs && Under(q, dest + [BaseName(fileName, ".7z")]) ==>
               q[|dest|..] in archive && fs[q] == archive[q[|dest|..]]
    requires PlaceTarget(fs, dest, fileName, fault).Success?
    ensures OnlyFolder(PlaceTarget(fs, dest, fileName, fault).value, dest, BaseName(fileName, ".7z"), archive)
  {
    var folder := BaseName(fileName, ".7z");
    var src := dest + [folder];
    var dst := dest + [TargetName];
    var fs3 := PlaceTarget(fs, dest, fileName, fault).value;
    assert dst !in fs;
    if src in fs {
      assert fs3 == RenameSync(fs, src, dst, fault).value;
      forall t | t in fs3 && Under(t, dst)
        ensures [folder] + t[|dest| + 1..] in archive && fs3[t] == archive[[folder] + t[|dest| + 1..]]
      {
        RenamedFromFolder(fs, dest, folder, archive, fault, t);
      }
    } else {
      assert fs3 == fs;
    }
  }

  /** Lines 318-354: whenever the stage finishes from a tree with nothing
      orphaned below the folder or `esp32h2`, and the archive brings nothing
      below `esp32h2`, then `esp32h2` holds nothing but the archive's folder. */
  lemma RefreshKeepsOnlyFolder(fs: FS, dest: Path, zipPath: Path, fileName: string, o: Oracles)
    requires BaseName(fileName, ".7z") == StripArchiveExt(fileName) && BaseName(fileName, ".7z") != TargetName
    requires Rooted(fs, dest + [BaseName(fileName, ".7z")]) && Rooted(fs, dest + [TargetName])
    requires Clear(o.contents, [TargetName])
    ensures var r := Refresh(fs, dest, zipPath, fileName, o);
            r.ending.Finished? ==> OnlyFolder(r.fs, dest, BaseName(fileName, ".7z"), o.contents)
  {
    var folder := BaseName(fileName, ".7z");
    var r := Refresh(fs, dest, zipPath, fileName, o);
    if r.ending.Finished? {
      var fs1 := Prepare(fs, dest, fileName, o).value;
      PrepareClears(fs, dest, fileName, o);
      var fs2 := ExtractWithRetry(fs1, zipPath, dest, o.exits, o.contents).value;
      assert fs2 == Extract(fs1, dest, o.contents);
      ExtractKeepsOnlyArchive(fs1, dest, folder, o.contents);
      PlaceTargetKeepsOnlyFolder(fs2, dest, fileName, o.contents, o.renameFault);
      assert r.fs == PlaceTarget(fs2, dest, fileName, o.renameFault).value;
    }
  }

  /** Lines 298-303 go through when the archive is on disk or one of three
      requests delivers it, and they leave the install directory alone. */
  lemma DownloadSucceeds(fs: FS, env: Environment, pkg: Package, o: Oracles)
    requires Listable(fs, InstallDir(env, pkg))
    requires var zip := ZipFileName(pkg.name, pkg.version);
             env.srcDir + [zip] in fs || exists k :: 1 <= k <= MaxAttempts && Delivers(o.net(ArchiveUrl(env, pkg, o), k))
    ensures var zip := ZipFileName(pkg.name, pkg.version);
            var url := ArchiveUrl(env, pkg, o);
            var dl := DownloadWithRetry(fs, env.srcDir, zip, (k: nat) => o.net(url, k), MaxAttempts);
            && dl.retry.result == Success(zip)
            && env.srcDir + [zip] in dl.fs
            && Listable(dl.fs, InstallDir(env, pkg))
  {
    var dest := InstallDir(env, pkg);
    var zip := ZipFileName(pkg.name, pkg.version);
    var url := ArchiveUrl(env, pkg, o);
    var net := (k: nat) => o.net(url, k);
    var dl := DownloadWithRetry(fs, env.srcDir, zip, net, MaxAttempts);
    if exists k :: 1 <= k <= MaxAttempts && Delivers(o.net(url, k)) {
      var k :| 1 <= k <= MaxAttempts && Delivers(o.net(url, k));
      assert Delivers(net(k));
    }
    assert Listable(dl.fs, dest) by {
      if dest != env.srcDir + [zip] { assert dl.fs[dest] == fs[dest]; }
    }
  }

  /** Lines 296-361 on the way that succeeds, from an existing install
      directory. */
  lemma DeployPlacesTarget(fs: FS, env: Environment, pkg: Package, o: Oracles)
    requires env.srcDir != [] && env.toolsPath != []
    requires Listable(fs, InstallDir(env, pkg))
    requires var zip := ZipFileName(pkg.name, pkg.version);
             env.srcDir + [zip] in fs || exists k :: 1 <= k <= MaxAttempts && Delivers(o.net(ArchiveUrl(env, pkg, o), k))
    requires exists k :: 1 <= k <= MaxAttempts && o.cleanFaults(k).NoFault?
    requires o.targetFault.None? && o.renameFault.None?
    requires o.useRimraf ==> TargetPath(env, pkg) !in fs
    requires exists k :: 1 <= k <= MaxAttempts && o.exits(k).Exited? && o.exits(k).code == 0
    requires var folder := BaseName(ZipFileName(pkg.name, pkg.version), ".7z");
             [folder] in o.contents && [TargetName] !in o.contents && [] !in o.contents
    ensures var folder := BaseName(ZipFileName(pkg.name, pkg.version), ".7z");
            var r := Deploy(fs, env, pkg, o);
            && r.ending.Finished?
            && InstallDir(env, pkg) + [folder] !in r.fs
            && forall s :: [folder] + s in o.contents ==>
                 TargetPath(env, pkg) + s in r.fs && r.fs[TargetPath(env, pkg) + s] == o.contents[[folder] + s]
  {
    var dest := InstallDir(env, pkg);
    var zip := ZipFileName(pkg.name, pkg.version);
    var url := ArchiveUrl(env, pkg, o);
    DownloadSucceeds(fs, env, pkg, o);
    var dl := DownloadWithRetry(fs, env.srcDir, zip, (k: nat) => o.net(url, k), MaxAttempts);
    var zipPath := env.srcDir + [zip];
    BaseNameAgreesOnZipFileName(pkg.name, pkg.version);
    assert |zipPath| >= 2 && |dest| >= 2;
    RefreshPlacesTarget(dl.fs, dest, zipPath, zip, o);
    assert Deploy(fs, env, pkg, o) == Refresh(dl.fs, dest, zipPath, zip, o);
  }

  /** The whole script on the way that succeeds: the prechecks pass, the
      URL is set, the install directory exists or can be made, the archive
      is on disk or one of three requests delivers it, and the stage above
      goes through. Then the script finishes with status 0 and `esp32h2`
      holds every entry the archive's folder held, as the archive has it;
      `InstallKeepsOnlyFolder` states that it holds nothing else. */
  lemma InstallPlacesTarget(fs: FS, env: Environment, pkg: Package, o: Oracles)
    requires InstallerPrecheck(fs, env).None? && env.zipUrl != ""
    requires MkdirP(fs, InstallDir(env, pkg)).Success?
    requires var zip := ZipFileName(pkg.name, pkg.version);
             env.srcDir + [zip] in fs || exists k :: 1 <= k <= MaxAttempts && Delivers(o.net(ArchiveUrl(env, pkg, o), k))
    requires exists k :: 1 <= k <= MaxAttempts && o.cleanFaults(k).NoFault?
    requires o.targetFault.None? && o.renameFault.None?
    requires o.useRimraf ==> TargetPath(env, pkg) !in fs
    requires exists k :: 1 <= k <= MaxAttempts && o.exits(k).Exited? && o.exits(k).code == 0
    requires var folder := BaseName(ZipFileName(pkg.name, pkg.version), ".7z");
             [folder] in o.contents && [TargetName] !in o.contents && [] !in o.contents
    ensures var folder := BaseName(ZipFileName(pkg.name, pkg.version), ".7z");
            var r := Install(fs, env, pkg, o);
            && r.ending.Finished? && ExitStatus(r) == 0
            && InstallDir(env, pkg) + [folder] !in r.fs
            && forall s :: [folder] + s in o.contents ==>
                 TargetPath(env, pkg) + s in r.fs && r.fs[TargetPath(env, pkg) + s] == o.contents[[folder] + s]
  {
    var dest := InstallDir(env, pkg);
    var zip := ZipFileName(pkg.name, pkg.version);
    assert dest[..|dest|] == dest;
    var fs1 := MakeDir(fs, dest).value;
    assert Listable(fs1, dest);
    assert env.srcDir + [zip] in fs ==> env.srcDir + [zip] in fs1;
    DeployPlacesTarget(fs1, env, pkg, o);
    assert Install(fs, env, pkg, o) == Deploy(fs1, env, pkg, o);
  }
  /** The folder `<tool>@<version>` an archive unpacks to is never `esp32h2`. */
  lemma FolderIsNotTarget(packageName: string, version: string)
    ensures BaseName(ZipFileName(packageName, version), ".7z") != TargetName
  {
    var stem := ToolName(packageName) + "@" + version;
    var name := ZipFileName(packageName, version);
    var folder := BaseName(name, ".7z");
    assert name == stem + ".7z";
    assert EndsWith(name, ".7z") && name != ".7z";
    assert folder == (folder + ".7z")[..|folder|];
    assert folder[|ToolName(packageName)|] == '@';
    assert '@' !in TargetName;
  }

  /** An entry below `dest + [n]` in a tree that grew from a well-formed one
      by making `dest` and writing `srcDir + [zip]` has `dest + [n]` too. */
  lemma RootedAfterSetup(fs: FS, fs1: FS, fs2: FS, dest: Path, srcDir: Path, zip: string, n: string)
    requires WellFormed(fs) && srcDir in fs
    requires forall q :: q in fs ==> q in fs1
    requires forall q :: q in fs1 && q !in fs ==> Under(dest, q)
    requires forall q :: q != srcDir + [zip] ==> (q in fs2 <==> q in fs1)
    requires srcDir + [zip] in fs2
    ensures Rooted(fs2, dest + [n])
  {
    var f := dest + [n];
    WellFormedRooted(fs, f);
    forall q | q in fs2 && Under(q, f) ensures f in fs2 {
      if q == srcDir + [zip] && q != f {
        assert Under(srcDir, f) by { assert srcDir[..|f|] == q[..|f|]; }
        AncestorPresent(fs, srcDir, f);
      }
    }
  }

  /** The whole script, whenever it finishes from a well-formed tree and
      the archive brings nothing below `esp32h2`: `esp32h2` holds nothing
      but entries of the archive's folder, each as the archive has it. */
  lemma InstallKeepsOnlyFolder(fs: FS, env: Environment, pkg: Package, o: Oracles)
    requires WellFormed(fs)
    requires Clear(o.contents, [TargetName])
    ensures var r := Install(fs, env, pkg, o);
            r.ending.Finished? ==>
              OnlyFolder(r.fs, InstallDir(env, pkg), BaseName(ZipFileName(pkg.name, pkg.version), ".7z"), o.contents)
  {
    var r := Install(fs, env, pkg, o);
    if r.ending.Finished? {
      var dest := InstallDir(env, pkg);
      var zip := ZipFileName(pkg.name, pkg.version);
      var folder := BaseName(zip, ".7z");
      var fs1 := MakeDir(fs, dest).value;
      assert r == Deploy(fs1, env, pkg, o);
      var url := ArchiveUrl(env, pkg, o);
      var dl := DownloadWithRetry(fs1, env.srcDir, zip, (k: nat) => o.net(url, k), MaxAttempts);
      var zipPath := env.srcDir + [zip];
      BaseNameAgreesOnZipFileName(pkg.name, pkg.version);
      FolderIsNotTarget(pkg.name, pkg.version);
      assert r == Refresh(dl.fs, dest, zipPath, zip, o);
      RootedAfterSetup(fs, fs1, dl.fs, dest, env.srcDir, zip, folder);
      RootedAfterSetup(fs, fs1, dl.fs, dest, env.srcDir, zip, TargetName);
      RefreshKeepsOnlyFolder(dl.fs, dest, zipPath, zip, o);
    }
  }
  /** The archive name `<tool>@<version>.7z` is never `esp32h2`. */
  lemma ZipIsNotTarget(packageName: string, version: string)
    ensures ZipFileName(packageName, version) != TargetName
  {
    var zip := ZipFileName(packageName, version);
    assert zip[|zip| - 1] == 'z';
    assert |zip| != |TargetName| || zip[|zip| - 1] != TargetName[|TargetName| - 1];
  }

  /** Line 332 calls `fs.rmSync` without the guard lines 166-171 use, so on
      a runtime without it a reinstall over an existing `esp32h2` never
      finishes, and once the prechecks pass the script exits with 1. */
  lemma ReinstallWithoutRmSyncFails(fs: FS, env: Environment, pkg: Package, o: Oracles)
    requires o.useRimraf && TargetPath(env, pkg) in fs
    ensures var r := Install(fs, env, pkg, o);
            !r.ending.Finished? && (InstallerPrecheck(fs, env).None? ==> ExitStatus(r) == 1)
  {
    var r := Install(fs, env, pkg, o);
    var dest := InstallDir(env, pkg);
    var zip := ZipFileName(pkg.name, pkg.version);
    if InstallerPrecheck(fs, env).None? && env.zipUrl != "" && MakeDir(fs, dest).Success? {
      var fs1 := MakeDir(fs, dest).value;
      assert dest[..|dest|] == dest;
      assert r == Deploy(fs1, env, pkg, o);
      var url := ArchiveUrl(env, pkg, o);
      var dl := DownloadWithRetry(fs1, env.srcDir, zip, (k: nat) => o.net(url, k), MaxAttempts);
      ZipIsNotTarget(pkg.name, pkg.version);
      assert TargetPath(env, pkg) != env.srcDir + [zip] by {
        assert TargetPath(env, pkg)[|TargetPath(env, pkg)| - 1] == TargetName;
        assert (env.srcDir + [zip])[|env.srcDir + [zip]| - 1] == zip;
      }
      assert dest + [TargetName] in dl.fs;
      if dl.retry.result.Success? {
        BaseNameAgreesOnZipFileName(pkg.name, pkg.version);
        FolderIsNotTarget(pkg.name, pkg.version);
        assert Prepare(dl.fs, dest, zip, o).Failure?;
      }
    }
    ExitsWithOneUnlessFinished(fs, env, pkg, o);
  }
}

=== FILE: h2_uninstall.dfy ===
/** `idf_esp32h2/uninstall.js`: after the usual checks, delete one folder
    inside the shared `esp32-arduino-libs` install directory, three
    attempts at most; a failure is logged. The script names the directory
    and the folder as constants, and they are not the ones the esp32h2
    installer creates: `CleanupAsWritten` models the script,
    `Cleanup` the folder the installer leaves. */
module H2Uninstall {
  import opened Wrappers
  import opened FileSystem
  import opened Common
  import H2Install

  /** The constants the script carries. */
  const WrittenParent := "esp32-arduino-libs@5.4.0"
  const WrittenTarget := "esp32c3"

  /** The only failure after the prechecks: the listing rejects, the outer
      handler logs it and the script stops. */
  datatype Step = ListSource

  /** `removed` says whether the deletion resolved. */
  datatype Run = Run(fs: FS, ending: Ending<Step>, removed: bool)

  /** Some attempt at deleting the folder goes through. */
  predicate Removable(faults: nat -> Option<string>) {
    exists k :: 1 <= k <= MaxAttempts && faults(k).None?
  }

  /** `cleanupExtractedFolders()` with `parentDir` and `targetName` as
      parameters; `faults(k)` is what the k-th `rmSync` throws. */
  function CleanupFolder(fs: FS, env: Environment, parent: string, target: string, faults: nat -> Option<string>): (r: Run)
    ensures r.ending.Skipped? <==> UninstallerPrecheck(fs, env, env.toolsPath + [parent]).Some?
    ensures !r.ending.Finished? ==> r.fs == fs && !r.removed
    ensures r.ending.Finished? <==> UninstallerPrecheck(fs, env, env.toolsPath + [parent]).None? && Listable(fs, env.srcDir)
    // only deletes, and only the one folder
    ensures forall q :: q in r.fs ==> q in fs && r.fs[q] == fs[q]
    ensures forall q :: q in fs && !Under(q, env.toolsPath + [parent, target]) ==> q in r.fs
    // the folder goes, with everything in it, when one attempt succeeds
    ensures r.ending.Finished? ==> (r.removed <==> env.toolsPath + [parent, target] !in fs || Removable(faults))
    ensures r.removed && env.toolsPath + [parent, target] in fs ==> forall q :: Under(q, env.toolsPath + [parent, target]) ==> q !in r.fs
    // when every attempt fails, the tree is as it was
    ensures r.ending.Finished? && !r.removed ==> r.fs == fs
  {
    var dest := env.toolsPath + [parent];
    match UninstallerPrecheck(fs, env, dest)
    case Some(why) => Run(fs, Skipped(why), false)
    case None =>
      if !Listable(fs, env.srcDir) then Run(fs, Failed(ListSource), false)
      else
        var folder := dest + [target];
        assert folder == env.toolsPath + [parent, target];
        var attempt := (k: nat) => AsFault(faults(k));
        match CleanFolder(fs, folder, false, attempt)
        case Success(fs1) =>
          assert folder in fs ==> Removable(faults) by {
            if folder in fs {
              var k :| 1 <= k <= MaxAttempts && attempt(k).NoFault?;
            }
          }
          Run(fs1, Finished, true)
        case Failure(_) => Run(fs, Finished, false)
  }

  /** The script as written: `esp32c3` in `esp32-arduino-libs@5.4.0`. */
  function CleanupAsWritten(fs: FS, env: Environment, faults: nat -> Option<string>): (r: Run)
    ensures forall q :: q in r.fs ==> q in fs && r.fs[q] == fs[q]
    ensures forall q :: q in fs && !Under(q, env.toolsPath + [WrittenParent, WrittenTarget]) ==> q in r.fs
  {
    CleanupFolder(fs, env, WrittenParent, WrittenTarget, faults)
  }

  /** The folder the esp32h2 installer leaves: `esp32h2` in
      `esp32-arduino-libs@<version>`. */
  function Cleanup(fs: FS, env: Environment, pkg: Package, faults: nat -> Option<string>): (r: Run)
    ensures forall q :: q in r.fs ==> q in fs && r.fs[q] == fs[q]
    ensures forall q :: q in fs && !Under(q, H2Install.TargetPath(env, pkg)) ==> q in r.fs
    ensures r.ending.Finished? <==> UninstallerPrecheck(fs, env, H2Install.InstallDir(env, pkg)).None? && Listable(fs, env.srcDir)
    ensures r.ending.Finished? && Removable(faults) ==> H2Install.TargetPath(env, pkg) !in r.fs
    ensures r.ending.Finished? && Removable(faults) && H2Install.TargetPath(env, pkg) in fs ==>
              forall q :: Under(q, H2Install.TargetPath(env, pkg)) ==> q !in r.fs
  {
    var parent := H2Install.LibsFamily + "@" + pkg.version;
    assert H2Install.TargetPath(env, pkg) == env.toolsPath + [parent, H2Install.TargetName];
    CleanupFolder(fs, env, parent, H2Install.TargetName, faults)
  }

  /** As written, the uninstaller never touches what the esp32h2 installer
      put in place, whatever the version and whatever fails. */
  lemma AsWrittenKeepsH2Target(fs: FS, env: Environment, pkg: Package, faults: nat -> Option<string>)
    ensures forall q :: q in fs && Under(q, H2Install.TargetPath(env, pkg)) ==> q in CleanupAsWritten(fs, env, faults).fs
  {
    var t := H2Install.TargetPath(env, pkg);
    var w := env.toolsPath + [WrittenParent, WrittenTarget];
    assert t[|env.toolsPath| + 1] == H2Install.TargetName && w[|env.toolsPath| + 1] == WrittenTarget;
    forall q | q in fs && Under(q, t) ensures !Under(q, w) {
      assert q[|env.toolsPath| + 1] == t[|env.toolsPath| + 1];
    }
  }

  /** A concrete run: with the libraries installed for 5.4.0 and nothing
      failing, the as-written script finishes, reports success and leaves
      `esp32h2` in place; the corrected one deletes it. */
  lemma AsWrittenLeavesFolderExample()
    ensures var env := Environment(["src"], ["tools"], [], "");
            var pkg := Package("@aily-project/tool-idf_esp32h2", "5.4.0");
            var fs := map[["src"] := Dir, ["tools"] := Dir, ["tools", WrittenParent] := Dir,
                          ["tools", WrittenParent, "esp32h2"] := Dir];
            var faults := (k: nat) => None;
            && CleanupAsWritten(fs, env, faults).ending.Finished?
            && CleanupAsWritten(fs, env, faults).removed
            && ["tools", WrittenParent, "esp32h2"] in CleanupAsWritten(fs, env, faults).fs
            && ["tools", WrittenParent, "esp32h2"] !in Cleanup(fs, env, pkg, faults).fs
  {
    var env := Environment(["src"], ["tools"], [], "");
    var pkg := Package("@aily-project/tool-idf_esp32h2", "5.4.0");
    var fs := map[["src"] := Dir, ["tools"] := Dir, ["tools", WrittenParent] := Dir,
                  ["tools", WrittenParent, "esp32h2"] := Dir];
    var faults := (k: nat) => None;
    assert Removable(faults) by { assert faults(1).None?; }
    assert ["tools"] + [WrittenParent] == ["tools", WrittenParent];
    assert ["tools", WrittenParent, WrittenTarget] !in fs;
    assert H2Install.LibsFamily + "@" + pkg.version == WrittenParent;
    assert H2Install.TargetPath(env, pkg) == ["tools", WrittenParent, "esp32h2"];
    AsWrittenKeepsH2Target(fs, env, pkg, faults);
  }

  /** What the esp32h2 installer put in place, the corrected uninstaller
      takes away, provided one deletion attempt succeeds and the script's
      own directory lies outside the install directory. */
  lemma UninstallUndoesInstall(fs: FS, env: Environment, pkg: Package, o: H2Install.Oracles, faults: nat -> Option<string>)
    requires Listable(fs, env.srcDir) && !Under(env.srcDir, H2Install.InstallDir(env, pkg))
    requires H2Install.Install(fs, env, pkg, o).ending.Finished?
    requires Removable(faults)
    ensures var installed := H2Install.Install(fs, env, pkg, o).fs;
            var r := Cleanup(installed, env, pkg, faults);
            && r.ending.Finished?
            && H2Install.TargetPath(env, pkg) !in r.fs
            && (H2Install.TargetPath(env, pkg) in installed ==>
                  forall q :: Under(q, H2Install.TargetPath(env, pkg)) ==> q !in r.fs)
  {
    var installed := H2Install.Install(fs, env, pkg, o).fs;
    var dest := H2Install.InstallDir(env, pkg);
    assert Listable(installed, env.srcDir);
    assert env.toolsPath != [] && dest in installed;
    assert UninstallerPrecheck(installed, env, dest).None?;
  }
}

=== FILE: mklittlefs_install.dfy ===
/** `mklittlefs/postinstall.js`: unpack every `.7z` archive shipped next to
    the script straight into the tools directory, one 7-Zip run each and no
    retries. A failed archive is logged and the next one is tried; nothing
    is ever deleted and the exit status is always 0. */
module MklittlefsInstall {
  import opened Wrappers
  import opened FileSystem
  import opened Unpack
  import opened Common

  /** Everything the script cannot decide by itself. */
  datatype Oracles = Oracles(
    listing: seq<string>,            // what `readdir(srcDir)` returns, in order
    exits: string -> ChildExit,      // how the 7-Zip run on an archive ends
    contents: string -> FS)          // each archive's entries, relative to the tools directory

  /** Failures the outer handler catches: logged, and the script stops. */
  datatype Step = MakeToolsDir | ListSource

  /** `unpacked[i]` says whether the i-th archive was extracted. */
  datatype Run = Run(fs: FS, ending: Ending<Step>, unpacked: seq<bool>)

  /** The child exits with status 0. */
  predicate Clean(child: ChildExit) {
    child.Exited? && child.code == 0
  }

  /** Lines 61-80: one archive. */
  function ExtractOne(fs: FS, srcDir: Path, tools: Path, file: string, o: Oracles): (r: Option<FS>)
    requires srcDir != []
    ensures r.Some? <==> Render(tools) != "" && Clean(o.exits(file))
    ensures r.Some? ==> forall e :: e in o.contents(file) ==> tools + e in r.value && r.value[tools + e] == o.contents(file)[e]
    ensures r.Some? ==> forall q :: q in fs ==> q in r.value
    ensures r.Some? ==> forall q :: q in r.value && q !in fs ==> exists e :: e in o.contents(file) && q == tools + e
    ensures r.Some? ==> forall q :: !Under(q, tools) ==> (q in r.value <==> q in fs) && (q in fs ==> r.value[q] == fs[q])
  {
    if Unpack.Unpack(Render(srcDir + [file]), Render(tools), o.exits(file)).result.Success? then
      var r := Extract(fs, tools, o.contents(file));
      forall q | q in r && q !in fs ensures exists e :: e in o.contents(file) && q == tools + e {
        assert Under(q, tools);
        var e := q[|tools|..];
        assert q == tools + e;
      }
      Some(r)
    else None
  }

  /** Lines 55-81: the archives in listing order. */
  function ExtractEach(fs: FS, srcDir: Path, tools: Path, files: seq<string>, o: Oracles): (r: (FS, seq<bool>))
    requires srcDir != []
    ensures |r.1| == |files|
    ensures forall i :: 0 <= i < |files| ==> (r.1[i] <==> Render(tools) != "" && Clean(o.exits(files[i])))
    // nothing is deleted, nothing outside the tools directory changes
    ensures forall q :: q in fs ==> q in r.0
    ensures forall q :: !Under(q, tools) ==> (q in r.0 <==> q in fs) && (q in fs ==> r.0[q] == fs[q])
    // the last archive unpacked wins: its entries are what is on disk
    ensures |files| > 0 && r.1[|files| - 1] ==>
              forall e :: e in o.contents(files[|files| - 1]) ==>
                tools + e in r.0 && r.0[tools + e] == o.contents(files[|files| - 1])[e]
    // the tree is the old one with the unpacked archives laid over it
    ensures r.0 == fs + Overlay(tools, files, o)
    decreases |files|
  {
    if |files| == 0 then
      assert fs + map[] == fs;
      (fs, [])
    else
      var init := files[..|files| - 1];
      var file := files[|files| - 1];
      var prev := ExtractEach(fs, srcDir, tools, init, o);
      var one := ExtractOne(prev.0, srcDir, tools, file, o);
      var unpacked := prev.1 + [one.Some?];
      assert forall i :: 0 <= i < |init| ==> unpacked[i] == prev.1[i] && files[i] == init[i];
      if one.Some? then
        UnionRegroups(fs, Overlay(tools, init, o), Written(tools, o.contents(file)));
        (one.value, unpacked)
      else (prev.0, unpacked)
  }

  /** What the archives that unpack write, a later archive's entry replacing
      an earlier one's. */
  function Overlay(tools: Path, files: seq<string>, o: Oracles): (r: FS)
    ensures forall q :: q in r ==> Under(q, tools)
    ensures |files| > 0 && Render(tools) != "" && Clean(o.exits(files[|files| - 1])) ==>
              forall e :: e in o.contents(files[|files| - 1]) ==> tools + e in r
    decreases |files|
  {
    if |files| == 0 then map[]
    else
      var prev := Overlay(tools, files[..|files| - 1], o);
      var file := files[|files| - 1];
      if Render(tools) != "" && Clean(o.exits(file)) then prev + Written(tools, o.contents(file)) else prev
  }

  /** Laying `b` and then `c` over `a` is laying `b + c` over it. */
  lemma UnionRegroups(a: FS, b: FS, c: FS)
    ensures (a + b) + c == a + (b + c)
  {
  }

  /** `extractArchives()`. */
  function Install(fs: FS, env: Environment, o: Oracles): (r: Run)
    ensures r.ending.Skipped? <==> InstallerPrecheck(fs, env).Some?
    ensures r.ending.Skipped? ==> r.fs == fs
    ensures !r.ending.Finished? ==> r.unpacked == []
    ensures r.ending.Finished? ==> |r.unpacked| == |Archives(o.listing)|
    ensures r.ending.Finished? ==>
              forall i :: 0 <= i < |r.unpacked| ==> (r.unpacked[i] <==> Render(env.toolsPath) != "" && Clean(o.exits(Archives(o.listing)[i])))
    ensures r.ending.Finished? || r.ending == Failed(ListSource) ==> env.toolsPath in r.fs
    ensures r.ending == Failed(MakeToolsDir) ==> r.fs == fs
    // the archives are unpacked once the tools directory is there and the script's directory can be listed
    ensures r.ending == Failed(MakeToolsDir) <==> InstallerPrecheck(fs, env).None? && MakeDir(fs, env.toolsPath).Failure?
    ensures r.ending.Finished? <==>
              && InstallerPrecheck(fs, env).None? && MakeDir(fs, env.toolsPath).Success?
              && Listable(MakeDir(fs, env.toolsPath).value, env.srcDir)
    ensures InstallerPrecheck(fs, env).None? && MakeDir(fs, env.toolsPath).Success? && Listable(fs, env.srcDir) ==>
              r.ending.Finished?
    // and the tree is the old one with every unpacked archive laid over it
    ensures r.ending.Finished? ==>
              r.fs == MakeDir(fs, env.toolsPath).value + Overlay(env.toolsPath, Archives(o.listing), o)
    // never deletes or changes anything outside the tools directory
    ensures forall q :: q in fs ==> q in r.fs
    ensures forall q :: q in fs && !Under(q, env.toolsPath) ==> r.fs[q] == fs[q]
    // new entries are the tools directory, its ancestors and what an archive held
    ensures forall q :: q in r.fs && q !in fs ==> Under(q, env.toolsPath) || Under(env.toolsPath, q)
  {
    match InstallerPrecheck(fs, env)
    case Some(why) => Run(fs, Skipped(why), [])
    case None =>
      var tools := env.toolsPath;
      match MakeDir(fs, tools)
      case Failure(_) => Run(fs, Failed(MakeToolsDir), [])
      case Success(fs1) =>
        assert tools[..|tools|] == tools;
        if !Listable(fs1, env.srcDir) then Run(fs1, Failed(ListSource), [])
        else
          var each := ExtractEach(fs1, env.srcDir, tools, Archives(o.listing), o);
          Run(each.0, Finished, each.1)
  }

  /** Running the installer a second time, with every archive unpacking as
      before, leaves the tree as the first run left it: extraction only
      overwrites, with the same entries. */
  lemma ReinstallIsStable(fs: FS, env: Environment, o: Oracles)
    ensures Install(Install(fs, env, o).fs, env, o).fs == Install(fs, env, o).fs
  {
    var r := Install(fs, env, o);
    var again := Install(r.fs, env, o);
    if InstallerPrecheck(fs, env).None? {
      assert InstallerPrecheck(r.fs, env).None?;
      var tools := env.toolsPath;
      if r.ending.Finished? {
        assert Exists(r.fs, tools);
        var ov := Overlay(tools, Archives(o.listing), o);
        assert Listable(r.fs, env.srcDir) ==> again.fs == r.fs + ov;
        assert r.fs + ov == r.fs by {
          assert forall q :: q in ov ==> q in r.fs && r.fs[q] == ov[q];
        }
      } else if r.ending.step == ListSource {
        assert Exists(r.fs, tools) && !Listable(r.fs, env.srcDir);
      }
    }
  }
}

=== FILE: naming.dfy ===
/** Name and URL derivation shared by the install and uninstall scripts:
    the archive file name, the folder 7-Zip extracts it to, the renamed
    folder, the architecture family and the download URLs. */
module Naming {
  import opened Strings

  /** The npm scope every tool package name carries. */
  const PackagePrefix := "@aily-project/tool-"

  /** `getOSType`: any architecture starting with `arm` is the arm family,
      everything else is intel. */
  function ArchFamily(arch: string): (r: string)
    ensures r == "arm" || r == "intel"
    ensures r == "arm" <==> StartsWith(arch, "arm")
  {
    if StartsWith(arch, "arm") then "arm" else "intel"
  }

  /** The package name with the first occurrence of the scope removed. */
  function ToolName(packageName: string): string {
    ReplaceFirst(packageName, PackagePrefix, "")
  }

  /** `getZipFileName`: `<tool>@<version>.7z`. */
  function ZipFileName(packageName: string, version: string): (r: string)
    ensures StartsWith(r, ToolName(packageName) + "@") && EndsWith(r, ".7z")
    ensures |r| == |ToolName(packageName)| + |version| + 4
  {
    ToolName(packageName) + "@" + version + ".7z"
  }

  /** `zipFileName.replace(/\.(7z|zip)$/i, '')`: the folder 7-Zip is
      expected to create. */
  function StripArchiveExt(name: string): (r: string)
    ensures StartsWith(name, r)
    ensures EndsWithIgnoringCase(name, ".7z") ==> |r| == |name| - 3
    ensures !EndsWithIgnoringCase(name, ".7z") && EndsWithIgnoringCase(name, ".zip") ==> |r| == |name| - 4
    ensures !EndsWithIgnoringCase(name, ".7z") && !EndsWithIgnoringCase(name, ".zip") ==> r == name
  {
    if EndsWithIgnoringCase(name, ".7z") then name[..|name| - 3]
    else if EndsWithIgnoringCase(name, ".zip") then name[..|name| - 4]
    else name
  }

  /** `folderName.replace('@', '_')`: the name bossac renames to and the
      STM32 uninstaller also deletes. */
  function RenamedFolder(folder: string): string {
    ReplaceFirst(folder, "@", "_")
  }

  /** `getZipBaseUrl` followed by `${base}/${fileName}` in the esp32h2 installer. */
  function H2DownloadUrl(envUrl: string, platform: string, arch: string, fileName: string): (r: string)
    ensures StartsWith(r, envUrl + "/tools/" + platform + "/")
    ensures EndsWith(r, "/" + fileName)
    ensures |r| == |envUrl + "/tools/" + platform + "/"| + |ArchFamily(arch)| + 1 + |fileName|
    ensures var n := |envUrl + "/tools/" + platform + "/"|;
            r[n..n + |ArchFamily(arch)|] == ArchFamily(arch) && r[n + |ArchFamily(arch)|] == '/'
  {
    var r := envUrl + "/tools/" + platform + "/" + ArchFamily(arch) + "/" + fileName;
    assert r == (envUrl + "/tools/" + platform + "/") + (ArchFamily(arch) + "/" + fileName);
    assert r == (envUrl + "/tools/" + platform + "/" + ArchFamily(arch)) + ("/" + fileName);
    r
  }

  /** `${AILY_ZIP_URL}/tools/${fileName}` in the bossac installer: no
      platform or architecture segment between `/tools/` and the file. */
  function BossacDownloadUrl(envUrl: string, fileName: string): (r: string)
    ensures StartsWith(r, envUrl + "/tools/")
    ensures r[|envUrl + "/tools/"|..] == fileName
  {
    var r := envUrl + "/tools" + "/" + fileName;
    assert r == (envUrl + "/tools/") + fileName;
    r
  }

  /** For a scoped package the archive is `<tool>@<version>.7z`. */
  lemma ScopedZipFileName(tool: string, version: string)
    ensures ZipFileName(PackagePrefix + tool, version) == tool + "@" + version + ".7z"
  {
    RemoveLeadingPattern(PackagePrefix, tool);
  }

  /** Stripping the extension from the archive name gives back `<tool>@<version>`. */
  lemma StripZipFileName(packageName: string, version: string)
    ensures StripArchiveExt(ZipFileName(packageName, version)) == ToolName(packageName) + "@" + version
  {
    var stem := ToolName(packageName) + "@" + version;
    var name := ZipFileName(packageName, version);
    assert name == stem + ".7z";
    assert name[|name| - 3..] == ".7z";
    assert name[..|name| - 3] == stem;
  }

  /** `path.basename(f, '.7z')` and the extension regex name the same
      folder for every archive `getZipFileName` produces. */
  lemma BaseNameAgreesOnZipFileName(packageName: string, version: string)
    ensures BaseName(ZipFileName(packageName, version), ".7z") == StripArchiveExt(ZipFileName(packageName, version))
  {
    var stem := ToolName(packageName) + "@" + version;
    var name := ZipFileName(packageName, version);
    assert name == stem + ".7z";
    assert name[|name| - 3..] == ".7z";
    assert name != ".7z" by { assert |name| > 3; }
    StripZipFileName(packageName, version);
  }

  /** The derived folder always contains `@`, so the bossac rename always
      changes the name. */
  lemma DerivedFolderIsRenamed(packageName: string, version: string)
    ensures RenamedFolder(StripArchiveExt(ZipFileName(packageName, version))) != StripArchiveExt(ZipFileName(packageName, version))
  {
    StripZipFileName(packageName, version);
    var folder := ToolName(packageName) + "@" + version;
    assert folder[|ToolName(packageName)|] == '@';
    ReplaceFirstChar(folder, '@', '_');
    var i :| 0 <= i < |folder| && folder[i] == '@' && '@' !in folder[..i] && RenamedFolder(folder) == folder[i := '_'];
    assert RenamedFolder(folder)[i] == '_';
  }

  /** `bossac@1.9.1.7z` ends up in folder `bossac_1.9.1`, not `bossac`. */
  lemma BossacExample()
    ensures ZipFileName(PackagePrefix + "bossac", "1.9.1") == "bossac@1.9.1.7z"
    ensures RenamedFolder(StripArchiveExt(ZipFileName(PackagePrefix + "bossac", "1.9.1"))) == "bossac_1.9.1"
  {
    ScopedZipFileName("bossac", "1.9.1");
    StripZipFileName(PackagePrefix + "bossac", "1.9.1");
    RemoveLeadingPattern(PackagePrefix, "bossac");
    var folder := "bossac" + "@" + "1.9.1";
    assert folder[..6] == "bossac";
    assert folder[6] == '@';
    ReplaceFirstCharAt(folder, '@', '_', 6);
    assert folder[6 := '_'] == "bossac_1.9.1";
  }
}

=== FILE: purge.dfy ===
/** `checkAndRemoveOldVersions(baseDir, parentDir)` in the esp32s3 installer
    (a copy sits unused in the esp32h2 installer): delete every directory in
    `baseDir` that holds another version of `parentDir`'s family. It never
    throws: a failure to list or stat ends it quietly, a failure to delete
    one folder is logged and the next folder is tried. */
module Purge {
  import opened Wrappers
  import opened Strings
  import opened FileSystem

  /** The version-independent part of a versioned folder name,
      `parentDir.split('@')[0]` (`esp32-arduino-libs@5.4.0` gives
      `esp32-arduino-libs`). */
  function Family(parentDir: string): (r: string)
    ensures StartsWith(parentDir, r) && '@' !in r
    ensures '@' in parentDir ==> |r| < |parentDir| && parentDir[|r|] == '@'
  {
    BeforeFirst(parentDir, '@')
  }

  /** The child `name` of `baseDir` is another version of `parentDir`: a
      directory whose name starts with the family and `@`, and is not
      `parentDir` itself. */
  predicate Stale(fs: FS, baseDir: Path, parentDir: string, name: string) {
    && baseDir + [name] in fs
    && fs[baseDir + [name]] == Dir
    && StartsWith(name, Family(parentDir) + "@")
    && name != parentDir
  }

  /** `q` lies inside (or is) a stale folder whose deletion goes through;
      `removeFails` says which folders' `rmSync` throws. */
  predicate Doomed(fs: FS, baseDir: Path, parentDir: string, removeFails: string -> bool, q: Path) {
    && |baseDir| < |q|
    && q[..|baseDir|] == baseDir
    && Stale(fs, baseDir, parentDir, q[|baseDir|])
    && !removeFails(q[|baseDir|])
  }

  /** The listing and the stat calls happen before any deletion, so when
      one of them throws nothing is deleted. */
  predicate Lists(fs: FS, baseDir: Path, statFails: bool) {
    baseDir != [] && baseDir in fs && fs[baseDir] == Dir && !statFails
  }

  function RemoveOldVersions(fs: FS, baseDir: Path, parentDir: string, statFails: bool, removeFails: string -> bool): (r: FS)
    // only deletes
    ensures forall q :: q in r ==> q in fs && r[q] == fs[q]
    // nothing outside `baseDir`, nor `baseDir` itself, goes
    ensures forall q :: q in fs && !(|baseDir| < |q| && Under(q, baseDir)) ==> q in r
    // the current version stays, and so do other families' folders
    ensures forall q :: q in fs && Under(q, baseDir + [parentDir]) ==> q in r
    ensures forall q :: (q in fs && |baseDir| < |q| && Under(q, baseDir) &&
                         !StartsWith(q[|baseDir|], Family(parentDir) + "@")) ==> q in r
    // a folder whose deletion fails stays whole
    ensures forall name, q :: removeFails(name) && q in fs && Under(q, baseDir + [name]) ==> q in r
    // every other stale folder goes with everything inside it
    ensures Lists(fs, baseDir, statFails) ==>
              forall name, q :: (Stale(fs, baseDir, parentDir, name) && !removeFails(name) &&
                                 Under(q, baseDir + [name])) ==> q !in r
    ensures !Lists(fs, baseDir, statFails) ==> r == fs
    // and nothing else goes: whatever is missing lay in a stale folder whose deletion went through
    ensures forall q :: q in fs && q !in r ==>
              exists name :: Stale(fs, baseDir, parentDir, name) && !removeFails(name) && Under(q, baseDir + [name])
  {
    if !Lists(fs, baseDir, statFails) then fs
    else
      var r := map q | q in fs && !Doomed(fs, baseDir, parentDir, removeFails, q) :: fs[q];
      forall q | q in fs && q !in r
        ensures exists name :: Stale(fs, baseDir, parentDir, name) && !removeFails(name) && Under(q, baseDir + [name])
      {
        var name := q[|baseDir|];
        assert q[..|baseDir| + 1] == baseDir + [name];
        assert Under(q, baseDir + [name]);
      }
      forall name, q | Under(q, baseDir + [name])
        ensures |baseDir| < |q| && q[..|baseDir|] == baseDir && q[|baseDir|] == name
      {
        assert q[..|baseDir| + 1] == baseDir + [name];
      }
      r
  }

  /** A second pass (with the same failures) finds nothing more to delete. */
  lemma PurgeIdempotent(fs: FS, baseDir: Path, parentDir: string, statFails: bool, removeFails: string -> bool)
    ensures var r := RemoveOldVersions(fs, baseDir, parentDir, statFails, removeFails);
            RemoveOldVersions(r, baseDir, parentDir, statFails, removeFails) == r
  {
    var r := RemoveOldVersions(fs, baseDir, parentDir, statFails, removeFails);
    if Lists(fs, baseDir, statFails) {
      assert Lists(r, baseDir, statFails);
      forall q | q in r ensures !Doomed(r, baseDir, parentDir, removeFails, q) {
        // a folder stale in the result was stale, and doomed, before
        assert Doomed(r, baseDir, parentDir, removeFails, q) ==> Doomed(fs, baseDir, parentDir, removeFails, q);
      }
      var again := RemoveOldVersions(r, baseDir, parentDir, statFails, removeFails);
      assert forall q :: q in again <==> q in r;
    }
  }

  /** Deleting whole stale folders keeps the tree well formed. */
  lemma PurgePreservesWellFormed(fs: FS, baseDir: Path, parentDir: string, statFails: bool, removeFails: string -> bool)
    requires WellFormed(fs)
    ensures WellFormed(RemoveOldVersions(fs, baseDir, parentDir, statFails, removeFails))
  {
    var r := RemoveOldVersions(fs, baseDir, parentDir, statFails, removeFails);
    forall q | q in r && |q| > 1
      ensures q[..|q| - 1] in r && r[q[..|q| - 1]] == Dir
    {
      var parent := q[..|q| - 1];
      assert Doomed(fs, baseDir, parentDir, removeFails, parent) ==> Doomed(fs, baseDir, parentDir, removeFails, q) by {
        if |baseDir| < |parent| && parent[..|baseDir|] == baseDir {
          assert q[..|baseDir|] == baseDir && q[|baseDir|] == parent[|baseDir|];
        }
      }
    }
  }
}

=== FILE: retry.dfy ===
/** `withRetry(fn, maxRetries, retryDelay)`, present verbatim in every
    script: call `fn` until it resolves, at most `maxRetries` times, waiting
    `retryDelay` between a failed call and the next one. The function is
    replaced by a script giving how its k-th call (k from 1) settles, and
    the timer by a count of waits. */
module Retry {
  import opened Wrappers

  /** Why `withRetry` rejects. */
  datatype RetryError<+E> =
    | GaveUp(attempts: int, last: E)
      // the wrapped error: the attempt count and the last call's error
    | NoAttempt
      // `maxRetries < 1`: the loop never runs, `lastError` stays undefined,
      // and reading its `message` throws a TypeError instead

  /** What a run of `withRetry` settles to, with the number of calls of the
      function and the number of `setTimeout` waits it made. */
  datatype RetryRun<+T, +E> = RetryRun(result: Result<T, RetryError<E>>, calls: nat, waits: nat)

  /** The loop from attempt number `attempt` on; `last` is the previous
      attempt's error. */
  function Attempts<T, E>(script: nat -> Result<T, E>, maxRetries: int, attempt: nat, last: Option<E>): (r: RetryRun<T, E>)
    requires attempt >= 1
    requires attempt > 1 ==> last.Some?
    ensures attempt > maxRetries ==> r.calls == 0 && r.waits == 0
    ensures attempt <= maxRetries ==> 1 <= r.calls <= maxRetries - attempt + 1 && r.waits == r.calls - 1
    ensures r.result.Success? ==>
              && r.calls >= 1
              && script(attempt + r.calls - 1) == Success(r.result.value)
              && forall k :: attempt <= k < attempt + r.calls - 1 ==> script(k).Failure?
    ensures r.result.Failure? && attempt <= maxRetries ==>
              && r.calls == maxRetries - attempt + 1
              && (forall k :: attempt <= k <= maxRetries ==> script(k).Failure?)
              && r.result.error == GaveUp(maxRetries, script(maxRetries).error)
    ensures attempt > maxRetries ==>
              r.result == Failure(if last.Some? then GaveUp(maxRetries, last.value) else NoAttempt)
    decreases maxRetries - attempt
  {
    if attempt > maxRetries then
      RetryRun(Failure(if last.Some? then GaveUp(maxRetries, last.value) else NoAttempt), 0, 0)
    else
      match script(attempt)
      case Success(v) => RetryRun(Success(v), 1, 0)
      case Failure(e) =>
        var rest := Attempts(script, maxRetries, attempt + 1, Some(e));
        RetryRun(rest.result, rest.calls + 1, rest.waits + (if attempt < maxRetries then 1 else 0))
  }

  /** `withRetry`: resolves with the first successful call's value after
      exactly as many calls as it took, or, when all `maxRetries` calls
      fail, rejects with the last call's error after `maxRetries` calls and
      `maxRetries - 1` waits. */
  function WithRetry<T, E>(script: nat -> Result<T, E>, maxRetries: int): (r: RetryRun<T, E>)
    ensures maxRetries < 1 ==> r == RetryRun(Failure(NoAttempt), 0, 0)
    ensures maxRetries >= 1 ==> 1 <= r.calls <= maxRetries && r.waits == r.calls - 1
    ensures r.result.Success? ==>
              && script(r.calls) == Success(r.result.value)
              && forall k :: 1 <= k < r.calls ==> script(k).Failure?
    ensures r.result.Failure? && maxRetries >= 1 ==>
              && r.calls == maxRetries
              && (forall k :: 1 <= k <= maxRetries ==> script(k).Failure?)
              && r.result.error == GaveUp(maxRetries, script(maxRetries).error)
  {
    Attempts(script, maxRetries, 1, None)
  }

  /** A run succeeds exactly when one of the first `maxRetries` calls would. */
  lemma {:induction false} SucceedsIffSomeCallSucceeds<T, E>(script: nat -> Result<T, E>, maxRetries: int)
    ensures WithRetry(script, maxRetries).result.Success? <==>
            exists k :: 1 <= k <= maxRetries && script(k).Success?
  {
    var r := WithRetry(script, maxRetries);
    if r.result.Success? {
      assert script(r.calls).Success?;
    }
  }
}

=== FILE: s3_install.dfy ===
/** `idf_esp32s3/postinstall.js`: delete other versions of
    `esp32-arduino-libs` from the tools directory, then unpack every `.7z`
    archive shipped next to the script into
    `<tools>/esp32-arduino-libs@5.4.0` and move the folder each one creates
    to `esp32s3`. Failures are logged and the script goes on (or stops) with
    exit status 0. */
module S3Install {
  import opened Wrappers
  import opened Strings
  import opened FileSystem
  import opened Unpack
  import opened Purge
  import opened Common

  /** The versioned install directory, a constant in this script. */
  const ParentName := "esp32-arduino-libs@5.4.0"

  /** The folder every archive's contents end up in. */
  const TargetName := "esp32s3"

  /** Everything the script cannot decide by itself. */
  datatype Oracles = Oracles(
    statFails: bool,                          // a `statSync` in the stale-version scan throws
    purgeFails: string -> bool,               // which stale folders' `rmSync` throws
    listing: seq<string>,                     // what `readdir(srcDir)` returns, in order
    exits: (string, nat) -> ChildExit,        // how the k-th 7-Zip run on an archive ends
    contents: string -> FS,                   // each archive's entries, relative to the install directory
    removeFaults: string -> Option<string>,   // the `rmSync` of `esp32s3` after an archive
    renameFaults: string -> Option<string>)   // the `renameSync` after an archive

  /** Failures the outer handler catches: logged, and the script stops. */
  datatype Step = MakeInstallDir | ListSource

  /** How one archive's iteration of the loop ends (lines 139-162). */
  datatype ArchiveOutcome = Installed | UnpackFailed | RemoveFailed | RenameFailed

  datatype Run = Run(fs: FS, ending: Ending<Step>, outcomes: seq<ArchiveOutcome>)

  datatype Iteration = Iteration(fs: FS, outcome: ArchiveOutcome)

  function InstallDir(env: Environment): (r: Path)
    ensures |r| == |env.toolsPath| + 1 && Under(r, env.toolsPath)
  {
    env.toolsPath + [ParentName]
  }

  /** `esp32s3` holds every entry of the folder the archive `file` brings. */
  ghost predicate Delivered(fs: FS, dest: Path, file: string, o: Oracles) {
    forall s :: [BaseName(file, ".7z")] + s in o.contents(file) ==>
      dest + [TargetName] + s in fs && fs[dest + [TargetName] + s] == o.contents(file)[[BaseName(file, ".7z")] + s]
  }

  /** One archive: unpack with retries, delete `esp32s3` if it exists, move
      the folder named after the archive to `esp32s3`. */
  function InstallArchive(fs: FS, srcDir: Path, dest: Path, file: string, o: Oracles): (r: Iteration)
    ensures forall q :: !Under(q, dest) ==> (q in r.fs <==> q in fs) && (q in fs ==> r.fs[q] == fs[q])
    ensures r.outcome == UnpackFailed ==> r.fs == fs
    ensures r.outcome == Installed ==> dest + [TargetName] in r.fs && BaseName(file, ".7z") != TargetName
    ensures r.outcome == RenameFailed ==> dest + [TargetName] !in r.fs
    ensures r.outcome == RemoveFailed ==> dest + [TargetName] in r.fs
    // only the target and the folder named after the archive can lose entries
    ensures forall q :: q in fs && !Under(q, dest + [TargetName]) && !Under(q, dest + [BaseName(file, ".7z")]) ==> q in r.fs
    // an installed archive leaves its folder's entries in `esp32s3`
    ensures r.outcome == Installed ==> Delivered(r.fs, dest, file, o)
  {
    var exits := (k: nat) => o.exits(file, k);
    match ExtractWithRetry(fs, srcDir + [file], dest, exits, o.contents(file))
    case Failure(_) => Iteration(fs, UnpackFailed)
    case Success(fs1) =>
      var base := BaseName(file, ".7z");
      forall s | [base] + s in o.contents(file)
        ensures dest + [base] + s in fs1 && fs1[dest + [base] + s] == o.contents(file)[[base] + s]
      {
        assert dest + ([base] + s) == dest + [base] + s;
      }
      MoveIntoTarget(fs1, dest, file, o)
  }

  /** Lines 146-157, once the archive is unpacked: delete `esp32s3` if it
      exists, then move the folder named after the archive to it. */
  function MoveIntoTarget(fs: FS, dest: Path, file: string, o: Oracles): (r: Iteration)
    ensures forall q :: !Under(q, dest) ==> (q in r.fs <==> q in fs) && (q in fs ==> r.fs[q] == fs[q])
    ensures r.outcome != UnpackFailed
    ensures r.outcome == Installed ==> dest + [TargetName] in r.fs && BaseName(file, ".7z") != TargetName
    ensures r.outcome == RenameFailed ==> dest + [TargetName] !in r.fs
    ensures r.outcome == RemoveFailed ==> r.fs == fs && dest + [TargetName] in r.fs
    ensures forall q :: q in fs && !Under(q, dest + [TargetName]) && !Under(q, dest + [BaseName(file, ".7z")]) ==> q in r.fs
    // an installed archive's folder reappears, entry for entry, as `esp32s3`
    ensures r.outcome == Installed ==>
              forall s :: dest + [BaseName(file, ".7z")] + s in fs ==>
                dest + [TargetName] + s in r.fs && r.fs[dest + [TargetName] + s] == fs[dest + [BaseName(file, ".7z")] + s]
  {
    var newPath := dest + [TargetName];
    var destPath := dest + [BaseName(file, ".7z")];
    UnderChild(dest, TargetName);
    UnderChild(dest, BaseName(file, ".7z"));
    if newPath in fs && o.removeFaults(file).Some? then Iteration(fs, RemoveFailed)
    else
      var fs2 := if newPath in fs then RemoveTree(fs, newPath) else fs;
      assert newPath !in fs2;
      assert BaseName(file, ".7z") != TargetName ==> forall s :: destPath + s in fs ==> destPath + s in fs2 && fs2[destPath + s] == fs[destPath + s] by {
        if BaseName(file, ".7z") != TargetName {
          SiblingsApart(dest, BaseName(file, ".7z"), TargetName);
          forall s | destPath + s in fs ensures destPath + s in fs2 && fs2[destPath + s] == fs[destPath + s] {
            assert (destPath + s)[..|destPath|] == destPath;
          }
        }
      }
      match RenameSync(fs2, destPath, newPath, o.renameFaults(file))
      case Failure(_) => Iteration(fs2, RenameFailed)
      case Success(fs3) => Iteration(fs3, Installed)
  }

  /** Lines 130-163: the archives in listing order. */
  function InstallEach(fs: FS, srcDir: Path, dest: Path, files: seq<string>, o: Oracles): (r: (FS, seq<ArchiveOutcome>))
    ensures |r.1| == |files|
    ensures forall q :: !Under(q, dest) ==> (q in r.0 <==> q in fs) && (q in fs ==> r.0[q] == fs[q])
    ensures |files| > 0 && r.1[|files| - 1] == Installed ==> dest + [TargetName] in r.0
    ensures |files| > 0 && r.1[|files| - 1] == RenameFailed ==> dest + [TargetName] !in r.0
    // the last archive wins: when it installs, `esp32s3` holds its folder's entries
    ensures |files| > 0 && r.1[|files| - 1] == Installed ==> Delivered(r.0, dest, files[|files| - 1], o)
    decreases |files|
  {
    if |files| == 0 then (fs, [])
    else
      var init := files[..|files| - 1];
      var prev := InstallEach(fs, srcDir, dest, init, o);
      var last := InstallArchive(prev.0, srcDir, dest, files[|files| - 1], o);
      (last.fs, prev.1 + [last.outcome])
  }

  /** Lines 116-166: from the install directory on, after the purge. */
  function Deploy(fs: FS, env: Environment, o: Oracles): (r: Run)
    ensures forall q :: q in fs && !Under(q, InstallDir(env)) ==> q in r.fs && r.fs[q] == fs[q]
    ensures forall q :: q in r.fs && q !in fs ==> Under(q, InstallDir(env)) || Under(InstallDir(env), q)
    ensures !r.ending.Skipped?
    ensures r.ending.Finished? ==> |r.outcomes| == |Archives(o.listing)|
    ensures r.ending.Failed? ==> r.outcomes == []
    ensures r.ending.Finished? && |r.outcomes| > 0 && r.outcomes[|r.outcomes| - 1] == Installed ==>
              InstallDir(env) + [TargetName] in r.fs
    // a failed rename after the target's removal leaves no `esp32s3`, even one an earlier archive placed
    ensures r.ending.Finished? && |r.outcomes| > 0 && r.outcomes[|r.outcomes| - 1] == RenameFailed ==>
              InstallDir(env) + [TargetName] !in r.fs
    // the loop runs once the install directory is there and the script's directory can be listed
    ensures r.ending == Failed(MakeInstallDir) <==> MakeDir(fs, InstallDir(env)).Failure?
    ensures r.ending.Finished? <==>
              MakeDir(fs, InstallDir(env)).Success? && Listable(MakeDir(fs, InstallDir(env)).value, env.srcDir)
    ensures MakeDir(fs, InstallDir(env)).Success? && Listable(fs, env.srcDir) ==> r.ending.Finished?
  {
    var dest := InstallDir(env);
    match MakeDir(fs, dest)
    case Failure(_) => Run(fs, Failed(MakeInstallDir), [])
    case Success(fs1) =>
      if !Listable(fs1, env.srcDir) then Run(fs1, Failed(ListSource), [])
      else
        var each := InstallEach(fs1, env.srcDir, dest, Archives(o.listing), o);
        Run(each.0, Finished, each.1)
  }

  /** No archive whose folder is named `esp32s3` is among those installed. */
  predicate NoneSelfNamed(files: seq<string>, outcomes: seq<ArchiveOutcome>) {
    forall i :: 0 <= i < |files| && i < |outcomes| && outcomes[i] == Installed ==>
      BaseName(files[i], ".7z") != TargetName
  }

  lemma NoneSelfNamedSnoc(files: seq<string>, outcomes: seq<ArchiveOutcome>, outcome: ArchiveOutcome)
    requires |files| > 0 && |outcomes| == |files| - 1 && NoneSelfNamed(files[..|files| - 1], outcomes)
    requires outcome == Installed ==> BaseName(files[|files| - 1], ".7z") != TargetName
    ensures NoneSelfNamed(files, outcomes + [outcome])
  {
    forall i | 0 <= i < |files| && (outcomes + [outcome])[i] == Installed
      ensures BaseName(files[i], ".7z") != TargetName
    {
      if i < |outcomes| {
        assert files[..|files| - 1][i] == files[i] && (outcomes + [outcome])[i] == outcomes[i];
      }
    }
  }

  /** No archive whose folder is named `esp32s3` is ever installed. */
  lemma {:induction false} SelfNamedNeverInstalled(fs: FS, srcDir: Path, dest: Path, files: seq<string>, o: Oracles)
    ensures NoneSelfNamed(files, InstallEach(fs, srcDir, dest, files, o).1)
    decreases |files|
  {
    if |files| > 0 {
      var init := files[..|files| - 1];
      SelfNamedNeverInstalled(fs, srcDir, dest, init, o);
      var prev := InstallEach(fs, srcDir, dest, init, o);
      var last := InstallArchive(prev.0, srcDir, dest, files[|files| - 1], o);
      NoneSelfNamedSnoc(files, prev.1, last.outcome);
    }
  }

  /** `extractArchives()`. */
  function Install(fs: FS, env: Environment, o: Oracles): (r: Run)
    ensures r.ending.Skipped? <==> InstallerPrecheck(fs, env).Some?
    ensures r.ending.Skipped? ==> r.fs == fs && r.outcomes == []
    ensures r.ending.Finished? ==> |r.outcomes| == |Archives(o.listing)|
    ensures r.ending.Failed? ==> r.outcomes == []
    ensures r.ending.Finished? && |r.outcomes| > 0 && r.outcomes[|r.outcomes| - 1] == Installed ==>
              InstallDir(env) + [TargetName] in r.fs
    // a failed rename after the target's removal leaves no `esp32s3`, even one an earlier archive placed
    ensures r.ending.Finished? && |r.outcomes| > 0 && r.outcomes[|r.outcomes| - 1] == RenameFailed ==>
              InstallDir(env) + [TargetName] !in r.fs
    // nothing outside the tools directory changes, nor the directory itself
    ensures forall q :: q in fs && !(|env.toolsPath| < |q| && Under(q, env.toolsPath)) ==> q in r.fs && r.fs[q] == fs[q]
    // in the tools directory, only `esp32-arduino-libs@…` folders lose entries
    ensures forall q :: (q in fs && |env.toolsPath| < |q| && Under(q, env.toolsPath) &&
                         !StartsWith(q[|env.toolsPath|], Family(ParentName) + "@")) ==> q in r.fs
  {
    match InstallerPrecheck(fs, env)
    case Some(why) => Run(fs, Skipped(why), [])
    case None =>
      var tools := env.toolsPath;
      var fs1 := RemoveOldVersions(fs, tools, ParentName, o.statFails, o.purgeFails);
      OtherToolsKept(fs, env, o);
      Deploy(fs1, env, o)
  }

  /** With the checks passed, the script's directory outside the tools
      directory, and the install directory creatable, every archive is
      tried: the script finishes with one outcome per archive. */
  lemma InstallRunsEveryArchive(fs: FS, env: Environment, o: Oracles)
    requires InstallerPrecheck(fs, env).None? && Listable(fs, env.srcDir)
    requires !Under(env.srcDir, env.toolsPath)
    requires MkdirP(fs, InstallDir(env)).Success?
    ensures var r := Install(fs, env, o);
            r.ending.Finished? && |r.outcomes| == |Archives(o.listing)|
  {
    var dest := InstallDir(env);
    var fs1 := RemoveOldVersions(fs, env.toolsPath, ParentName, o.statFails, o.purgeFails);
    assert Listable(fs1, env.srcDir);
    assert MkdirP(fs1, dest).Success?;
    assert Install(fs, env, o) == Deploy(fs1, env, o);
  }

  /** Neither the purge nor the install touches anything outside the tools
      directory, the directory itself, or a folder in it outside the
      `esp32-arduino-libs` family. */
  lemma OtherToolsKept(fs: FS, env: Environment, o: Oracles)
    ensures var tools := env.toolsPath;
            var r := Deploy(RemoveOldVersions(fs, tools, ParentName, o.statFails, o.purgeFails), env, o);
            forall q :: q in fs && !(|tools| < |q| && Under(q, tools)) ==> q in r.fs && r.fs[q] == fs[q]
    ensures var tools := env.toolsPath;
            var r := Deploy(RemoveOldVersions(fs, tools, ParentName, o.statFails, o.purgeFails), env, o);
            forall q :: (q in fs && |tools| < |q| && Under(q, tools) &&
                         !StartsWith(q[|tools|], Family(ParentName) + "@")) ==> q in r.fs
  {
    var tools := env.toolsPath;
    var fs1 := RemoveOldVersions(fs, tools, ParentName, o.statFails, o.purgeFails);
    forall q | q in fs && !(|tools| < |q| && Under(q, tools))
      ensures q in fs1 && !Under(q, InstallDir(env))
    {
      if Under(q, InstallDir(env)) {
        UnderTrans(q, InstallDir(env), tools);
      }
    }
    FamilyOfParent();
    forall q | q in fs && |tools| < |q| && Under(q, tools) && !StartsWith(q[|tools|], Family(ParentName) + "@")
      ensures q in fs1 && !Under(q, InstallDir(env))
    {
      OtherChildApart(q, tools, ParentName);
    }
  }

  /** An archive named `esp32s3.7z` never installs: the folder it unpacks to
      is deleted as the old target before the rename. */
  lemma SelfNamedArchiveNeverInstalls(fs: FS, env: Environment, o: Oracles)
    ensures var r := Install(fs, env, o);
            r.ending.Finished? ==> NoneSelfNamed(Archives(o.listing), r.outcomes)
  {
    var r := Install(fs, env, o);
    if r.ending.Finished? {
      var fs1 := RemoveOldVersions(fs, env.toolsPath, ParentName, o.statFails, o.purgeFails);
      var dest := InstallDir(env);
      var fs2 := MakeDir(fs1, dest).value;
      assert r.outcomes == InstallEach(fs2, env.srcDir, dest, Archives(o.listing), o).1;
      SelfNamedNeverInstalled(fs2, env.srcDir, dest, Archives(o.listing), o);
    }
  }

  /** An archive that 7-Zip unpacks within three runs, and whose removal and
      rename go through, lands in `esp32s3`, replacing whatever was there. */
  lemma ArchiveInstalls(fs: FS, srcDir: Path, dest: Path, file: string, o: Oracles)
    requires Listable(fs, dest) && |dest| >= 1
    requires Render(srcDir + [file]) != "" && Render(dest) != ""
    requires exists k :: 1 <= k <= MaxAttempts && o.exits(file, k).Exited? && o.exits(file, k).code == 0
    requires o.removeFaults(file).None? && o.renameFaults(file).None?
    requires BaseName(file, ".7z") != TargetName
    requires [BaseName(file, ".7z")] in o.contents(file) && [] !in o.contents(file)
    ensures var r := InstallArchive(fs, srcDir, dest, file, o);
            && r.outcome == Installed
            && Delivered(r.fs, dest, file, o)
            && dest + [BaseName(file, ".7z")] !in r.fs
  {
    var base := BaseName(file, ".7z");
    var exits := (k: nat) => o.exits(file, k);
    var k :| 1 <= k <= MaxAttempts && o.exits(file, k).Exited? && o.exits(file, k).code == 0;
    assert exits(k).Exited? && exits(k).code == 0;
    var fs1 := ExtractWithRetry(fs, srcDir + [file], dest, exits, o.contents(file)).value;
    assert dest + [] == dest;
    assert Listable(fs1, dest);
    assert dest + [base] in fs1 && fs1[dest + [base]] == o.contents(file)[[base]];
    FolderMovesIntoTarget(fs1, dest, file, o);
  }

  /** When the archive's folder is there and neither the removal nor the
      rename fails, the folder becomes `esp32s3`. */
  lemma FolderMovesIntoTarget(fs: FS, dest: Path, file: string, o: Oracles)
    requires Listable(fs, dest) && |dest| >= 1
    requires o.removeFaults(file).None? && o.renameFaults(file).None?
    requires BaseName(file, ".7z") != TargetName && dest + [BaseName(file, ".7z")] in fs
    ensures var r := MoveIntoTarget(fs, dest, file, o);
            && r.outcome == Installed
            && r.fs[dest + [TargetName]] == fs[dest + [BaseName(file, ".7z")]]
            && dest + [BaseName(file, ".7z")] !in r.fs
            && forall s :: dest + [BaseName(file, ".7z")] + s in fs ==>
                 dest + [TargetName] + s in r.fs && r.fs[dest + [TargetName] + s] == fs[dest + [BaseName(file, ".7z")] + s]
  {
    var base := BaseName(file, ".7z");
    var src := dest + [base];
    var dst := dest + [TargetName];
    UnderChild(dest, TargetName);
    SiblingsApart(dest, base, TargetName);
    assert !Under(dest, dst);
    var fs2 := if dst in fs then RemoveTree(fs, dst) else fs;
    assert Listable(fs2, dest) && dst !in fs2;
    assert src in fs2 && fs2[src] == fs[src];
    assert dst[..|dst| - 1] == dest;
    assert RenameSync(fs2, src, dst, None).Success?;
  }

  /** A path whose component below `p` is not `name` lies outside `p + [name]`. */
  lemma OtherChildApart(q: Path, p: Path, name: string)
    requires |p| < |q| && Under(q, p) && q[|p|] != name
    ensures !Under(q, p + [name])
  {
  }

  /** The scan's family is `esp32-arduino-libs`. */
  lemma FamilyOfParent()
    ensures Family(ParentName) == "esp32-arduino-libs"
    ensures StartsWith(ParentName, Family(ParentName) + "@")
  {
    var f := Family(ParentName);
    assert ParentName[18] == '@';
    assert forall i :: 0 <= i < 18 ==> ParentName[i] != '@';
    assert |f| == 18;
    assert f == ParentName[..18];
    assert ParentName[..19] == f + "@";
  }

  /** The scan deletes every other version's install directory, whichever
      tool put it there: an esp32h2 install of another version goes too. */
  lemma RemovesOtherLibsVersions(fs: FS, env: Environment, o: Oracles, version: string)
    requires InstallerPrecheck(fs, env).None?
    requires Listable(fs, env.toolsPath) && !o.statFails
    requires "esp32-arduino-libs@" + version != ParentName
    requires Listable(fs, env.toolsPath + ["esp32-arduino-libs@" + version])
    requires !o.purgeFails("esp32-arduino-libs@" + version)
    ensures forall q :: Under(q, env.toolsPath + ["esp32-arduino-libs@" + version]) ==> q !in Install(fs, env, o).fs
  {
    var tools := env.toolsPath;
    var name := "esp32-arduino-libs@" + version;
    var gone := tools + [name];
    var dest := InstallDir(env);
    FamilyOfParent();
    assert name[..19] == "esp32-arduino-libs@";
    assert Stale(fs, tools, ParentName, name);
    var fs1 := RemoveOldVersions(fs, tools, ParentName, o.statFails, o.purgeFails);
    assert forall q :: Under(q, gone) ==> q !in fs1;
    assert Install(fs, env, o).fs == Deploy(fs1, env, o).fs;
    assert gone[|tools|] == name && dest[|tools|] == ParentName;
    forall q | Under(q, gone) ensures !Under(q, dest) && !Under(dest, q) {
      assert q[|tools|] == name;
    }
  }
}

=== FILE: strings.dfy ===
/** The JavaScript string and `path` operations the scripts rely on, on
    names that contain no path separator. */
module Strings {
  import opened Wrappers

  predicate StartsWith(s: string, p: string) {
    |p| <= |s| && s[..|p|] == p
  }

  predicate EndsWith(s: string, p: string) {
    |p| <= |s| && s[|s| - |p|..] == p
  }

  /** `pat` occurs in `s` starting at index `i`. */
  predicate OccursAt(s: string, pat: string, i: int) {
    0 <= i && i + |pat| <= |s| && s[i..i + |pat|] == pat
  }

  /** First occurrence of `pat` at or after index `i`. */
  function IndexFrom(s: string, pat: string, i: nat): (r: Option<nat>)
    requires i <= |s|
    ensures r.Some? ==> i <= r.value && OccursAt(s, pat, r.value)
    ensures r.Some? ==> forall j :: i <= j < r.value ==> !OccursAt(s, pat, j)
    ensures r.None? ==> forall j :: i <= j <= |s| ==> !OccursAt(s, pat, j)
    decreases |s| - i
  {
    if OccursAt(s, pat, i) then Some(i)
    else if i == |s| then None
    else IndexFrom(s, pat, i + 1)
  }

  /** `String.prototype.indexOf`: the first index where `pat` occurs. */
  function IndexOf(s: string, pat: string): (r: Option<nat>)
    ensures r.Some? ==> OccursAt(s, pat, r.value)
    ensures r.Some? ==> forall j :: 0 <= j < r.value ==> !OccursAt(s, pat, j)
    ensures r.None? ==> forall j :: 0 <= j <= |s| ==> !OccursAt(s, pat, j)
  {
    IndexFrom(s, pat, 0)
  }

  /** `String.prototype.replace` with a string pattern: only the first
      occurrence is replaced. */
  function ReplaceFirst(s: string, pat: string, rep: string): string {
    match IndexOf(s, pat)
    case None => s
    case Some(i) => s[..i] + rep + s[i + |pat|..]
  }

  lemma OccursAtChar(s: string, c: char, j: int)
    ensures OccursAt(s, [c], j) <==> 0 <= j < |s| && s[j] == c
  {
    if 0 <= j < |s| {
      assert s[j..j + 1] == [s[j]];
    }
  }

  /** Replacing the first `c` by `d` (`"a@b@c".replace('@', '_')`) changes
      exactly one character, the first `c`, and keeps every later `c`. */
  lemma {:induction false} ReplaceFirstChar(s: string, c: char, d: char)
    ensures c !in s ==> ReplaceFirst(s, [c], [d]) == s
    ensures c in s ==> exists i :: 0 <= i < |s| && s[i] == c && c !in s[..i] &&
                                   ReplaceFirst(s, [c], [d]) == s[i := d]
  {
    var pat := [c];
    match IndexOf(s, pat)
    case None =>
      forall j | 0 <= j < |s| ensures s[j] != c {
        OccursAtChar(s, c, j);
      }
    case Some(i) =>
      OccursAtChar(s, c, i);
      forall j | 0 <= j < i ensures s[j] != c {
        OccursAtChar(s, c, j);
      }
      assert c !in s[..i];
      assert s[..i] + [d] + s[i + 1..] == s[i := d];
  }

  /** When the first `c` sits at index `i`, replacing the first `c` by `d`
      rewrites exactly that character. */
  lemma ReplaceFirstCharAt(s: string, c: char, d: char, i: nat)
    requires i < |s| && s[i] == c && c !in s[..i]
    ensures ReplaceFirst(s, [c], [d]) == s[i := d]
  {
    ReplaceFirstChar(s, c, d);
    assert c in s by { assert s[i] == c; }
    var k :| 0 <= k < |s| && s[k] == c && c !in s[..k] && ReplaceFirst(s, [c], [d]) == s[k := d];
  }

  /** Replacing a prefix that is present removes exactly that prefix. */
  lemma RemoveLeadingPattern(prefix: string, rest: string)
    ensures ReplaceFirst(prefix + rest, prefix, "") == rest
  {
    var s := prefix + rest;
    assert OccursAt(s, prefix, 0);
    assert IndexOf(s, prefix) == Some(0);
    assert s[|prefix|..] == rest;
  }

  /** `s.split(c)[0]`: everything before the first `c`, or all of `s`. */
  function BeforeFirst(s: string, c: char): (r: string)
    ensures StartsWith(s, r)
    ensures c !in r
    ensures |r| == |s| || s[|r|] == c
  {
    match IndexOf(s, [c])
    case None =>
      assert forall j :: 0 <= j < |s| ==> s[j] != c by {
        forall j | 0 <= j < |s| ensures s[j] != c { OccursAtChar(s, c, j); }
      }
      s
    case Some(i) =>
      OccursAtChar(s, c, i);
      assert forall j :: 0 <= j < i ==> s[j] != c by {
        forall j | 0 <= j < i ensures s[j] != c { OccursAtChar(s, c, j); }
      }
      s[..i]
  }

  /** Last index of character `c` at or before index `i - 1`. */
  function LastIndexBelow(s: string, c: char, i: nat): (r: Option<nat>)
    requires i <= |s|
    ensures r.Some? ==> r.value < i && s[r.value] == c
    ensures r.Some? ==> forall j :: r.value < j < i ==> s[j] != c
    ensures r.None? ==> forall j :: 0 <= j < i ==> s[j] != c
  {
    if i == 0 then None
    else if s[i - 1] == c then Some(i - 1)
    else LastIndexBelow(s, c, i - 1)
  }

  /** `String.prototype.lastIndexOf` for a single character. */
  function LastIndexOf(s: string, c: char): Option<nat> {
    LastIndexBelow(s, c, |s|)
  }

  /** ASCII lower-casing: the case folding a `/i` regular expression and
      `toLowerCase` agree on for the letters of `7z` and `zip`. */
  function LowerChar(c: char): char {
    if 'A' <= c <= 'Z' then (c as int - 'A' as int + 'a' as int) as char else c
  }

  function Lower(s: string): (r: string)
    ensures |r| == |s|
    ensures forall i :: 0 <= i < |s| ==> r[i] == LowerChar(s[i])
  {
    seq(|s|, i requires 0 <= i < |s| => LowerChar(s[i]))
  }

  /** Case-insensitive suffix test, as a `/…$/i` regular expression. */
  predicate EndsWithIgnoringCase(s: string, suffix: string) {
    |suffix| <= |s| && Lower(s[|s| - |suffix|..]) == Lower(suffix)
  }

  /** `path.extname` on a name without separators: from the last dot to
      the end, except when that dot is the first character, or the name is `..`. */
  function ExtName(name: string): string {
    match LastIndexOf(name, '.')
    case None => ""
    case Some(i) => if i == 0 || name == ".." then "" else name[i..]
  }

  /** `path.basename(name, ext)` on a name without separators. */
  function BaseName(name: string, ext: string): (r: string)
    ensures EndsWith(name, ext) && name != ext ==> r + ext == name
    ensures !EndsWith(name, ext) ==> r == name
  {
    if |ext| == 0 then name
    else if name == ext then ""
    else if EndsWith(name, ext) then name[..|name| - |ext|]
    else name
  }

  /** The archive filter `path.extname(f).toLowerCase() === '.7z'`. */
  predicate IsSevenZip(name: string) {
    Lower(ExtName(name)) == ".7z"
  }

  lemma LowerCharIsDot(c: char)
    ensures LowerChar(c) == '.' <==> c == '.'
  {
  }

  /** The extension filter accepts exactly the names of four or more
      characters whose last three are `.7z` in any letter case. */
  lemma IsSevenZipIff(name: string)
    ensures IsSevenZip(name) <==> |name| >= 4 && Lower(name[|name| - 3..]) == ".7z"
  {
    var n := |name|;
    if IsSevenZip(name) {
      var li := LastIndexOf(name, '.');
      assert li.Some?;
      var i := li.value;
      assert i != 0 && name != "..";
      assert |name[i..]| == 3;
      assert i == n - 3;
    }
    if n >= 4 && Lower(name[n - 3..]) == ".7z" {
      var tail := name[n - 3..];
      assert LowerChar(tail[0]) == '.' && LowerChar(tail[1]) == '7' && LowerChar(tail[2]) == 'z';
      LowerCharIsDot(tail[0]);
      assert name[n - 3] == '.';
      assert name[n - 2] != '.' && name[n - 1] != '.';
      var li := LastIndexOf(name, '.');
      assert li == Some(n - 3);
      assert ExtName(name) == tail;
    }
  }

  /** An exact lower-case `.7z` suffix on a longer name passes the filter. */
  lemma SevenZipSuffixPassesFilter(stem: string)
    requires |stem| > 0
    ensures IsSevenZip(stem + ".7z")
  {
    var name := stem + ".7z";
    assert name[|name| - 3..] == ".7z";
    IsSevenZipIff(name);
  }
}

=== FILE: svd_uninstall.dfy ===
/** `STM32_SVD/uninstall.js`: for every `.7z` archive shipped next to the
    script, delete the folder named after it from the tools directory and,
    when that name holds `@`, also the folder the bossac-style rename
    would have produced. Each deletion is tried three times; a failure is
    logged and the next folder is tried. */
module SvdUninstall {
  import opened Wrappers
  import opened Strings
  import opened Naming
  import opened FileSystem
  import opened Common

  /** Everything the script cannot decide by itself. */
  datatype Oracles = Oracles(
    listing: seq<string>,                  // what `readdir(srcDir)` returns, in order
    faults: (Path, nat) -> Option<string>) // the k-th `rmSync` of a path throws this

  /** The only failure after the prechecks: the listing rejects, the outer
      handler logs it and the script stops. */
  datatype Step = ListSource

  /** One `removeDir` under `withRetry`, and whether it resolved. */
  datatype Removal = Removal(path: Path, removed: bool)

  datatype Run = Run(fs: FS, ending: Ending<Step>, log: seq<Removal>)

  /** Lines 90 and 106-107: the folders cleaned for one archive. */
  function Folders(file: string): (r: seq<string>)
    ensures 1 <= |r| <= 2 && r[0] == BaseName(file, ".7z")
    ensures |r| == 2 <==> '@' in r[0]
    ensures |r| == 2 ==> r[1] == RenamedFolder(r[0])
  {
    var folder := BaseName(file, ".7z");
    if '@' in folder then [folder, RenamedFolder(folder)] else [folder]
  }

  /** The paths cleaned for one archive, in the order they are cleaned. */
  function FolderPaths(tools: Path, file: string): (r: seq<Path>)
    ensures forall p :: p in r ==> |p| == |tools| + 1 && Under(p, tools)
    ensures forall n :: n in Folders(file) ==> tools + [n] in r
    ensures forall p :: p in r ==> exists n :: n in Folders(file) && p == tools + [n]
  {
    var folders := Folders(file);
    assert forall n :: (tools + [n])[..|tools|] == tools;
    if |folders| == 2 then [tools + [folders[0]], tools + [folders[1]]] else [tools + [folders[0]]]
  }

  /** The paths cleaned, in the order the loop cleans them. */
  function Targets(tools: Path, files: seq<string>): (r: seq<Path>)
    ensures forall p :: p in r ==> |p| == |tools| + 1 && Under(p, tools)
    ensures forall file, n :: file in files && n in Folders(file) ==> tools + [n] in r
    // and nothing else: every path is a folder some listed archive names
    ensures forall p :: p in r ==> exists file, n :: file in files && n in Folders(file) && p == tools + [n]
    decreases |files|
  {
    if |files| == 0 then []
    else
      var init := files[..|files| - 1];
      var last := files[|files| - 1];
      assert forall file :: file in files ==> file in init || file == last;
      assert forall file :: file in init ==> file in files;
      Targets(tools, init) + FolderPaths(tools, last)
  }

  /** Some attempt at deleting `p` goes through. */
  predicate Removable(o: Oracles, p: Path) {
    exists k :: 1 <= k <= MaxAttempts && o.faults(p, k).None?
  }

  /** Lines 20-33 under `withRetry`: a missing folder counts as removed. */
  function RemoveDir(fs: FS, p: Path, o: Oracles): (r: (FS, Removal))
    ensures r.1 == Removal(p, p !in fs || Removable(o, p))
    ensures forall q :: q in r.0 <==> q in fs && !(Under(q, p) && p in fs && Removable(o, p))
    ensures forall q :: q in r.0 ==> r.0[q] == fs[q]
  {
    var faults := (k: nat) => AsFault(o.faults(p, k));
    match CleanFolder(fs, p, false, faults)
    case Success(fs1) =>
      assert p in fs ==> Removable(o, p) by {
        if p in fs {
          var k :| 1 <= k <= MaxAttempts && faults(k).NoFault?;
        }
      }
      (fs1, Removal(p, true))
    case Failure(_) => (fs, Removal(p, false))
  }

  /** `q` lies in a folder of `paths` that existed and whose deletion
      goes through. */
  predicate Gone(fs: FS, paths: seq<Path>, o: Oracles, q: Path) {
    exists p :: p in paths && Under(q, p) && p in fs && Removable(o, p)
  }

  /** Two paths of one depth lie one below the other only when equal. */
  lemma SameDepthUnder(a: Path, b: Path)
    requires |a| == |b| && Under(a, b)
    ensures a == b
  {
  }

  /** `Gone` for one more folder at the end. */
  lemma GoneSnoc(fs: FS, init: seq<Path>, last: Path, o: Oracles, q: Path)
    ensures Gone(fs, init + [last], o, q) <==> Gone(fs, init, o, q) || (Under(q, last) && last in fs && Removable(o, last))
  {
    if Gone(fs, init + [last], o, q) {
      var p :| p in init + [last] && Under(q, p) && p in fs && Removable(o, p);
      if p != last {
        assert p in init;
      }
    }
    if Gone(fs, init, o, q) {
      var p :| p in init && Under(q, p) && p in fs && Removable(o, p);
      assert p in init + [last];
    }
    if Under(q, last) && last in fs && Removable(o, last) {
      assert last in init + [last];
    }
  }

  /** Among folders of one depth, a folder is gone exactly when it is one of
      them, existed and its deletion goes through. */
  lemma GoneAtDepth(fs: FS, paths: seq<Path>, depth: nat, o: Oracles, p: Path)
    requires forall x :: x in paths ==> |x| == depth
    requires |p| == depth
    ensures Gone(fs, paths, o, p) <==> p in paths && p in fs && Removable(o, p)
  {
    if Gone(fs, paths, o, p) {
      var x :| x in paths && Under(p, x) && x in fs && Removable(o, x);
      SameDepthUnder(p, x);
    }
    if p in paths && p in fs && Removable(o, p) {
      assert Under(p, p);
    }
  }

  /** The folders `paths`, all of one depth, one after another. */
  function RemoveEach(fs: FS, paths: seq<Path>, depth: nat, o: Oracles): (r: (FS, seq<Removal>))
    requires forall p :: p in paths ==> |p| == depth
    ensures forall q :: q in r.0 <==> q in fs && !Gone(fs, paths, o, q)
    ensures forall q :: q in r.0 ==> r.0[q] == fs[q]
    ensures |r.1| == |paths|
    ensures forall i :: 0 <= i < |paths| ==>
              r.1[i].path == paths[i] && (r.1[i].removed <==> paths[i] !in fs || Removable(o, paths[i]))
    decreases |paths|
  {
    if |paths| == 0 then (fs, [])
    else
      var init := paths[..|paths| - 1];
      var last := paths[|paths| - 1];
      assert paths == init + [last];
      var prev := RemoveEach(fs, init, depth, o);
      var cur := prev.0;
      var step := RemoveDir(cur, last, o);
      // `last` is missing now only when it was missing or already deleted
      GoneAtDepth(fs, init, depth, o, last);
      assert last in cur <==> last in fs && !(last in init && Removable(o, last));
      forall q ensures q in step.0 <==> q in fs && !Gone(fs, paths, o, q) {
        GoneSnoc(fs, init, last, o, q);
        if Under(q, last) && last in fs && last !in cur {
          assert Gone(fs, init, o, q) by {
            assert last in init && Removable(o, last);
          }
        }
      }
      var log := prev.1 + [step.1];
      assert forall i :: 0 <= i < |init| ==> log[i] == prev.1[i] && paths[i] == init[i];
      (step.0, log)
  }

  /** Lines 83-122: the loop over the archives, on the tools directory. */
  function Sweep(fs: FS, tools: Path, files: seq<string>, o: Oracles): (r: (FS, seq<Removal>))
    ensures forall q :: q in r.0 <==> q in fs && !Gone(fs, Targets(tools, files), o, q)
    // only deletes, and only below the tools directory
    ensures forall q :: q in r.0 ==> q in fs && r.0[q] == fs[q]
    ensures forall q :: q in fs && !(|tools| < |q| && Under(q, tools)) ==> q in r.0
    // a cleaned folder survives only when it always fails to delete
    ensures forall p :: p in Targets(tools, files) ==> (p in r.0 <==> p in fs && !Removable(o, p))
    // one entry per folder, in loop order; a folder reported removed is gone
    ensures |r.1| == |Targets(tools, files)|
    ensures forall i :: 0 <= i < |r.1| ==> r.1[i].path == Targets(tools, files)[i]
    ensures forall i :: 0 <= i < |r.1| ==> (r.1[i].removed <==> r.1[i].path !in r.0)
  {
    var paths := Targets(tools, files);
    var depth := |tools| + 1;
    var each := RemoveEach(fs, paths, depth, o);
    forall q | q in fs && !(|tools| < |q| && Under(q, tools)) ensures q in each.0 {
      if Gone(fs, paths, o, q) {
        var p :| p in paths && Under(q, p) && p in fs && Removable(o, p);
        UnderTrans(q, p, tools);
      }
    }
    forall p | p in paths ensures p in each.0 <==> p in fs && !Removable(o, p) {
      GoneAtDepth(fs, paths, depth, o, p);
    }
    each
  }

  /** Sweeping again with the same failures deletes nothing more. */
  lemma SweepIdempotent(fs: FS, tools: Path, files: seq<string>, o: Oracles)
    ensures var r := Sweep(fs, tools, files, o).0;
            Sweep(r, tools, files, o).0 == r
  {
    RemoveEachIdempotent(fs, Targets(tools, files), |tools| + 1, o);
  }

  lemma RemoveEachIdempotent(fs: FS, paths: seq<Path>, depth: nat, o: Oracles)
    requires forall p :: p in paths ==> |p| == depth
    ensures var r := RemoveEach(fs, paths, depth, o).0;
            RemoveEach(r, paths, depth, o).0 == r
  {
    var r := RemoveEach(fs, paths, depth, o).0;
    var again := RemoveEach(r, paths, depth, o).0;
    forall q | q in r ensures q in again {
      assert !Gone(r, paths, o, q) by {
        // a listed folder that survived always fails to delete
        forall p | p in paths && p in r ensures !Removable(o, p) {
          GoneAtDepth(fs, paths, depth, o, p);
        }
      }
    }
    assert again.Keys == r.Keys;
  }

  /** `cleanupExtractedFolders()`. */
  function Cleanup(fs: FS, env: Environment, o: Oracles): (r: Run)
    ensures r.ending.Skipped? <==> UninstallerPrecheck(fs, env, env.toolsPath).Some?
    ensures !r.ending.Finished? ==> r.fs == fs && r.log == []
    ensures r.ending.Finished? <==> Listable(fs, env.srcDir) && UninstallerPrecheck(fs, env, env.toolsPath).None?
    ensures r.ending.Finished? ==> (r.fs, r.log) == Sweep(fs, env.toolsPath, Archives(o.listing), o)
  {
    match UninstallerPrecheck(fs, env, env.toolsPath)
    case Some(why) => Run(fs, Skipped(why), [])
    case None =>
      if !Listable(fs, env.srcDir) then Run(fs, Failed(ListSource), [])
      else
        var swept := Sweep(fs, env.toolsPath, Archives(o.listing), o);
        Run(swept.0, Finished, swept.1)
  }

  /** A second run with the same failures deletes nothing more: what
      survived the first run is either outside every cleaned folder or in
      one whose deletion always fails. */
  lemma CleanupIdempotent(fs: FS, env: Environment, o: Oracles)
    ensures Cleanup(Cleanup(fs, env, o).fs, env, o).fs == Cleanup(fs, env, o).fs
  {
    var r := Cleanup(fs, env, o);
    if r.ending.Finished? {
      SweepIdempotent(fs, env.toolsPath, Archives(o.listing), o);
    }
  }

  /** For a bossac archive `<tool>@<version>.7z` both folders bossac can
      leave behind, `<tool>@<version>` and `<tool>_<version>`, are deleted
      when their deletion goes through. */
  lemma RemovesBothBossacFolders(fs: FS, env: Environment, o: Oracles, pkg: Package)
    requires UninstallerPrecheck(fs, env, env.toolsPath).None? && Listable(fs, env.srcDir)
    requires ZipFileName(pkg.name, pkg.version) in o.listing
    requires var folder := StripArchiveExt(ZipFileName(pkg.name, pkg.version));
             Removable(o, env.toolsPath + [folder]) && Removable(o, env.toolsPath + [RenamedFolder(folder)])
    ensures var folder := StripArchiveExt(ZipFileName(pkg.name, pkg.version));
            var r := Cleanup(fs, env, o);
            && env.toolsPath + [folder] !in r.fs
            && env.toolsPath + [RenamedFolder(folder)] !in r.fs
  {
    var tools := env.toolsPath;
    var zip := ZipFileName(pkg.name, pkg.version);
    var folder := StripArchiveExt(zip);
    var files := Archives(o.listing);
    assert zip == (ToolName(pkg.name) + "@" + pkg.version) + ".7z";
    SevenZipSuffixPassesFilter(ToolName(pkg.name) + "@" + pkg.version);
    assert zip in files;
    var i :| 0 <= i < |files| && files[i] == zip;
    BaseNameAgreesOnZipFileName(pkg.name, pkg.version);
    StripZipFileName(pkg.name, pkg.version);
    assert folder[|ToolName(pkg.name)|] == '@';
    assert Folders(zip) == [folder, RenamedFolder(folder)];
    assert tools + [folder] in Targets(tools, files) && tools + [RenamedFolder(folder)] in Targets(tools, files);
  }

  /** The filter accepts `.7Z`, but the base name strips only a lower-case
      `.7z`: for `tool.7Z` the folder deleted is `tool.7Z`, not `tool`. */
  lemma UpperCaseExtensionKept()
    ensures IsSevenZip("tool.7Z")
    ensures Folders("tool.7Z") == ["tool.7Z"]
  {
    var name := "tool.7Z";
    assert name[|name| - 3..] == ".7Z";
    assert Lower(".7Z") == ".7z" by {
      assert LowerChar('.') == '.' && LowerChar('7') == '7' && LowerChar('Z') == 'z';
    }
    IsSevenZipIff(name);
    assert !EndsWith(name, ".7z") by { assert name[|name| - 3..] != ".7z"; }
    assert '@' !in name;
  }
}

=== FILE: unpack.dfy ===
/** `unpack(archivePath, destination)`, the same in every installer: check
    both paths, spawn `7za x <archive> -y -o<dest>`, collect the child's
    stdout and stderr, and map the exit code. The child process is an oracle
    giving how it ends. */
module Unpack {
  import opened Wrappers
  import opened Retry

  /** How the 7-Zip child process ends. */
  datatype ChildExit =
    | SpawnError(message: string)
      // the 'error' event: the executable could not be started
    | Exited(code: int, output: seq<string>)
      // the 'exit' event; `output` holds the stdout and stderr chunks in
      // the order they arrived

  datatype UnpackError =
    | EmptyArchivePath
    | EmptyDestination
    | SpawnFailed(message: string)
    | ExitCode(code: int, output: string)  // a non-zero exit, with everything the child wrote

  /** The argument vector handed to `spawn` (when it is called) and how the
      promise settles. */
  datatype UnpackRun = UnpackRun(argv: Option<seq<string>>, result: Result<(), UnpackError>)

  /** `output += chunk.toString()` over every chunk. */
  function Concat(chunks: seq<string>): string {
    if |chunks| == 0 then "" else Concat(chunks[..|chunks| - 1]) + chunks[|chunks| - 1]
  }

  /** The 7-Zip command line: extract with full paths, answer yes to every
      prompt, write into `dest`. */
  function Args(archive: string, dest: string): seq<string> {
    ["x", archive, "-y", "-o" + dest]
  }

  /** One call of `unpack`. */
  function Unpack(archive: string, dest: string, child: ChildExit): (r: UnpackRun)
    ensures archive == "" ==> r == UnpackRun(None, Failure(EmptyArchivePath))
    ensures archive != "" && dest == "" ==> r == UnpackRun(None, Failure(EmptyDestination))
    ensures archive != "" && dest != "" ==> r.argv == Some(Args(archive, dest))
    ensures r.result.Success? <==> archive != "" && dest != "" && child.Exited? && child.code == 0
    ensures archive != "" && dest != "" && child.SpawnError? ==> r.result == Failure(SpawnFailed(child.message))
    ensures archive != "" && dest != "" && child.Exited? && child.code != 0 ==>
              r.result == Failure(ExitCode(child.code, Concat(child.output)))
  {
    if archive == "" then UnpackRun(None, Failure(EmptyArchivePath))
    else if dest == "" then UnpackRun(None, Failure(EmptyDestination))
    else
      var argv := Args(archive, dest);
      match child
      case SpawnError(m) => UnpackRun(Some(argv), Failure(SpawnFailed(m)))
      case Exited(code, output) =>
        if code == 0 then UnpackRun(Some(argv), Success(()))
        else UnpackRun(Some(argv), Failure(ExitCode(code, Concat(output))))
  }

  /** `withRetry(() => unpack(archive, dest), maxRetries, …)`, the k-th child
      ending as `exits(k)`. */
  function UnpackWithRetry(archive: string, dest: string, exits: nat -> ChildExit, maxRetries: int): (r: RetryRun<(), UnpackError>)
    ensures r.result.Success? ==> exits(r.calls).Exited? && exits(r.calls).code == 0 && archive != "" && dest != ""
    ensures r.result.Success? ==> forall k :: 1 <= k < r.calls ==> !(exits(k).Exited? && exits(k).code == 0)
    ensures archive == "" && maxRetries >= 1 ==> r.result == Failure(GaveUp(maxRetries, EmptyArchivePath)) && r.calls == maxRetries
    ensures maxRetries >= 1 && archive != "" && dest != "" && (forall k :: 1 <= k <= maxRetries ==> exits(k).SpawnError?) ==>
              r.result.Failure? && r.calls == maxRetries
  {
    var script := (k: nat) => Unpack(archive, dest, exits(k)).result;
    var r := WithRetry(script, maxRetries);
    assert r.result.Success? ==> script(r.calls).Success?;
    if r.result.Success? then
      assert forall k :: 1 <= k < r.calls ==> Unpack(archive, dest, exits(k)).result.Failure? by {
        forall k | 1 <= k < r.calls ensures Unpack(archive, dest, exits(k)).result.Failure? {
          assert script(k).Failure?;
        }
      }
      r
    else r
  }
}

=== FILE: wrappers.dfy ===
/** Failure-carrying values shared by every module of the model. */
module Wrappers {

  /** A value that may be missing: an unset environment variable, an absent index. */
  datatype Option<+T> = None | Some(value: T)

  /** The settled state of a JavaScript promise: resolved with a value or rejected with an error. */
  datatype Result<+T, +E> = Success(value: T) | Failure(error: E)
}
